=== FILE: README.md ===
# Gateway client and voice processors of interactions.py, modelled in Dafny

This project models the core of the interactions.py Discord library's
WebSocket gateway client and its voice event processors. It states and
proves what that code does with each frame it receives.

The gateway client:
- reads messages off the socket and decides whether to deliver, reconnect,
  wait or raise (`__receive_packet`);
- tracks the sequence number and session on every frame (`_handle_stream`);
- answers heartbeat requests and acks;
- reconnects on INVALID_SESSION and RECONNECT, by resuming or by identifying
  afresh (`_reconnect`);
- reconnects from the heartbeat loop when an ack went missing
  (`_manage_heartbeat`);
- builds the IDENTIFY, RESUME, HEARTBEAT and PRESENCE_UPDATE payloads;
- lets a heartbeat bypass the rate limiter (`_send_packet`);
- turns every DISPATCH into library events (`_dispatch_event`).

Dispatch has two branches:
- An interaction is wrapped in a context (`__contextualize`). Its command
  options are flattened into keyword arguments (`__sub_command_context`,
  `__option_type_context`). It is then handed to a `command_…`,
  `component_…`, `autocomplete_…` or `modal_…` handler.
- Any other event updates the entity cache. A create or add merges the object
  in. An update reports `before` and `after`. A delete or remove pops the key.
  The cached guild's child list is edited in step.

The voice processors turn a VOICE_STATE_UPDATE into state-update, mute,
deafen, move, join and leave events. They hand the bot's own updates to its
voice connection.

Module layout:

| module | file | models |
|---|---|---|
| Wrappers | wrappers.dfy | `Option`, `Result` and the library's error kinds |
| Text | text.dfy | the Python string operations the client uses: ASCII `lower` and `capitalize`, `split`, `in` and slicing |
| Entities | entities.dfy | snowflakes, cache keys, entities and the per-model cache stores |
| Receive | receive.dfy | `__receive_packet`: message classification and the receive loop |
| Payloads | payloads.dfy | the outgoing payloads, their JSON shape and their decoder, and the rate-limit bypass |
| Session | session.dfy | session state, `_handle_stream`, `_reconnect`, `run`'s start-up, the heartbeat tick and `_update_presence` |
| Options | options.dfy | `__option_type_context` and `__sub_command_context` |
| Interactions | interactions.dfy | `__contextualize` and the `INTERACTION_CREATE` branch of `_dispatch_event` |
| GuildLists | guildlists.dfy | the nested `__modify_guild_cache` |
| Reconciler | reconciler.dfy | the entity branch of `_dispatch_event`: model name, cache key and create/update/delete handling |
| Dispatch | dispatch.dfy | `_dispatch_event` as a whole |
| Voice | voice.dfy | `_on_raw_voice_state_update` and `_on_raw_voice_server_update` |

How Python behaviour is represented:
- An uncaught Python exception is an `Err` of the matching kind.
- A `KeyError` is `KeyMissing`.
- `LibraryException(code)` is `LibraryError(code)`.
- The `AttributeError` that `_dispatch_event` catches is `AttributeMissing`. That branch ends with the outcome `Dropped`.
- `__modify_guild_cache` reads the child list under the lower-cased name
  (`channels`) but writes it back with `setattr` under the un-lowered one
  (`Channels`). Whether that write raises depends on whether the Guild
  class declares `__slots__`, which is not part of this model. It is a
  configuration flag (`guildSlotted`). When the write raises, the list has
  already been edited in place, and the `AttributeError` handler drops the
  rest of the entity branch.
- The model follows the code where the code and its comments disagree. For
  example, the comment about suppressing close code 4001 is not borne out by
  the code: every code from 4000 up raises.

## Model

| member | source | states |
|---|---|---|
| Receive.Classify | interactions/api/gateway/client.py:748-796 | A close code of 4000 or more raises that code. A lower close code reconnects (resuming unless the code is 1000) and reads on, but raises when the read is forced. CLOSED reconnects when the closed flag is set and waits otherwise. CLOSING waits. A text message is delivered. A non-text message delivers nothing. A message without data is skipped. |
| Receive.HighCodesNeverReconnect | interactions/api/gateway/client.py:751-757 | Whether or not the read is forced, a close code of 4000 or more raises and is never read past. |
| Receive.ResumeIffAbnormal | interactions/api/gateway/client.py:765-766 | An unforced close below 4000 reconnects with that code. It resumes exactly when the code is not 1000, the normal closure of section 7.4.1 of RFC 6455. |
| Receive.ReceiveAll | interactions/api/gateway/client.py:740-796 | The loop reads no more messages than arrived. It stops only on a return or a raise, or when the input runs out. A forced read never triggers a reconnect. |
| Receive.Receive | interactions/api/gateway/client.py:740-796 | The iterative loop takes exactly the actions, outcome and message count of the recursive definition `ReceiveAll`. |
| Receive.ForcedReadTakesNoAction | interactions/api/gateway/client.py:742-790 | A forced read (the hello read of `run` and `_reconnect`) never waits and never reconnects. |
| Receive.SkipsEmptyFrames | interactions/api/gateway/client.py:793-796 | Data-less messages before a text message are read past. The loop returns that text after exactly k+1 reads. |
| Receive.CloseThenText | interactions/api/gateway/client.py:748-766 | An abnormal close followed by a text message records one resuming reconnect and then returns the text. |
| Payloads.Encode | interactions/api/gateway/client.py:829-892 | Every payload is an object with exactly `op` and `d`, in that order. A heartbeat's `d` is the last sequence number or null. A presence update's `d` is the presence. |
| Payloads.DecodeEncode | interactions/api/gateway/client.py:829-865 | Decoding an encoded IDENTIFY, RESUME, HEARTBEAT or PRESENCE_UPDATE payload gives back the payload. The only normalisation is an empty shard list, which is left out when encoded. |
| Payloads.DecodeIdentifyBody | interactions/api/gateway/client.py:829-845 | The IDENTIFY body decodes back to its token, intents, OS, shard and presence. |
| Payloads.DecodeResumeBody | interactions/api/gateway/client.py:853-856 | The RESUME body decodes back to its token, sequence number and session id. |
| Payloads.IdentifyFields | interactions/api/gateway/client.py:829-845 | The IDENTIFY body's properties are `$os` together with `$browser` and `$device`, which are both "interactions.py". It carries `shard` exactly when a non-empty shard list is set. Its `presence` is exactly the stored presence, absent when none is set. |
| Payloads.NeedsPermit | interactions/api/gateway/client.py:808-810 | Every payload except a heartbeat waits for the rate limiter. |
| Session.PlanReconnect | interactions/api/gateway/client.py:691-727 | A reconnect fails with `AttributeError` unless READY stored a dict in `_ready`. An open connection is closed with the given code. A resume goes to the resume URL and sends RESUME with the token, sequence number and session id. A fresh identify goes to the stored gateway URL when it is truthy (otherwise a new one is fetched) and sends IDENTIFY with the stored shard and presence. |
| Session.Reconnect | interactions/api/gateway/client.py:691-730 | A successful reconnect records the plan, then sends its handshake. It leaves the session connected with the ack and closed flags set. It fails exactly when the plan does. |
| Session.HandleReady | interactions/api/gateway/client.py:301-310 | READY marks the session ready and emits `on_ready` first. It completes exactly when the body has both the `session_id` and the `resume_gateway_url` key. Then it copies both, reading a JSON null as None. A missing key raises `KeyError`, and a body that is not an object raises `TypeError`. It emits `on_start` and marks the session started only the first time. |
| Session.HandleControl | interactions/api/gateway/client.py:280-297 | A control frame never emits a library event. It never changes the sequence number, the started flag or the cache. |
| Session.HandleDispatch | interactions/api/gateway/client.py:299-313 | Only READY changes the session. A READY dispatch emits `on_ready`, followed by `on_start` exactly when the session became started. |
| Session.HandleStream | interactions/api/gateway/client.py:272-313 | The sequence number is replaced by a frame's `s` exactly when that is truthy. Frames other than READY never start the session or emit a library event. A started session stays started. |
| Session.HandleStreamLifecycle | interactions/api/gateway/client.py:301-310 | One frame emits `on_ready` once if it is READY and never otherwise. It emits `on_start` exactly once if it started the session. |
| Session.RunFrames | interactions/api/gateway/client.py:244-272 | The receive loop handles no more messages than arrived. It handles all of them unless one raised. Every message before the last one handled was a frame. A non-text message (None) raises `AttributeError` at `stream.get` and ends the run. |
| Session.RunLifecycle | interactions/api/gateway/client.py:244-313 | Over any run, `started` is never switched off. `on_start` is emitted at most once, and exactly once if the run started the session. `on_ready` is emitted once per READY handled. |
| Session.RunSequence | interactions/api/gateway/client.py:276-278 | After a run the session holds the last truthy sequence number among the frames handled. A non-text message carries none. |
| Session.AckSetsOnlyAck | interactions/api/gateway/client.py:285-288 | HEARTBEAT_ACK sets the ack flag and changes nothing else besides the sequence number. |
| Session.HeartbeatRequestAnswered | interactions/api/gateway/client.py:283-284 | A HEARTBEAT request is answered by exactly one heartbeat carrying the current sequence number. |
| Session.InvalidSessionReconnects | interactions/api/gateway/client.py:290-293 | INVALID_SESSION clears the ready flag. Before READY it raises `AttributeError`. After READY it reconnects and sends one handshake, which is RESUME exactly when `d` is truthy. A resume goes to the resume URL. |
| Session.ReconnectOpResumes | interactions/api/gateway/client.py:295-297 | RECONNECT resumes at the resume URL with the token, the updated sequence number and the session id. |
| Session.ReconnectBeforeReadyRaises | interactions/api/gateway/client.py:694-697 | A RECONNECT that arrives before any READY raises `AttributeError`, because `_ready` was never assigned. |
| Session.HelloInterval | interactions/api/gateway/client.py:233-235 | The heartbeat interval is the hello frame's `d.heartbeat_interval`, with a JSON null read as None. A missing `d`, or a `d` without the interval, raises `KeyError`. A missing frame, a null `d` or a boolean `d` raises `TypeError`. |
| Session.HelloOpcodeIgnored | interactions/api/gateway/client.py:233-235 | The first frame's opcode is not checked: any frame with the interval key serves as hello. |
| Session.Start | interactions/api/gateway/client.py:229-242 | Start-up stores the gateway URL and takes the interval from hello. It sends one IDENTIFY with the stored shard and presence. It sets the closed and ack flags. It fails exactly when reading the interval raises. A null interval does not make it fail: the delay is then None. |
| Session.HeartbeatTick | interactions/api/gateway/client.py:199-210 | A tick after an ack sends one heartbeat. A tick with the ack missing reconnects by resuming and then sends the heartbeat. Before READY it stops the loop instead. After a tick that carries on, the ack flag is clear. |
| Session.AckedTickDoesNotReconnect | interactions/api/gateway/client.py:205-210 | When an ack arrives between two ticks, the second tick only sends a heartbeat. |
| Session.MissedAckReconnects | interactions/api/gateway/client.py:205-207 | When no ack arrives between two ticks, the second tick reconnects with a RESUME, or stops the loop before READY. |
| Session.UpdatePresence | interactions/api/gateway/client.py:877-892 | A presence update stores the presence, changes nothing else and sends one PRESENCE_UPDATE carrying it. |
| Session.PresenceSurvivesReconnect | interactions/api/gateway/client.py:724-725 | A fresh identify after a presence update carries that presence. |
| Dispatch.DispatchEvent | interactions/api/gateway/client.py:319-540 | `raw_socket_create` always goes out first. An interaction never changes the cache. TYPING_START and the voice events only produce the raw event. A frame without `t` raises `AttributeError` after the raw event. A frame that raises produces nothing further and leaves the cache alone. With an unslotted guild class, so does a dropped frame. |
| Dispatch.DispatchInteraction | interactions/api/gateway/client.py:331-430 | The interaction branch leaves the cache unchanged. Its calls follow the raw event, and a failed interaction produces nothing further. |
| Dispatch.DispatchEntity | interactions/api/gateway/client.py:431-540 | The entity branch's events follow the raw event. A raising frame produces nothing further and leaves the cache unchanged. With an unslotted guild class, so does a dropped frame. |
| Dispatch.EntityEventsFollowRaw | interactions/api/gateway/client.py:431-537 | For a known model, the dispatched events are the raw event followed by exactly the entity branch's events, and the cache is the entity branch's. |
| Dispatch.InteractionEventsFollowRaw | interactions/api/gateway/client.py:328-426 | For an interaction, the dispatched events are the raw event followed by exactly the interaction branch's calls. |
| Interactions.Contextualize | interactions/api/gateway/client.py:542-567 | PING gets no context. A message component gets a component context. A command, autocomplete or modal submit gets a command context over the same payload. Any other type raises `AttributeError`. |
| Interactions.CommandKwargs | interactions/api/gateway/client.py:341-355 | Merging the options' flattened dicts never loses a keyword already present. |
| Interactions.PlainOptionsBecomeKwargs | interactions/api/gateway/client.py:341-355 | Plain options with distinct names produce exactly one keyword per option, bound to its resolved value. |
| Interactions.SingleSubCommandKwargs | interactions/api/gateway/client.py:354-355 | A command whose only option is a sub-command hands the handler exactly that sub-command's flattened keywords. |
| Interactions.FirstFocused | interactions/api/gateway/client.py:383-394 | With no focused sub-option, the name and arguments are unchanged. Otherwise the name only grows by a suffix and at most one argument is added. |
| Interactions.FirstFocusedTakesFirst | interactions/api/gateway/client.py:383-394 | The first focused sub-option decides the loop. Its name is the suffix, and its value is added when truthy. A focused sub-option without a value raises `KeyError`. Options before it play no part. |
| Interactions.AutocompleteWalk | interactions/api/gateway/client.py:367-411 | The autocomplete handler name always starts with `autocomplete_<id>`. The arguments only grow. |
| Interactions.FocusedLeafNamesHandler | interactions/api/gateway/client.py:371-381 | The first focused top-level leaf with a truthy value names the handler `<name>_<option>`, passes its value and ends the walk. |
| Interactions.NoFocusNoSuffix | interactions/api/gateway/client.py:367-411 | Without a focused option, the handler is `autocomplete_<id>` and gets only the context. |
| Interactions.FalsyFocusContinues | interactions/api/gateway/client.py:376-381 | A focused leaf with a falsy value adds its suffix but does not end the walk, so a later focused leaf adds its own suffix and value. |
| Interactions.FirstValues | interactions/api/gateway/client.py:416-420 | One argument per action row that has components, and none for empty rows. |
| Interactions.FirstValuesConcat | interactions/api/gateway/client.py:416-420 | The first values of two runs of rows are the first values of each, concatenated. Rows are visited in order, and each contributes on its own. |
| Interactions.FirstValuesFromRows | interactions/api/gateway/client.py:416-420 | Every modal argument is the first value of some non-empty action row. |
| Interactions.InteractionEvents | interactions/api/gateway/client.py:331-430 | A payload with a falsy `type` dispatches nothing. Otherwise there are three or four calls, ending with `on_interaction` and `on_interaction_create`, each with the single context argument. Among the known types, only a command or an autocomplete can fail. An unknown type raises `AttributeError` when its context is built. |
| Interactions.CommandCall | interactions/api/gateway/client.py:338-357 | A command with plain options dispatches `on_command`, then `command_<name>` with the context and one keyword per option, then the two closing events. |
| Interactions.ComponentCall | interactions/api/gateway/client.py:358-364 | A component calls `component_<custom_id>`, adding its values as one argument exactly when they are truthy. |
| Interactions.ModalCall | interactions/api/gateway/client.py:414-422 | A modal submit calls `modal_<custom_id>` with the context followed by the first value of each action row. |
| Interactions.PingCalls | interactions/api/gateway/client.py:424-426 | A PING calls the empty-named handler and the two closing events, each with None as the context. |
| Interactions.UnknownTypeRaises | interactions/api/gateway/client.py:552-567 | An interaction type without a context class raises `AttributeError`. |
| Options.OptionTypeContext | interactions/api/gateway/client.py:657-689 | USER resolves against members in a guild and users in a DM. CHANNEL, ROLE and ATTACHMENT use their own bundles. MENTIONABLE merges users or members with roles, roles winning on a shared key. Any other type gives the empty dict. |
| Options.ResolveValue | interactions/api/gateway/client.py:343-353 | With a non-empty bundle, the option's string value is replaced by the resolved object, and a value not in the bundle raises `KeyError`. Otherwise the option is unchanged. Its name, type and focus are kept. |
| Options.CheckAuto | interactions/api/gateway/client.py:586-587 | A focused option yields its `(name, value)` pair, or raises when it has no value. An unfocused one yields nothing. |
| Options.CollectLeaves | interactions/api/gateway/client.py:597-618 | The sub-option loop never drops a keyword already present. |
| Options.CollectGroup | interactions/api/gateway/client.py:619-646 | The group loop never drops a keyword already present. |
| Options.SubCommandContext | interactions/api/gateway/client.py:569-655 | A focused option short-circuits to its pair. A bare SUB_COMMAND gives `sub_command = name`. A plain option gives `name = value` unless the value is null. A SUB_COMMAND always records `sub_command` and a group always records `sub_command_group`. Nested options under any other type give nothing. |
| Options.LeavesKeepReserved | interactions/api/gateway/client.py:597-618 | A keyword that no sub-option names survives the sub-option loop unchanged. |
| Options.LeavesKeys | interactions/api/gateway/client.py:597-618 | When every sub-option contributes, the loop adds exactly the sub-options' names. |
| Options.LeavesValues | interactions/api/gateway/client.py:597-618 | When every sub-option contributes under a distinct name, each name maps to its resolved value. |
| Options.LeavesEntries | interactions/api/gateway/client.py:597-618 | The sub-option loop adds exactly one `name -> resolved value` entry per sub-option. |
| Options.SubCommandFlattens | interactions/api/gateway/client.py:594-618 | A SUB_COMMAND flattens to `sub_command = name` plus one entry per sub-option, and nothing else. |
| Options.FocusedLeafShortCircuits | interactions/api/gateway/client.py:597-616 | The first focused sub-option ends the flattening with its own unresolved pair. |
| Options.GroupNamesRecorded | interactions/api/gateway/client.py:619-646 | A SUB_COMMAND_GROUP records its own name under `sub_command_group` and the last member's name under `sub_command`. |
| Options.GroupLoop | interactions/api/gateway/client.py:621-646 | The group loop sets `sub_command` to the last group member's name and keeps every reserved keyword. |
| Reconciler.TwoWordName | interactions/api/gateway/client.py:432-436 | An event `A_B` names the model `Capitalize(A)`: the last word is the action and is dropped. |
| Reconciler.ThreeWordName | interactions/api/gateway/client.py:432-436 | An event `A_B_C` names the model `Capitalize(A) + Capitalize(B)`. |
| Reconciler.ModelNameOfWords | interactions/api/gateway/client.py:432-436 | The model name is every underscore-separated word but the last, each capitalised, joined. |
| Reconciler.ChannelCreateModel | interactions/api/gateway/client.py:432-436 | CHANNEL_CREATE is handled by the `Channel` model. |
| Reconciler.GuildMemberAddModel | interactions/api/gateway/client.py:432-436 | GUILD_MEMBER_ADD is handled by the `GuildMember` model. |
| Reconciler.CapitalizeAllLower | interactions/api/gateway/client.py:432-436 | Lower-casing the words first does not change the model name. |
| Reconciler.DeriveKey | interactions/api/gateway/client.py:444-471 | A member is keyed by `(guild_id, user id)` and raises without `guild_id`. Any other object with an id is keyed by it. `GuildScheduledEventUser` falls back to the class attribute. The uncached models and non-guild models without an id get no key. A member without an `id` attribute drops the frame. Any other "Guild…" model without an id is keyed by the id of its attribute named after the prefix-stripped class name. Failing that, it is keyed by that name's `_id` attribute, and otherwise it gets no key. That name is not lower-cased, so for `GuildRole` it is `Role`, not `role`. |
| Reconciler.UnknownModelDropped | interactions/api/gateway/client.py:437-540 | An event naming no known model produces no event and changes no cache. |
| Reconciler.FailsBeforeEffects | interactions/api/gateway/client.py:431-540 | An uncaught error is raised before any event goes out or the cache changes. With an unslotted guild class, a dropped frame also has no events and no cache change. |
| Reconciler.CreatePolicy | interactions/api/gateway/client.py:502-506 | A create or add emits `on_<name>(obj)`. With a key, the store then holds the object, merged into the cached value if there was one. Without a key, the store is unchanged. The frame is dropped, after all of that, exactly when the guild write-back raises. This holds for every model, the Guild model's own GUILD_CREATE included: a Guild object never reaches the guild lists. |
| Reconciler.UpdateCachedPolicy | interactions/api/gateway/client.py:508-525 | An update of a cached key emits `on_raw_<name>`, then `on_<name>(before, after)`, with the cached value as before and the merge as after. The store holds the merge. When the guild write-back raises, `on_<name>` is not emitted and the frame is dropped. It holds for GUILD_UPDATE too. |
| Reconciler.UpdateUncachedPolicy | interactions/api/gateway/client.py:508-525 | An update of an uncached key reports before as None, unless the guild write-back raises first. The store holds the new object. It holds for GUILD_UPDATE too. |
| Reconciler.UpdateWithoutIdPolicy | interactions/api/gateway/client.py:508-511 | An object without an `id` attribute gets only the raw event and leaves the cache untouched. |
| Reconciler.DeleteKeyedPolicy | interactions/api/gateway/client.py:527-532 | A delete or remove with a key emits the raw event, then `on_<name>` with the popped value. The key is then absent from the store, and every other key is unchanged. When the guild write-back raises, only the raw event goes out, nothing is popped and the frame is dropped. It holds for GUILD_DELETE too. |
| Reconciler.DeleteUnkeyedPolicy | interactions/api/gateway/client.py:527-534 | A delete without a key leaves the cache unchanged. It emits a second event only for bulk deletes. |
| Reconciler.CreateThenUpdateHasBefore | interactions/api/gateway/client.py:502-525 | After a create has cached a key, an update of that key reports the stored value as before, unless its guild write-back raises. Guild events are included. |
| Reconciler.CreateUpdateDeleteClears | interactions/api/gateway/client.py:502-532 | A create, update and delete of the same key leave it absent from the store. If the delete's guild write-back raises, the key stays cached. Guild events are included. |
| Reconciler.CreateAppendsToGuild | interactions/api/gateway/client.py:473-506 | A create of a guild child appends the object to the cached guild's matching list, whether or not the write-back then raises. |
| GuildLists.FirstMatch | interactions/api/gateway/client.py:491-498 | The edit loop stops at the first element whose id equals the key, and only there. |
| GuildLists.ListAttribute | interactions/api/gateway/client.py:483-487 | The list attribute is the lower-cased model name plus "s". The "Guild" prefix is stripped only when a lower-case "guild" occurs. "threadmembers" names no list. |
| GuildLists.ModifyGuildCache | interactions/api/gateway/client.py:473-500 | Without a `guild_id`, for a Guild object, for a message event or without a key, nothing changes and nothing raises. Only the one cached guild can change, and no other model's store does. It raises exactly when the guild holds the list and the slotted guild class rejects the write-back name. An unslotted guild never raises. |
| GuildLists.WriteBackName | interactions/api/gateway/client.py:483-499 | The write-back target is the stripped model name plus "s", without lower-casing. |
| GuildLists.ModifyEditsOneList | interactions/api/gateway/client.py:487-500 | The lower-cased list changes exactly by the list edit, whether or not the write-back raises. When it does not raise, the un-lowered attribute also holds the edited list. No other list and none of the guild's other fields change. |
| GuildLists.WriteBackNamesDiffer | interactions/api/gateway/client.py:483-499 | A `Channel` edit reads `channels` and writes `Channels`. A `GuildMember` edit reads `guildmembers` and writes `GuildMembers`. |
| GuildLists.WriteBackAliases | interactions/api/gateway/client.py:487-500 | When the two names differ, a slotted guild without the write name raises after the in-place edit. An unslotted guild gains the write name as an extra attribute holding the edited list. |
| GuildLists.ChannelWriteBack | interactions/api/gateway/client.py:487-500 | For a `Channel` child, a slotted guild raises, and an unslotted one gains a `Channels` list equal to its edited `channels` list. |
| GuildLists.EditCreateAppends | interactions/api/gateway/client.py:489-490 | A create or add appends exactly the new object. |
| GuildLists.EditRemoveTakesFirstMatch | interactions/api/gateway/client.py:491-494 | A remove takes out the first element with the key's id and keeps every other element in order. |
| GuildLists.EditUpdateReplacesInPlace | interactions/api/gateway/client.py:491-497 | An update replaces the first element with the key's id in place and keeps every other position. |
| GuildLists.RepeatedCreateDuplicates | interactions/api/gateway/client.py:489-490 | A repeated create appends a second copy: the list is not kept free of duplicates. |
| GuildLists.MemberKeyNeverEdits | interactions/api/gateway/client.py:491-498 | A member's tuple key never equals an element's id, so member updates and removals leave the list as it was. |
| GuildLists.GuildPrefixKept | interactions/api/gateway/client.py:483-487 | A `GuildMember` child is looked up in `guildmembers`, because the lower-case test never strips the prefix. |
| GuildLists.ChannelList | interactions/api/gateway/client.py:483-487 | A `Channel` child lives in the guild's `channels` list. |
| Text.Split | interactions/api/gateway/client.py:435 | `str.split(sep)` gives at least one piece. No piece contains the separator, and joining the pieces with it gives back the string. |
| Text.SplitJoin | interactions/api/gateway/client.py:435 | Splitting a join of separator-free pieces gives back those pieces, so split and join are inverses. |
| Voice.Changes | interactions/api/events/processors/voice_events.py:31-37 | For a user with both states, a mute event is dispatched exactly when either mute flag changed, a deafen event exactly when either deaf flag changed, and a move event exactly when the channel changed. They come in that order and carry the new state. |
| Voice.OnVoiceStateUpdate | interactions/api/events/processors/voice_events.py:15-41 | The update raises `KeyError` exactly when `bot` is missing, or when a bot's update has no `guild_id`. Otherwise the state update goes first with the new state. A bot's update is forwarded exactly when its guild has a voice connection. A user's update is compared with the cached state and never forwarded. |
| Voice.OnVoiceServerUpdate | interactions/api/events/processors/voice_events.py:43-47 | A server update raises without `guild_id`. It is forwarded exactly when the guild has a bot voice connection. |
| Voice.BothPresent | interactions/api/events/processors/voice_events.py:28-37 | With both states known, the events are the state update followed by exactly the change events, and never a join or a leave. |
| Voice.UnchangedStateIsQuiet | interactions/api/events/processors/voice_events.py:31-37 | An update that repeats the cached state produces the state update alone. |
| Voice.OnlyAfterJoins | interactions/api/events/processors/voice_events.py:38-39 | With only the new state known, one join follows the state update. |
| Voice.OnlyBeforeLeaves | interactions/api/events/processors/voice_events.py:40-41 | With only the old state known, one leave carrying the old state follows. |
| Voice.NeitherStateQuiet | interactions/api/events/processors/voice_events.py:28-41 | With neither state known, only the state update goes out. |
| Voice.BotUpdateOnlyStateUpdate | interactions/api/events/processors/voice_events.py:19-25 | A bot's update produces exactly one state update. It is forwarded exactly when the matching server update would be. |
| Voice.JoinLeaveExclusive | interactions/api/events/processors/voice_events.py:31-41 | At most one join or leave is dispatched per update. |

## Left out

Not modelled:
- asyncio scheduling, meaning tasks, locks, `wait`, `wait_for` timeouts and cancellation. Each coroutine is modelled as the sequence of effects it issues, and the interleaving of concurrent tasks is not.
- `__heartbeat_event` and `_closing_lock`: these are asyncio events, so they are left out for the same reason.
- Clocks: `perf_counter` and the latency figures.
- JSON text: `dumps` and `loads` are not modelled. Payloads are modelled as a JSON tree.
- The WebSocket transport and `ws_connect`. Incoming messages are a parameter.
- HTTP, `get_gateway` and the rate limiter. The gateway URL is an input, and only the bypass decision is modelled.
- The dynamic `__import__`/`getattr` model lookup, which becomes a map from model name to class facts.
- Model constructors and the field merge of `Storage.merge`. The merge is an uninterpreted parameter.
- The internals of `Storage`, which is not part of this model. It is taken to be a map keyed by the derived key.
- The Guild model class, which is not part of this model. Whether it rejects undeclared attributes is the `guildSlotted` flag of `Session.Env`.
- `_client` and `_http` attribute writes on resolved objects. They have no effect on what is dispatched.
- `place_voice_state_data` and the voice connection's callbacks. Their outcome is a parameter (the new state), and forwarding is a flag.
- Logging.
- The re-export modules (`discord_slash`, `interactions/models`).
- Unicode case mapping: `lower` and `capitalize` are ASCII-only.
- `context.data.resolved` being None. The resolved data is always a record whose bundles may be None.
- The in-place write-back of resolved option values. A command's context argument is modelled with the payload as received.

Contracts that are deliberately weaker than the source:
- GuildLists.ModifyGuildCache: a slotted guild is taken to accept exactly the list attributes it already holds. A slotted class that declares the un-lowered name without holding a list there is not distinguished.
- Session.Reconnect: does not model the forced hello read of the new connection. A failure there raises, as `Session.HelloInterval` shows for start-up.
- Session.HeartbeatTick: the reconnect is modelled as completing. In the source, `_reconnect` cancels the heartbeat task that called it and the final `__heartbeat_event.set()` ends the respawned loop. Both depend on asyncio scheduling.
- Interactions.CommandKwargs: a focused `(name, value)` pair passed to `dict.update` is modelled as a failure (`FocusedInCommand`). Python would accept a pair whose two elements are both 2-character strings.
- Dispatch.DispatchEvent: a frame body that is an object is always truthy. An empty `d` dict is not distinguished from a full one.
- Receive.ReceiveAll: the reconnects it records are decisions. Their effect on the session is `Session.Reconnect`'s.

=== FILE: dispatch.dfy ===
/** `_dispatch_event`: every dispatched Gateway event first goes out as a
    raw socket event, then either the interaction branch, nothing (for
    typing and voice events, handled elsewhere), or the entity branch. */
module Dispatch {
  import opened Wrappers
  import opened Entities
  import opened Reconciler
  import opened Interactions

  /** A dict payload, read three ways: its `guild_id`, the model built
      from it, and the interaction it describes. */
  datatype EventData = EventData(guildId: Option<Snowflake>, obj: Entity, interaction: Interaction)

  /** A key of a JSON object read with `obj[key]`: missing (a
      `KeyError`), present with a JSON null (read as None), or present
      with a value. */
  datatype Field<+T> = KeyAbsent | JsonNull | Has(value: T)

  /** What `obj[key]` yields when it does not raise. */
  function FieldValue<T>(f: Field<T>): (r: Option<T>)
    requires !f.KeyAbsent?
    ensures r.None? <==> f.JsonNull?
    ensures f.Has? ==> r == Some(f.value)
  {
    if f.Has? then Some(f.value) else None
  }

  /** The `d` of a Gateway frame: a missing key, a JSON null, a boolean,
      or an object.  `frame.get("d")` reads the first two alike; only
      `frame["d"]` tells them apart.  An object also carries what the
      handshake and READY handlers read: `heartbeat_interval`,
      `session_id` and `resume_gateway_url`. */
  datatype Body =
    | Absent
    | Null
    | Flag(b: bool)
    | Object(interval: Field<int>, sessionId: Field<string>, resumeUrl: Field<string>, event: EventData)

  /** `bool(data)`.  The Gateway never sends an empty object, so every
      object counts as truthy. */
  predicate BodyTruthy(d: Body) {
    match d
    case Absent => false
    case Null => false
    case Flag(b) => b
    case Object(_, _, _, _) => true
  }

  /** One `dispatch(...)` of `_dispatch_event`. */
  datatype Dispatched = RawSocket(data: Body) | EntityEvt(entity: EntityEvent) | InteractionEvt(call: Call)

  /** Events handled by other processors. */
  predicate Untracked(event: string) {
    event == "TYPING_START" || event == "VOICE_STATE_UPDATE" || event == "VOICE_SERVER_UPDATE"
  }

  function WrapEntity(es: seq<EntityEvent>): (r: seq<Dispatched>)
    ensures |r| == |es|
    ensures forall i :: 0 <= i < |es| ==> r[i] == EntityEvt(es[i])
  {
    if |es| == 0 then [] else [EntityEvt(es[0])] + WrapEntity(es[1..])
  }

  function WrapCalls(cs: seq<Call>): (r: seq<Dispatched>)
    ensures |r| == |cs|
    ensures forall i :: 0 <= i < |cs| ==> r[i] == InteractionEvt(cs[i])
  {
    if |cs| == 0 then [] else [InteractionEvt(cs[0])] + WrapCalls(cs[1..])
  }

  datatype DispatchResult = DispatchResult(cache: Cache, events: seq<Dispatched>, outcome: Outcome)

  /** The interaction branch: the raw event, then the interaction's calls. */
  function DispatchInteraction(c: Cache, data: Body): (r: DispatchResult)
    ensures r.cache == c && |r.events| >= 1 && r.events[0] == RawSocket(data)
    ensures r.outcome != Completed ==> |r.events| == 1
  {
    var raw := RawSocket(data);
    if !data.Object? then DispatchResult(c, [raw], Raised(AttributeMissing))
    else match InteractionEvents(data.event.interaction)
      case Ok(calls) => DispatchResult(c, [raw] + WrapCalls(calls), Completed)
      case Err(e) => DispatchResult(c, [raw], Raised(e))
  }

  /** The entity branch: the raw event, then the reconciled entity events. */
  function DispatchEntity(models: Models, c: Cache, event: string, data: Body, merge: Merge, slotted: bool): (r: DispatchResult)
    ensures |r.events| >= 1 && r.events[0] == RawSocket(data)
    ensures r.outcome.Raised? ==> |r.events| == 1 && r.cache == c
    ensures !slotted && r.outcome != Completed ==> |r.events| == 1 && r.cache == c
  {
    var raw := RawSocket(data);
    if ModelName(event) !in models then DispatchResult(c, [raw], Dropped)
    else if !data.Object? then DispatchResult(c, [raw], Raised(TypeMismatch))
    else
      var ed := data.event;
      var step := Reconcile(models, c, event, ed.guildId, ed.obj, merge, slotted);
      FailsBeforeEffects(models, c, event, ed.guildId, ed.obj, merge, slotted);
      DispatchResult(step.cache, [raw] + WrapEntity(step.events), step.outcome)
  }

  /** `_dispatch_event(event, data)`.  `event` is None when the frame has
      no `t`; lower-casing it then raises.  A payload that is not an
      object raises when the interaction branch calls `.get` on it and
      when the entity branch writes `_client` into it.  On a guild class
      that rejects undeclared attributes (`slotted`) the entity branch can
      also be dropped part-way, after some events and cache writes. */
  function DispatchEvent(models: Models, c: Cache, event: Option<string>, data: Body, merge: Merge,
                         slotted: bool): (r: DispatchResult)
    ensures |r.events| >= 1 && r.events[0] == RawSocket(data)
    ensures event == Some("INTERACTION_CREATE") ==> r.cache == c
    ensures event.Some? && Untracked(event.value) ==> r == DispatchResult(c, [RawSocket(data)], Completed)
    ensures event.None? ==> r == DispatchResult(c, [RawSocket(data)], Raised(AttributeMissing))
    ensures r.outcome.Raised? ==> |r.events| == 1 && r.cache == c
    ensures !slotted && r.outcome != Completed ==> |r.events| == 1 && r.cache == c
  {
    if event == Some("INTERACTION_CREATE") then DispatchInteraction(c, data)
    else if event.None? then DispatchResult(c, [RawSocket(data)], Raised(AttributeMissing))
    else if Untracked(event.value) then DispatchResult(c, [RawSocket(data)], Completed)
    else DispatchEntity(models, c, event.value, data, merge, slotted)
  }

  /** The entity branch behind the raw event: the cache and the events
      are exactly those of `Reconcile`. */
  lemma EntityEventsFollowRaw(models: Models, c: Cache, event: string, ed: EventData, merge: Merge,
                              slotted: bool, d: Body)
    requires event != "INTERACTION_CREATE" && !Untracked(event)
    requires ModelName(event) in models
    requires d.Object? && d.event == ed
    ensures var r := DispatchEvent(models, c, Some(event), d, merge, slotted);
            var step := Reconcile(models, c, event, ed.guildId, ed.obj, merge, slotted);
            && r.cache == step.cache
            && r.outcome == step.outcome
            && |r.events| == 1 + |step.events|
            && (forall k :: 0 <= k < |step.events| ==> r.events[k + 1] == EntityEvt(step.events[k]))
  {
    var step := Reconcile(models, c, event, ed.guildId, ed.obj, merge, slotted);
    assert DispatchEvent(models, c, Some(event), d, merge, slotted) == DispatchEntity(models, c, event, d, merge, slotted);
    assert DispatchEntity(models, c, event, d, merge, slotted) ==
           DispatchResult(step.cache, [RawSocket(d)] + WrapEntity(step.events), step.outcome);
  }

  /** The interaction branch behind the raw event: the calls of
      `InteractionEvents`, in order, and no cache change. */
  lemma InteractionEventsFollowRaw(models: Models, c: Cache, d: Body, merge: Merge, slotted: bool)
    requires d.Object? && InteractionEvents(d.event.interaction).Ok?
    ensures var r := DispatchEvent(models, c, Some("INTERACTION_CREATE"), d, merge, slotted);
            var calls := InteractionEvents(d.event.interaction).value;
            && r.cache == c && r.outcome == Completed
            && |r.events| == 1 + |calls|
            && (forall k :: 0 <= k < |calls| ==> r.events[k + 1] == InteractionEvt(calls[k]))
  {
  }
}

=== FILE: entities.dfy ===
/** The entity cache the Gateway client writes into: decoded models, their
    identifiers and the per-model keyed stores.  Model constructors and
    field definitions stay abstract: an entity is reduced to the
    attributes that the dispatch logic consults. */
module Entities {
  import opened Wrappers

  /** A Discord identifier, a 64-bit unsigned number. */
  type Snowflake = x: nat | x < 0x1_0000_0000_0000_0000

  /** What `getattr(obj, "id", None)` and `hasattr(obj, "id")` see. */
  datatype IdAttr = NoIdAttr | IdAttr(value: Option<Snowflake>)

  /** A decoded model instance, reduced to what dispatch looks at:
      - `id`: its own `id` attribute;
      - `refs`: attributes holding a nested object (or dict) whose `id`
        is recorded; a name absent here reads as None;
      - `ids`: attributes holding an identifier or None;
      - `lists`: list-valued attributes, e.g. a guild's `channels`. */
  datatype Entity = Entity(
    id: IdAttr,
    refs: map<string, Option<Snowflake>>,
    ids: map<string, Option<Snowflake>>,
    lists: map<string, seq<Entity>>)

  /** `getattr(obj, "id", None)`. */
  function IdValue(e: Entity): (r: Option<Snowflake>)
    ensures r.Some? ==> e.id.IdAttr? && e.id.value == r
  {
    if e.id.IdAttr? then e.id.value else None
  }

  /** A cache key: a single identifier, the `(guild_id, member.id)` pair
      used for members, or the class-level attribute object that the
      scheduled-event-user branch reads off the model class. */
  datatype Key =
    | Id(snowflake: Snowflake)
    | MemberPair(guild: Snowflake, member: Option<Snowflake>)
    | ClassAttribute

  /** The `__obj.id == id` comparison of a list element against a key:
      a Snowflake never equals a tuple or a class attribute. */
  predicate IdMatches(e: Entity, key: Key) {
    key.Id? && e.id == IdAttr(Some(key.snowflake))
  }

  /** One model's storage; the key None is a valid Python dict key. */
  type Store = map<Option<Key>, Entity>

  /** The process-wide cache: one store per model class name. */
  type Cache = map<string, Store>

  function StoreOf(c: Cache, model: string): (s: Store)
    ensures model in c ==> s == c[model]
    ensures model !in c ==> s == map[]
  {
    if model in c then c[model] else map[]
  }

  /** `storage.get(key)`. */
  function Get(c: Cache, model: string, key: Option<Key>): (r: Option<Entity>)
    ensures r.Some? <==> key in StoreOf(c, model)
    ensures r.Some? ==> r.value == StoreOf(c, model)[key]
  {
    var s := StoreOf(c, model);
    if key in s then Some(s[key]) else None
  }

  /** `storage.add(item, key)`: the entry for `key` becomes `item`. */
  function Put(c: Cache, model: string, key: Option<Key>, item: Entity): (r: Cache)
    ensures Get(r, model, key) == Some(item)
    ensures forall k :: k != key ==> Get(r, model, k) == Get(c, model, k)
    ensures forall m :: m != model ==> StoreOf(r, m) == StoreOf(c, m)
  {
    c[model := StoreOf(c, model)[key := item]]
  }

  /** `storage.pop(key)` without the returned value: the entry is gone. */
  function Remove(c: Cache, model: string, key: Option<Key>): (r: Cache)
    ensures Get(r, model, key) == None
    ensures forall k :: k != key ==> Get(r, model, k) == Get(c, model, k)
    ensures forall m :: m != model ==> StoreOf(r, m) == StoreOf(c, m)
  {
    c[model := StoreOf(c, model) - {key}]
  }

  /** The field merge `old.update(**new._json)`, left uninterpreted:
      every operation that merges takes it as a parameter. */
  type Merge = (Entity, Entity) -> Entity

  /** `storage.merge(item, key)`: field-merge into a cached entry, insert
      otherwise. */
  function MergeInto(c: Cache, model: string, key: Option<Key>, item: Entity, merge: Merge): (r: Cache)
    ensures Get(c, model, key).Some? ==> Get(r, model, key) == Some(merge(Get(c, model, key).value, item))
    ensures Get(c, model, key).None? ==> Get(r, model, key) == Some(item)
    ensures forall k :: k != key ==> Get(r, model, k) == Get(c, model, k)
    ensures forall m :: m != model ==> StoreOf(r, m) == StoreOf(c, m)
  {
    match Get(c, model, key)
    case Some(cached) => Put(c, model, key, merge(cached, item))
    case None => Put(c, model, key, item)
  }
}

=== FILE: guildlists.dfy ===
/** Maintenance of a cached guild's child lists (`guild.channels`,
    `guild.members`, ...) when a child entity is created, updated or
    removed: the nested `__modify_guild_cache` of `_dispatch_event`. */
module GuildLists {
  import opened Wrappers
  import opened Text
  import opened Entities

  /** The event-name tests of the dispatcher, applied to the lower-cased
      event name. */
  predicate IsCreateName(name: string) { Contains(name, "_create") || Contains(name, "_add") }
  predicate IsUpdateName(name: string) { Contains(name, "_update") }
  predicate IsRemoveName(name: string) { Contains(name, "_remove") || Contains(name, "_delete") }

  /** The index the `for index, __obj in enumerate(_obj)` loop stops at:
      the first element whose id equals the key. */
  function FirstMatch(l: seq<Entity>, key: Key): (r: Option<nat>)
    ensures r.Some? ==> r.value < |l| && IdMatches(l[r.value], key)
    ensures r.Some? ==> forall j :: 0 <= j < r.value ==> !IdMatches(l[j], key)
    ensures r.None? <==> forall j :: 0 <= j < |l| ==> !IdMatches(l[j], key)
  {
    if |l| == 0 then None
    else if IdMatches(l[0], key) then Some(0)
    else match FirstMatch(l[1..], key)
      case None => None
      case Some(i) => Some(i + 1)
  }

  /** The elements whose id does not equal the key, in order. */
  function Others(l: seq<Entity>, key: Key): seq<Entity> {
    if |l| == 0 then []
    else (if IdMatches(l[0], key) then [] else [l[0]]) + Others(l[1..], key)
  }

  /** The list edit: append on create/add, then at the first element with
      the key's id remove it (remove/delete) or replace it by the new
      object (update, when the object has an `id` attribute). */
  function EditList(l: seq<Entity>, name: string, obj: Entity, key: Key): seq<Entity> {
    var grown := if IsCreateName(name) then l + [obj] else l;
    match FirstMatch(grown, key)
    case None => grown
    case Some(i) =>
      if IsRemoveName(name) then grown[..i] + grown[i + 1..]
      else if IsUpdateName(name) && obj.id.IdAttr? then grown[i := obj]
      else grown
  }

  /** `model_name` after the lower-case `"guild" in model_name` test has
      stripped a five-character prefix. */
  function Stripped(modelName: string): string {
    if Contains(modelName, "guild") then DropPrefix(modelName, 5) else modelName
  }

  /** The attribute of the guild that holds the child list: the stripped
      name, lower-cased, plus "s".  `"threadmembers"` is compared
      verbatim and has no list. */
  function ListAttribute(modelName: string): (r: Option<string>)
    ensures r.Some? ==> |r.value| >= 1 && r.value[|r.value| - 1] == 's'
    ensures Contains(modelName, "guild") ==> r == Some(Lower(DropPrefix(modelName, 5)) + "s")
    ensures !Contains(modelName, "guild") ==> (r.None? <==> modelName == "threadmembers")
    ensures !Contains(modelName, "guild") && modelName != "threadmembers" ==> r == Some(Lower(modelName) + "s")
  {
    if Contains(modelName, "guild") then Some(Lower(DropPrefix(modelName, 5)) + "s")
    else if modelName == "threadmembers" then None
    else Some(Lower(modelName) + "s")
  }

  /** The attribute the edited list is written back to with `setattr`:
      the stripped name plus "s", NOT lower-cased. */
  function WriteBackName(modelName: string): (r: string)
    ensures |r| == |Stripped(modelName)| + 1 && r[|r| - 1] == 's'
    ensures r[..|r| - 1] == Stripped(modelName)
  {
    Stripped(modelName) + "s"
  }

  /** Whether that `setattr` raises `AttributeError`.  `slotted` says
      whether the guild class rejects attributes it does not declare
      (`__slots__`); the declared list attributes are the keys of
      `lists`.  An unslotted guild accepts any name. */
  predicate WriteBackRaises(guild: Entity, modelName: string, slotted: bool) {
    slotted && WriteBackName(modelName) !in guild.lists
  }

  /** The gate of `__modify_guild_cache`: a truthy `guild_id`, an object
      that is not a Guild, a name without "message", and a key. */
  predicate Applies(name: string, isGuild: bool, guildId: Option<Snowflake>, key: Option<Key>) {
    guildId.Some? && !isGuild && !Contains(name, "message") && key.Some?
  }

  /** The conditions under which `__modify_guild_cache` reaches the
      `setattr` and it raises: the gate passes, the guild is cached, it
      holds the list under the lower-cased name, and the un-lowered name
      is rejected. */
  predicate WriteBackFails(c: Cache, name: string, modelName: string, isGuild: bool,
                           guildId: Option<Snowflake>, key: Option<Key>, slotted: bool) {
    && Applies(name, isGuild, guildId, key)
    && Get(c, "Guild", Some(Id(guildId.value))).Some?
    && ListAttribute(modelName).Some?
    && ListAttribute(modelName).value in Get(c, "Guild", Some(Id(guildId.value))).value.lists
    && WriteBackRaises(Get(c, "Guild", Some(Id(guildId.value))).value, modelName, slotted)
  }

  /** The cache after `__modify_guild_cache`, and whether it raised. */
  datatype GuildEdit = GuildEdit(cache: Cache, raised: bool)

  /** `__modify_guild_cache`: edit the matching child list of the cached
      guild in place, write it back under the un-lowered name, and store
      the guild again.  When the write-back raises, the in-place edit has
      already happened (the cache holds that very guild object) but the
      final `add` is skipped. */
  function ModifyGuildCache(c: Cache, name: string, modelName: string, isGuild: bool,
                            guildId: Option<Snowflake>, obj: Entity, key: Option<Key>,
                            slotted: bool): (r: GuildEdit)
    ensures !Applies(name, isGuild, guildId, key) ==> r == GuildEdit(c, false)
    ensures Applies(name, isGuild, guildId, key) && Get(c, "Guild", Some(Id(guildId.value))).None? ==>
      r == GuildEdit(c, false)
    ensures r.raised <==> WriteBackFails(c, name, modelName, isGuild, guildId, key, slotted)
    ensures !slotted ==> !r.raised
    ensures forall m :: m != "Guild" ==> StoreOf(r.cache, m) == StoreOf(c, m)
    ensures guildId.Some? ==>
      forall k :: k != Some(Id(guildId.value)) ==> Get(r.cache, "Guild", k) == Get(c, "Guild", k)
  {
    if !Applies(name, isGuild, guildId, key) then GuildEdit(c, false)
    else
      var gk := Some(Id(guildId.value));
      match Get(c, "Guild", gk)
      case None => GuildEdit(c, false)
      case Some(guild) =>
        match ListAttribute(modelName)
        case None => GuildEdit(c, false)
        case Some(attr) =>
          if attr !in guild.lists then GuildEdit(Put(c, "Guild", gk, guild), false)
          else
            var edited := EditList(guild.lists[attr], name, obj, key.value);
            var inPlace := guild.(lists := guild.lists[attr := edited]);
            if WriteBackRaises(guild, modelName, slotted) then GuildEdit(Put(c, "Guild", gk, inPlace), true)
            else GuildEdit(Put(c, "Guild", gk, inPlace.(lists := inPlace.lists[WriteBackName(modelName) := edited])), false)
  }

  /** The guild after the edit: its lower-cased list changes exactly by
      `EditList`; when the write-back succeeds, the un-lowered attribute
      also holds the edited list (a second name for it when the two names
      differ); no other list and no other field changes. */
  lemma ModifyEditsOneList(c: Cache, name: string, modelName: string, isGuild: bool,
                           guildId: Option<Snowflake>, obj: Entity, key: Option<Key>,
                           slotted: bool, attr: string)
    requires Applies(name, isGuild, guildId, key)
    requires Get(c, "Guild", Some(Id(guildId.value))).Some?
    requires ListAttribute(modelName) == Some(attr)
    ensures var guild := Get(c, "Guild", Some(Id(guildId.value))).value;
            var r := ModifyGuildCache(c, name, modelName, isGuild, guildId, obj, key, slotted);
            var guild' := Get(r.cache, "Guild", Some(Id(guildId.value))).value;
            var edited := if attr in guild.lists then EditList(guild.lists[attr], name, obj, key.value) else [];
            var back := WriteBackName(modelName);
            && guild'.id == guild.id && guild'.refs == guild.refs && guild'.ids == guild.ids
            && (attr !in guild.lists ==> guild' == guild && !r.raised)
            && (attr in guild.lists ==> guild'.lists[attr] == edited)
            && (attr in guild.lists && r.raised ==> guild'.lists == guild.lists[attr := edited])
            && (attr in guild.lists && !r.raised ==> guild'.lists == guild.lists[attr := edited][back := edited])
            && (forall a :: a in guild.lists && a != attr && a != back ==> guild'.lists[a] == guild.lists[a])
  {
  }

  lemma WriteBackOfUnprefixed(n: string)
    requires !Contains(n, "guild")
    ensures WriteBackName(n) == n + "s"
  {
  }

  /** The write-back name of a class name without a lower-case "guild". */
  lemma LiteralWriteBackName(n: string, w: string)
    requires (n == "Channel" && w == "Channels") || (n == "GuildMember" && w == "GuildMembers")
    ensures WriteBackName(n) == w
  {
    NoLowerGuild(n);
    WriteBackOfUnprefixed(n);
    assert n + "s" == w;
  }

  /** With a capitalised class name the lower-cased list and the
      write-back target are different attributes: a `Channel` edit reads
      `channels` and writes `Channels`, a `GuildMember` edit reads
      `guildmembers` and writes `GuildMembers`. */
  lemma WriteBackNamesDiffer(channel: string, member: string)
    requires channel == "Channel" && member == "GuildMember"
    ensures ListAttribute(channel) == Some("channels") && WriteBackName(channel) == "Channels"
    ensures ListAttribute(member) == Some("guildmembers") && WriteBackName(member) == "GuildMembers"
  {
    ChannelList(channel);
    LiteralWriteBackName(channel, "Channels");
    GuildPrefixKept(member);
    LiteralWriteBackName(member, "GuildMembers");
  }

  /** When the read and write names differ, a slotted guild that does not
      declare the write name raises after its list was edited in place,
      and an unslotted guild gains the write name as a second attribute
      holding the edited list. */
  lemma WriteBackAliases(c: Cache, name: string, modelName: string, guildId: Option<Snowflake>,
                         obj: Entity, key: Option<Key>, attr: string)
    requires Applies(name, false, guildId, key)
    requires Get(c, "Guild", Some(Id(guildId.value))).Some?
    requires ListAttribute(modelName) == Some(attr) && WriteBackName(modelName) != attr
    requires attr in Get(c, "Guild", Some(Id(guildId.value))).value.lists
    requires WriteBackName(modelName) !in Get(c, "Guild", Some(Id(guildId.value))).value.lists
    ensures ModifyGuildCache(c, name, modelName, false, guildId, obj, key, true).raised
    ensures var guild := Get(c, "Guild", Some(Id(guildId.value))).value;
            var guild' := Get(ModifyGuildCache(c, name, modelName, false, guildId, obj, key, false).cache,
                              "Guild", Some(Id(guildId.value))).value;
            var edited := EditList(guild.lists[attr], name, obj, key.value);
            && guild'.lists.Keys == guild.lists.Keys + {WriteBackName(modelName)}
            && guild'.lists[WriteBackName(modelName)] == edited
            && guild'.lists[attr] == edited
  {
    ModifyEditsOneList(c, name, modelName, false, guildId, obj, key, false, attr);
  }

  /** The `Channel` instance of `WriteBackAliases`. */
  lemma ChannelWriteBack(c: Cache, name: string, n: string, guildId: Option<Snowflake>, obj: Entity, key: Option<Key>)
    requires n == "Channel"
    requires Applies(name, false, guildId, key)
    requires Get(c, "Guild", Some(Id(guildId.value))).Some?
    requires "channels" in Get(c, "Guild", Some(Id(guildId.value))).value.lists
    requires "Channels" !in Get(c, "Guild", Some(Id(guildId.value))).value.lists
    ensures ModifyGuildCache(c, name, n, false, guildId, obj, key, true).raised
    ensures var guild := Get(c, "Guild", Some(Id(guildId.value))).value;
            var guild' := Get(ModifyGuildCache(c, name, n, false, guildId, obj, key, false).cache,
                              "Guild", Some(Id(guildId.value))).value;
            && guild'.lists.Keys == guild.lists.Keys + {"Channels"}
            && guild'.lists["Channels"] == guild'.lists["channels"] == EditList(guild.lists["channels"], name, obj, key.value)
  {
    ChannelList(n);
    LiteralWriteBackName(n, "Channels");
    WriteBackAliases(c, name, n, guildId, obj, key, "channels");
  }

  /** Create/add appends exactly one element and touches nothing else. */
  lemma EditCreateAppends(l: seq<Entity>, name: string, obj: Entity, key: Key)
    requires IsCreateName(name) && !IsRemoveName(name) && !IsUpdateName(name)
    ensures EditList(l, name, obj, key) == l + [obj]
    ensures |EditList(l, name, obj, key)| == |l| + 1
  {
  }

  /** `Others` keeps exactly the non-matching elements. */
  lemma {:induction false} OthersSplit(l: seq<Entity>, i: nat, key: Key)
    requires i < |l| && IdMatches(l[i], key)
    ensures Others(l, key) == Others(l[..i], key) + Others(l[i + 1..], key)
    decreases |l|
  {
    if i == 0 {
      assert l[i + 1..] == l[1..];
      assert l[..0] == [];
    } else {
      OthersSplit(l[1..], i - 1, key);
      assert l[1..][..i - 1] == l[..i][1..];
      assert l[1..][i..] == l[i + 1..];
    }
  }

  lemma {:induction false} OthersConcat(a: seq<Entity>, b: seq<Entity>, key: Key)
    ensures Others(a + b, key) == Others(a, key) + Others(b, key)
    decreases |a|
  {
    if |a| == 0 {
      assert a + b == b;
    } else {
      OthersConcat(a[1..], b, key);
      assert (a + b)[0] == a[0];
      assert (a + b)[1..] == a[1..] + b;
      var h: seq<Entity> := if IdMatches(a[0], key) then [] else [a[0]];
      assert Others(a + b, key) == h + Others(a[1..] + b, key);
      AppendAssoc(h, Others(a[1..], key), Others(b, key));
    }
  }

  /** Delete/remove takes out the first element with the key's id and
      only that one: every other element stays, in order. */
  lemma EditRemoveTakesFirstMatch(l: seq<Entity>, name: string, obj: Entity, key: Key)
    requires !IsCreateName(name) && IsRemoveName(name)
    ensures var r := EditList(l, name, obj, key);
            match FirstMatch(l, key)
            case None => r == l
            case Some(i) =>
              && |r| == |l| - 1
              && (forall j :: 0 <= j < i ==> r[j] == l[j] && !IdMatches(l[j], key))
              && (forall j :: i <= j < |r| ==> r[j] == l[j + 1])
              && Others(r, key) == Others(l, key)
  {
    match FirstMatch(l, key)
    case None =>
    case Some(i) =>
      var r := EditList(l, name, obj, key);
      assert r == l[..i] + l[i + 1..];
      OthersSplit(l, i, key);
      OthersConcat(l[..i], l[i + 1..], key);
  }

  /** Update replaces the first element with the key's id in place: the
      length is unchanged and all other positions keep their element. */
  lemma EditUpdateReplacesInPlace(l: seq<Entity>, name: string, obj: Entity, key: Key)
    requires !IsCreateName(name) && !IsRemoveName(name) && IsUpdateName(name)
    requires obj.id.IdAttr?
    ensures var r := EditList(l, name, obj, key);
            && |r| == |l|
            && match FirstMatch(l, key)
               case None => r == l
               case Some(i) => r[i] == obj && forall j :: 0 <= j < |l| && j != i ==> r[j] == l[j]
  {
  }

  /** As written, a repeated create appends a second copy: the list is not
      kept free of duplicates. */
  lemma RepeatedCreateDuplicates(l: seq<Entity>, name: string, obj: Entity, key: Key)
    requires IsCreateName(name) && !IsRemoveName(name) && !IsUpdateName(name)
    ensures EditList(EditList(l, name, obj, key), name, obj, key) == l + [obj, obj]
  {
    EditCreateAppends(l, name, obj, key);
    EditCreateAppends(l + [obj], name, obj, key);
    assert l + [obj] + [obj] == l + [obj, obj];
  }

  /** A member key is a tuple, which never equals a list element's id: a
      member update or removal leaves the guild's list as it was. */
  lemma MemberKeyNeverEdits(l: seq<Entity>, name: string, obj: Entity, g: Snowflake, m: Option<Snowflake>)
    requires !IsCreateName(name)
    ensures EditList(l, name, obj, MemberPair(g, m)) == l
  {
  }

  lemma NoLowerGuild(n: string)
    requires n == "GuildMember" || n == "Channel"
    ensures !Contains(n, "guild") && n != "threadmembers"
  {
    MissingCharExcludes(n, "guild", 'g');
    assert n[0] != "threadmembers"[0];
  }

  lemma LowerGuildMember(n: string)
    requires n == "GuildMember"
    ensures Lower(n) == "guildmember"
  {
    GuildMemberWords(n);
    LowerWord("Guild", "guild");
    LowerWord("Member", "member");
    LowerOfConcat(n, "Guild", "Member", "guild", "member");
    GuildMemberLowerWords("guild", "member");
  }

  lemma GuildMemberWords(n: string)
    requires n == "GuildMember"
    ensures n == "Guild" + "Member"
  {
  }

  lemma GuildMemberLowerWords(a: string, b: string)
    requires a == "guild" && b == "member"
    ensures a + b == "guildmember"
  {
  }

  lemma LowerOfConcat(n: string, a: string, b: string, la: string, lb: string)
    requires n == a + b && Lower(a) == la && Lower(b) == lb
    ensures Lower(n) == la + lb
  {
    LowerConcat(a, b);
  }

  /** A literal lower-cases to the given ASCII word. */
  lemma LowerWord(w: string, l: string)
    requires (w == "Guild" && l == "guild") || (w == "Member" && l == "member")
    ensures Lower(w) == l
  {
  }

  /** With capitalised class names the lower-case test never strips the
      "Guild" prefix: a `GuildMember` is looked up as `guildmembers`. */
  lemma GuildPrefixKept(n: string)
    requires n == "GuildMember"
    ensures ListAttribute(n) == Some("guildmembers")
  {
    NoLowerGuild(n);
    LowerGuildMember(n);
    assert "guildmember" + "s" == "guildmembers";
  }

  /** A `Channel` child is kept in the guild's `channels` list. */
  lemma ChannelList(n: string)
    requires n == "Channel"
    ensures ListAttribute(n) == Some("channels")
  {
    NoLowerGuild(n);
    assert Lower(n) == "channel";
    assert "channel" + "s" == "channels";
  }
}

=== FILE: interactions.dfy ===
/** The `INTERACTION_CREATE` branch of `_dispatch_event`: the payload is
    wrapped in a context (`__contextualize`) and turned into the
    type-specific handler call (`command_<name>`, `component_<custom_id>`,
    `autocomplete_<id>[_<focused>]`, `modal_<custom_id>`), framed by the
    generic interaction events. */
module Interactions {
  import opened Wrappers
  import opened Text
  import opened Entities
  import opened Options

  /** Discord interaction types. */
  const PING: int := 1
  const APPLICATION_COMMAND: int := 2
  const MESSAGE_COMPONENT: int := 3
  const APPLICATION_COMMAND_AUTOCOMPLETE: int := 4
  const MODAL_SUBMIT: int := 5

  /** An interaction payload, reduced to what the dispatcher reads.
      `itype` is None when `type` is absent; `commandId` is the
      command's `id`; `rows` are the modal's action rows, each the list
      of its components' values. */
  datatype Interaction = Interaction(
    itype: Option<int>,
    guildId: Option<Snowflake>,
    name: string,
    commandId: string,
    customId: string,
    options: Option<seq<CmdOption>>,
    values: Option<seq<Value>>,
    rows: Option<seq<seq<Value>>>,
    resolved: ResolvedData)

  /** `data.get("type")` is truthy. */
  predicate HasType(i: Interaction) {
    i.itype.Some? && i.itype.value != 0
  }

  datatype ContextKind = CommandContext | ComponentContext

  /** A context object built from the payload. */
  datatype Context = Context(kind: ContextKind, data: Interaction)

  /** `__contextualize`: None for a PING, a command context for commands,
      autocompletes and modal submits, a component context for
      components; any other type names no context class, which is an
      `AttributeError` that nothing catches. */
  function Contextualize(i: Interaction): (r: Result<Option<Context>>)
    requires i.itype.Some?
    ensures r.Ok? <==> PING <= i.itype.value <= MODAL_SUBMIT
    ensures r == Ok(None) <==> i.itype.value == PING
    ensures r.Ok? && r.value.Some? ==> r.value.value.data == i
    ensures r.Ok? && r.value.Some? ==>
      (r.value.value.kind == ComponentContext <==> i.itype.value == MESSAGE_COMPONENT)
    ensures r.Err? ==> r.error == AttributeMissing
  {
    var t := i.itype.value;
    if t == PING then Ok(None)
    else if t == APPLICATION_COMMAND || t == APPLICATION_COMMAND_AUTOCOMPLETE || t == MODAL_SUBMIT then
      Ok(Some(Context(CommandContext, i)))
    else if t == MESSAGE_COMPONENT then Ok(Some(Context(ComponentContext, i)))
    else Err(AttributeMissing)
  }

  /** A positional argument of a dispatched call. */
  datatype Arg = NoContext | Ctx(context: Context) | Val(value: Value) | Values(values: seq<Value>)

  /** One `dispatch(name, *args, **kwargs)`. */
  datatype Call = Call(name: string, args: seq<Arg>, kwargs: map<string, Value>)

  /** `_context.data._json.get("options")` is truthy. */
  predicate HasList<T>(l: Option<seq<T>>) {
    l.Some? && |l.value| > 0
  }

  /** The top-level command option loop: each option's value is resolved,
      flattened by `__sub_command_context`, and merged into the keyword
      arguments, later entries winning.  A focused pair cannot be merged
      as a dict. */
  function CommandKwargs(ctx: OptionContext, opts: seq<CmdOption>, kw: map<string, Value>): (r: Result<map<string, Value>>)
    ensures r.Ok? ==> kw.Keys <= r.value.Keys
    decreases |opts|
  {
    if |opts| == 0 then Ok(kw)
    else
      var o :- ResolveValue(ctx, opts[0]);
      var flat :- SubCommandContext(ctx, o);
      match flat
      case Focused(_, _) => Err(FocusedInCommand)
      case Kwargs(m) => CommandKwargs(ctx, opts[1..], kw + m)
  }

  /** A top-level option that is a plain, resolvable, non-null value. */
  predicate PlainOption(ctx: OptionContext, o: CmdOption) {
    && !o.focused && !HasOptions(o) && o.optType != SUB_COMMAND
    && ResolveValue(ctx, o).Ok?
    && ResolveValue(ctx, o).value.value.Some?
    && ResolveValue(ctx, o).value.value.value != Null
  }

  /** The value a plain option hands to the handler. */
  function PlainValue(ctx: OptionContext, o: CmdOption): Value
    requires PlainOption(ctx, o)
  {
    ResolveValue(ctx, o).value.value.value
  }

  lemma PlainStep(ctx: OptionContext, opts: seq<CmdOption>, kw: map<string, Value>)
    requires |opts| > 0 && PlainOption(ctx, opts[0])
    ensures CommandKwargs(ctx, opts, kw) == CommandKwargs(ctx, opts[1..], kw[opts[0].name := PlainValue(ctx, opts[0])])
  {
    var o := ResolveValue(ctx, opts[0]).value;
    assert SubCommandContext(ctx, o) == Ok(Kwargs(map[o.name := PlainValue(ctx, opts[0])]));
    assert kw + map[o.name := PlainValue(ctx, opts[0])] == kw[opts[0].name := PlainValue(ctx, opts[0])];
  }

  lemma {:induction false} PlainKeepsOthers(ctx: OptionContext, opts: seq<CmdOption>, kw: map<string, Value>, key: string)
    requires forall j :: 0 <= j < |opts| ==> PlainOption(ctx, opts[j]) && opts[j].name != key
    requires key in kw
    ensures CommandKwargs(ctx, opts, kw).Ok? && CommandKwargs(ctx, opts, kw).value[key] == kw[key]
    decreases |opts|
  {
    if |opts| > 0 {
      assert PlainOption(ctx, opts[0]);
      PlainStep(ctx, opts, kw);
      PlainKeepsOthers(ctx, opts[1..], kw[opts[0].name := PlainValue(ctx, opts[0])], key);
    }
  }

  lemma PlainOnlyTail(ctx: OptionContext, opts: seq<CmdOption>)
    requires |opts| > 0
    requires forall i :: 0 <= i < |opts| ==> PlainOption(ctx, opts[i])
    ensures forall j :: 0 <= j < |opts[1..]| ==> PlainOption(ctx, opts[1..][j])
  {
    forall j | 0 <= j < |opts[1..]| ensures PlainOption(ctx, opts[1..][j]) {
      assert opts[1..][j] == opts[j + 1];
    }
  }

  /** The tail of a list of distinctly named plain options is one too,
      and none of its names is the head's. */
  lemma PlainTail(ctx: OptionContext, opts: seq<CmdOption>)
    requires |opts| > 0
    requires forall i :: 0 <= i < |opts| ==> PlainOption(ctx, opts[i])
    requires DistinctNames(opts)
    ensures DistinctNames(opts[1..])
    ensures forall j :: 0 <= j < |opts[1..]| ==> PlainOption(ctx, opts[1..][j]) && opts[1..][j].name != opts[0].name
  {
    var rest := opts[1..];
    forall i, j | 0 <= i < j < |rest| ensures rest[i].name != rest[j].name {
      assert rest[i] == opts[i + 1] && rest[j] == opts[j + 1];
    }
    forall j | 0 <= j < |rest| ensures PlainOption(ctx, rest[j]) && rest[j].name != opts[0].name {
      assert rest[j] == opts[j + 1];
    }
  }

  /** Plain options succeed and add exactly their names to the keys. */
  lemma {:induction false} PlainKeys(ctx: OptionContext, opts: seq<CmdOption>, kw: map<string, Value>)
    requires forall i :: 0 <= i < |opts| ==> PlainOption(ctx, opts[i])
    ensures CommandKwargs(ctx, opts, kw).Ok?
    ensures CommandKwargs(ctx, opts, kw).value.Keys == kw.Keys + Names(opts)
    decreases |opts|
  {
    if |opts| > 0 {
      var o := opts[0];
      var rest := opts[1..];
      assert PlainOption(ctx, o);
      PlainStep(ctx, opts, kw);
      PlainOnlyTail(ctx, opts);
      var kw1 := kw[o.name := PlainValue(ctx, o)];
      PlainKeys(ctx, rest, kw1);
      assert CommandKwargs(ctx, opts, kw) == CommandKwargs(ctx, rest, kw1);
      NamesCons(opts);
      KeysAfterInsert(kw, o.name, PlainValue(ctx, o), CommandKwargs(ctx, rest, kw1).value.Keys, Names(rest));
    }
  }

  /** Plain options with distinct names each map to their resolved value. */
  lemma {:induction false} PlainValues(ctx: OptionContext, opts: seq<CmdOption>, kw: map<string, Value>)
    requires forall i :: 0 <= i < |opts| ==> PlainOption(ctx, opts[i])
    requires DistinctNames(opts)
    ensures CommandKwargs(ctx, opts, kw).Ok?
    ensures var out := CommandKwargs(ctx, opts, kw).value;
            forall i :: 0 <= i < |opts| ==> opts[i].name in out && out[opts[i].name] == PlainValue(ctx, opts[i])
    decreases |opts|
  {
    PlainKeys(ctx, opts, kw);
    if |opts| > 0 {
      var o := opts[0];
      var rest := opts[1..];
      assert PlainOption(ctx, o);
      var kw1 := kw[o.name := PlainValue(ctx, o)];
      PlainStep(ctx, opts, kw);
      PlainTail(ctx, opts);
      PlainValues(ctx, rest, kw1);
      PlainKeepsOthers(ctx, rest, kw1, o.name);
      var out := CommandKwargs(ctx, rest, kw1).value;
      forall i | 0 <= i < |opts|
        ensures opts[i].name in out && out[opts[i].name] == PlainValue(ctx, opts[i])
      {
        if i > 0 {
          assert rest[i - 1] == opts[i];
        }
      }
    }
  }

  /** Plain options with distinct names become exactly one keyword
      argument each, carrying the resolved value. */
  lemma PlainOptionsBecomeKwargs(ctx: OptionContext, opts: seq<CmdOption>, kw: map<string, Value>)
    requires forall i :: 0 <= i < |opts| ==> PlainOption(ctx, opts[i])
    requires DistinctNames(opts)
    ensures CommandKwargs(ctx, opts, kw).Ok?
    ensures var out := CommandKwargs(ctx, opts, kw).value;
            && out.Keys == kw.Keys + Names(opts)
            && (forall i :: 0 <= i < |opts| ==> out[opts[i].name] == PlainValue(ctx, opts[i]))
  {
    PlainKeys(ctx, opts, kw);
    PlainValues(ctx, opts, kw);
  }

  /** A command whose only option is a sub-command hands the handler the
      sub-command's flattened keyword arguments. */
  lemma SingleSubCommandKwargs(ctx: OptionContext, o: CmdOption)
    requires !NonEmpty(OptionTypeContext(ctx, o.optType))
    requires SubCommandContext(ctx, o).Ok? && SubCommandContext(ctx, o).value.Kwargs?
    ensures CommandKwargs(ctx, [o], map[]) == Ok(SubCommandContext(ctx, o).value.kw)
  {
    var m := SubCommandContext(ctx, o).value.kw;
    assert map[] + m == m;
  }

  /** The `(name, value)` pair of a focused option with its `_<name>`
      suffix added to the handler name (nothing for an empty name) and
      its value appended when truthy. */
  function TakeFocused(pair: (string, Value), name: string, args: seq<Arg>): (r: (string, seq<Arg>))
    ensures r.0 == name + (if pair.0 != "" then "_" + pair.0 else "")
    ensures r.1 == args + (if Truthy(pair.1) then [Val(pair.1)] else [])
  {
    (name + (if pair.0 != "" then "_" + pair.0 else ""),
     args + (if Truthy(pair.1) then [Val(pair.1)] else []))
  }

  /** The inner loop over a sub-command's options: the first focused one
      is taken, then the loop stops. */
  function FirstFocused(subs: seq<CmdOption>, name: string, args: seq<Arg>): (r: Result<(string, seq<Arg>)>)
    ensures (forall j :: 0 <= j < |subs| ==> !subs[j].focused) ==> r == Ok((name, args))
    ensures r.Ok? ==> StartsWith(r.value.0, name) && args <= r.value.1 && |r.value.1| <= |args| + 1
    decreases |subs|
  {
    if |subs| == 0 then Ok((name, args))
    else if subs[0].focused then
      var pair :- CheckAuto(subs[0]);
      Ok(TakeFocused(pair.value, name, args))
    else FirstFocused(subs[1..], name, args)
  }

  /** The first focused sub-option decides the inner loop: its pair names
      the suffix and supplies the value, and a missing value is the
      `KeyError` of the check.  Options before it are not looked at. */
  lemma {:induction false} FirstFocusedTakesFirst(subs: seq<CmdOption>, name: string, args: seq<Arg>, k: nat)
    requires k < |subs| && subs[k].focused
    requires forall j :: 0 <= j < k ==> !subs[j].focused
    ensures subs[k].value.Some? ==>
      FirstFocused(subs, name, args) == Ok(TakeFocused((subs[k].name, subs[k].value.value), name, args))
    ensures subs[k].value.None? ==> FirstFocused(subs, name, args) == Err(KeyMissing)
    decreases k
  {
    if k > 0 {
      assert subs[1..][k - 1] == subs[k];
      FirstFocusedTakesFirst(subs[1..], name, args, k - 1);
    }
  }

  /** The autocomplete walk over the top-level options.  A focused leaf
      with a truthy value ends the walk; a sub-command contributes its
      first focused option and the walk goes on; a group looks at its
      first member only.  Iterating a missing option list is a
      `TypeError`. */
  function AutocompleteWalk(opts: seq<CmdOption>, name: string, args: seq<Arg>): (r: Result<(string, seq<Arg>)>)
    ensures r.Ok? ==> StartsWith(r.value.0, name) && args <= r.value.1
    decreases |opts|
  {
    if |opts| == 0 then Ok((name, args))
    else
      var o := opts[0];
      if o.optType != SUB_COMMAND && o.optType != SUB_COMMAND_GROUP then
        if o.focused then
          var pair :- CheckAuto(o);
          var (name', args') := TakeFocused(pair.value, name, args);
          if Truthy(pair.value.1) then Ok((name', args'))
          else StartsWithTrans(name, name', AutocompleteWalk(opts[1..], name', args'))
        else AutocompleteWalk(opts[1..], name, args)
      else if o.options.None? then Err(TypeMismatch)
      else if o.optType == SUB_COMMAND then
        var (name', args') :- FirstFocused(o.options.value, name, args);
        StartsWithTrans(name, name', AutocompleteWalk(opts[1..], name', args'))
      else if |o.options.value| == 0 then AutocompleteWalk(opts[1..], name, args)
      else if o.options.value[0].options.None? then Err(TypeMismatch)
      else
        var (name', args') :- FirstFocused(o.options.value[0].options.value, name, args);
        StartsWithTrans(name, name', AutocompleteWalk(opts[1..], name', args'))
  }

  /** Identity on the walk's result, carrying the prefix facts across one
      extension of the handler name. */
  function StartsWithTrans(name: string, name': string, r: Result<(string, seq<Arg>)>): (r': Result<(string, seq<Arg>)>)
    requires StartsWith(name', name)
    requires r.Ok? ==> StartsWith(r.value.0, name')
    ensures r' == r
    ensures r'.Ok? ==> StartsWith(r'.value.0, name)
  {
    if r.Ok? then
      assert r.value.0[..|name|] == r.value.0[..|name'|][..|name|];
      r
    else r
  }

  /** A focused leaf at position `k`, preceded only by unfocused leaves,
      with a truthy value, names the handler `<name>_<option>` and hands
      it the value. */
  lemma {:induction false} FocusedLeafNamesHandler(opts: seq<CmdOption>, name: string, args: seq<Arg>, k: nat)
    requires k < |opts|
    requires forall j :: 0 <= j < k ==>
      opts[j].optType != SUB_COMMAND && opts[j].optType != SUB_COMMAND_GROUP && !opts[j].focused
    requires opts[k].optType != SUB_COMMAND && opts[k].optType != SUB_COMMAND_GROUP
    requires opts[k].focused && opts[k].value.Some? && Truthy(opts[k].value.value) && opts[k].name != ""
    ensures AutocompleteWalk(opts, name, args) == Ok((name + "_" + opts[k].name, args + [Val(opts[k].value.value)]))
    decreases k
  {
    if k > 0 {
      FocusedLeafNamesHandler(opts[1..], name, args, k - 1);
    } else {
      var o := opts[0];
      assert CheckAuto(o) == Ok(Some((o.name, o.value.value)));
      var t := TakeFocused((o.name, o.value.value), name, args);
      assert t.0 == name + ("_" + o.name) == name + "_" + o.name;
      assert t.1 == args + [Val(o.value.value)];
    }
  }

  /** Options none of which is focused leave the handler name and the
      arguments as they were. */
  lemma {:induction false} NoFocusNoSuffix(opts: seq<CmdOption>, name: string, args: seq<Arg>)
    requires forall j :: 0 <= j < |opts| ==>
      opts[j].optType != SUB_COMMAND && opts[j].optType != SUB_COMMAND_GROUP && !opts[j].focused
    ensures AutocompleteWalk(opts, name, args) == Ok((name, args))
    decreases |opts|
  {
    if |opts| > 0 {
      NoFocusNoSuffix(opts[1..], name, args);
    }
  }

  /** A focused leaf with a falsy value does not stop the walk: a later
      focused leaf adds its own suffix as well. */
  lemma FalsyFocusContinues(a: CmdOption, b: CmdOption, name: string, args: seq<Arg>)
    requires a.optType !in {SUB_COMMAND, SUB_COMMAND_GROUP} && b.optType !in {SUB_COMMAND, SUB_COMMAND_GROUP}
    requires a.focused && a.value.Some? && !Truthy(a.value.value) && a.name != ""
    requires b.focused && b.value.Some? && Truthy(b.value.value) && b.name != ""
    ensures AutocompleteWalk([a, b], name, args) ==
            Ok((name + "_" + a.name + "_" + b.name, args + [Val(b.value.value)]))
  {
    assert [a, b][1..] == [b];
    var name' := name + "_" + a.name;
    assert CheckAuto(a) == Ok(Some((a.name, a.value.value)));
    var t := TakeFocused((a.name, a.value.value), name, args);
    assert t.0 == name + ("_" + a.name) == name';
    assert t.1 == args + [] == args;
    assert AutocompleteWalk([a, b], name, args) == AutocompleteWalk([b], name', args);
    FocusedLeafNamesHandler([b], name', args, 0);
  }

  /** The first value of every action row that has components. */
  function FirstValues(rows: seq<seq<Value>>): (r: seq<Arg>)
    ensures |r| <= |rows|
    ensures (forall j :: 0 <= j < |rows| ==> |rows[j]| > 0) ==>
      |r| == |rows| && forall j :: 0 <= j < |rows| ==> r[j] == Val(rows[j][0])
    ensures (forall j :: 0 <= j < |rows| ==> |rows[j]| == 0) ==> r == []
  {
    if |rows| == 0 then []
    else (if |rows[0]| > 0 then [Val(rows[0][0])] else []) + FirstValues(rows[1..])
  }

  /** `FirstValues` distributes over concatenation: the rows are visited
      in order and each contributes on its own, so with the one-row case
      (its first value, or nothing for an empty row) this fixes the
      result for any mix of empty and non-empty rows. */
  lemma {:induction false} FirstValuesConcat(a: seq<seq<Value>>, b: seq<seq<Value>>)
    ensures FirstValues(a + b) == FirstValues(a) + FirstValues(b)
    decreases |a|
  {
    if |a| == 0 {
      assert a + b == b;
    } else {
      assert (a + b)[0] == a[0];
      assert (a + b)[1..] == a[1..] + b;
      FirstValuesConcat(a[1..], b);
      var h: seq<Arg> := if |a[0]| > 0 then [Val(a[0][0])] else [];
      assert FirstValues(a + b) == h + FirstValues(a[1..] + b);
      AppendAssoc(h, FirstValues(a[1..]), FirstValues(b));
    }
  }

  /** Every argument `FirstValues` produces is the first value of a row,
      and rows are visited in order. */
  lemma {:induction false} FirstValuesFromRows(rows: seq<seq<Value>>, k: nat)
    requires k < |FirstValues(rows)|
    ensures exists j :: 0 <= j < |rows| && |rows[j]| > 0 && FirstValues(rows)[k] == Val(rows[j][0])
    decreases |rows|
  {
    if |rows[0]| > 0 && k == 0 {
      assert FirstValues(rows)[0] == Val(rows[0][0]);
    } else {
      var off := if |rows[0]| > 0 then 1 else 0;
      assert FirstValues(rows)[k] == FirstValues(rows[1..])[k - off];
      FirstValuesFromRows(rows[1..], k - off);
      var j :| 0 <= j < |rows[1..]| && |rows[1..][j]| > 0 && FirstValues(rows[1..])[k - off] == Val(rows[1..][j][0]);
      assert rows[1..][j] == rows[j + 1];
    }
  }

  /** The three calls that close every typed interaction. */
  function Trailer(name: string, args: seq<Arg>, kw: map<string, Value>, arg0: Arg): seq<Call> {
    [Call(name, args, kw), Call("on_interaction", [arg0], map[]), Call("on_interaction_create", [arg0], map[])]
  }

  /** The calls of the interaction branch, in dispatch order.  A payload
      without a truthy `type` produces nothing. */
  function InteractionEvents(i: Interaction): (r: Result<seq<Call>>)
    ensures !HasType(i) ==> r == Ok([])
    ensures HasType(i) && r.Ok? ==> 3 <= |r.value| <= 4 && |r.value[|r.value| - 1].args| == 1
    ensures HasType(i) && r.Ok? ==>
      var arg0 := r.value[|r.value| - 1].args[0];
      && r.value[|r.value| - 2] == Call("on_interaction", [arg0], map[])
      && r.value[|r.value| - 1] == Call("on_interaction_create", [arg0], map[])
      && |r.value[|r.value| - 3].args| >= 1
      && r.value[|r.value| - 3].args[0] == arg0
      && (arg0 == NoContext <==> i.itype.value == PING)
      && (arg0.Ctx? ==> arg0.context.data == i)
      && (arg0.NoContext? || arg0.Ctx?)
    ensures HasType(i) && r.Err? ==> i.itype.value !in {PING, MESSAGE_COMPONENT, MODAL_SUBMIT}
  {
    if !HasType(i) then Ok([])
    else
      var ctx :- Contextualize(i);
      var arg0 := if ctx.Some? then Ctx(ctx.value) else NoContext;
      var oc := OptionContext(i.resolved, i.guildId.Some?);
      var t := i.itype.value;
      if t == APPLICATION_COMMAND then
        var kw :- if HasList(i.options) then CommandKwargs(oc, i.options.value, map[]) else Ok(map[]);
        Ok([Call("on_command", [arg0], map[])] + Trailer("command_" + i.name, [arg0], kw, arg0))
      else if t == MESSAGE_COMPONENT then
        var args := [arg0] + (if HasList(i.values) then [Values(i.values.value)] else []);
        Ok([Call("on_component", [arg0], map[])] + Trailer("component_" + i.customId, args, map[], arg0))
      else if t == APPLICATION_COMMAND_AUTOCOMPLETE then
        var walked :- if HasList(i.options) then AutocompleteWalk(i.options.value, "autocomplete_" + i.commandId, [arg0])
                      else Ok(("autocomplete_" + i.commandId, [arg0]));
        Ok([Call("on_autocomplete", [arg0], map[])] + Trailer(walked.0, walked.1, map[], arg0))
      else if t == MODAL_SUBMIT then
        var args := [arg0] + (if HasList(i.rows) then FirstValues(i.rows.value) else []);
        Ok([Call("on_modal", [arg0], map[])] + Trailer("modal_" + i.customId, args, map[], arg0))
      else Ok(Trailer("", [arg0], map[], arg0))
  }

  /** A command with plain options calls `command_<name>` with the
      context and one keyword argument per option, after `on_command`. */
  lemma CommandCall(i: Interaction)
    requires i.itype == Some(APPLICATION_COMMAND) && i.options.Some?
    requires var oc := OptionContext(i.resolved, i.guildId.Some?);
             forall j :: 0 <= j < |i.options.value| ==> PlainOption(oc, i.options.value[j])
    requires DistinctNames(i.options.value)
    ensures var r := InteractionEvents(i);
            var oc := OptionContext(i.resolved, i.guildId.Some?);
            var opts := i.options.value;
            && r.Ok? && |r.value| == 4
            && r.value[0] == Call("on_command", [Ctx(Context(CommandContext, i))], map[])
            && r.value[1].name == "command_" + i.name
            && r.value[1].args == [Ctx(Context(CommandContext, i))]
            && r.value[1].kwargs.Keys == Names(opts)
            && (forall j :: 0 <= j < |opts| ==> r.value[1].kwargs[opts[j].name] == PlainValue(oc, opts[j]))
  {
    var oc := OptionContext(i.resolved, i.guildId.Some?);
    PlainOptionsBecomeKwargs(oc, i.options.value, map[]);
  }

  /** A component interaction appends its selected values as one
      argument exactly when there are some. */
  lemma ComponentCall(i: Interaction)
    requires i.itype == Some(MESSAGE_COMPONENT)
    ensures var r := InteractionEvents(i);
            var arg0 := Ctx(Context(ComponentContext, i));
            && r.Ok? && |r.value| == 4
            && r.value[0] == Call("on_component", [arg0], map[])
            && r.value[1] == Call("component_" + i.customId,
                                  if HasList(i.values) then [arg0, Values(i.values.value)] else [arg0], map[])
  {
  }

  /** A modal submit hands the handler the first value of each action
      row. */
  lemma ModalCall(i: Interaction)
    requires i.itype == Some(MODAL_SUBMIT) && i.rows.Some?
    requires forall j :: 0 <= j < |i.rows.value| ==> |i.rows.value[j]| > 0
    ensures var r := InteractionEvents(i);
            && r.Ok?
            && r.value[1].name == "modal_" + i.customId
            && |r.value[1].args| == 1 + |i.rows.value|
            && (forall j :: 0 <= j < |i.rows.value| ==> r.value[1].args[j + 1] == Val(i.rows.value[j][0]))
  {
  }

  /** A PING has no context: the handler name is empty and every call gets
      None. */
  lemma PingCalls(i: Interaction)
    requires i.itype == Some(PING)
    ensures InteractionEvents(i) == Ok([Call("", [NoContext], map[]),
                                        Call("on_interaction", [NoContext], map[]),
                                        Call("on_interaction_create", [NoContext], map[])])
  {
  }

  /** A type the client has no context class for raises. */
  lemma UnknownTypeRaises(i: Interaction)
    requires HasType(i) && !(PING <= i.itype.value <= MODAL_SUBMIT)
    ensures InteractionEvents(i) == Err(AttributeMissing)
  {
  }
}

=== FILE: options.dfy ===
/** Interaction payloads and the flattening of application-command
    options into handler keyword arguments: `__option_type_context`
    (which resolved bundle an option type looks its value up in) and
    `__sub_command_context` (sub-command / sub-command-group walking and
    the focused-option short cut). */
module Options {
  import opened Wrappers
  import opened Entities

  /** Discord application-command option types. */
  const SUB_COMMAND: int := 1
  const SUB_COMMAND_GROUP: int := 2
  const USER: int := 6
  const CHANNEL: int := 7
  const ROLE: int := 8
  const MENTIONABLE: int := 9
  const ATTACHMENT: int := 11

  /** An option value: JSON scalars, or the resolved object that replaced
      a snowflake string. */
  datatype Value = Null | Str(s: string) | Int(i: int) | Bool(b: bool) | Resolved(obj: Entity)

  /** Python truthiness of a value. */
  predicate Truthy(v: Value) {
    match v
    case Null => false
    case Str(s) => s != ""
    case Int(i) => i != 0
    case Bool(b) => b
    case Resolved(_) => true
  }

  /** One command option; `value` and `options` are None when the key is
      absent from the payload, `focused` is false when absent. */
  datatype CmdOption = CmdOption(
    name: string,
    optType: int,
    value: Option<Value>,
    focused: bool,
    options: Option<seq<CmdOption>>)

  /** A resolved bundle: snowflake string to resolved object. */
  type Bundle = map<string, Entity>

  /** `context.data.resolved`; each bundle may be None. */
  datatype ResolvedData = ResolvedData(
    members: Option<Bundle>,
    users: Option<Bundle>,
    channels: Option<Bundle>,
    roles: Option<Bundle>,
    attachments: Option<Bundle>)

  /** What option resolution reads from the context: the resolved data and
      whether `context.guild_id` is set. */
  datatype OptionContext = OptionContext(resolved: ResolvedData, inGuild: bool)

  /** The bundle users are looked up in: members inside a guild, users in
      a direct message. */
  function UserBundle(ctx: OptionContext): Option<Bundle> {
    if ctx.inGuild then ctx.resolved.members else ctx.resolved.users
  }

  /** `__option_type_context`: the bundle an option of type `t` resolves
      against.  Mentionable merges users/members with roles, roles winning
      on a shared key; types that resolve nothing give the empty map. */
  function OptionTypeContext(ctx: OptionContext, t: int): (r: Option<Bundle>)
    ensures t == USER ==> r == UserBundle(ctx)
    ensures t == CHANNEL ==> r == ctx.resolved.channels
    ensures t == ROLE ==> r == ctx.resolved.roles
    ensures t == ATTACHMENT ==> r == ctx.resolved.attachments
    ensures t == MENTIONABLE ==>
      && r.Some?
      && r.value.Keys == UserBundle(ctx).GetOr(map[]).Keys + ctx.resolved.roles.GetOr(map[]).Keys
      && (forall k :: k in ctx.resolved.roles.GetOr(map[]) ==> r.value[k] == ctx.resolved.roles.value[k])
      && (forall k :: k in UserBundle(ctx).GetOr(map[]) && k !in ctx.resolved.roles.GetOr(map[]) ==>
            r.value[k] == UserBundle(ctx).value[k])
    ensures t !in {USER, CHANNEL, ROLE, ATTACHMENT, MENTIONABLE} ==> r == Some(map[])
  {
    if t == USER then UserBundle(ctx)
    else if t == CHANNEL then ctx.resolved.channels
    else if t == ROLE then ctx.resolved.roles
    else if t == ATTACHMENT then ctx.resolved.attachments
    else if t == MENTIONABLE then
      Some(UserBundle(ctx).GetOr(map[]) + ctx.resolved.roles.GetOr(map[]))
    else Some(map[])
  }

  /** Truthiness of a bundle: None and the empty dict are falsy. */
  predicate NonEmpty(b: Option<Bundle>) {
    b.Some? && |b.value| > 0
  }

  /** `_type[option["value"]]` written back into the option when the
      option's type has a non-empty bundle; a missing value or a value
      not in the bundle is a KeyError. */
  function ResolveValue(ctx: OptionContext, o: CmdOption): (r: Result<CmdOption>)
    ensures !NonEmpty(OptionTypeContext(ctx, o.optType)) ==> r == Ok(o)
    ensures r.Ok? && NonEmpty(OptionTypeContext(ctx, o.optType)) ==>
      && o.value.Some? && o.value.value.Str?
      && o.value.value.s in OptionTypeContext(ctx, o.optType).value
      && r.value == o.(value := Some(Resolved(OptionTypeContext(ctx, o.optType).value[o.value.value.s])))
    ensures r.Ok? ==> r.value.name == o.name && r.value.focused == o.focused && r.value.optType == o.optType
  {
    var bundle := OptionTypeContext(ctx, o.optType);
    if !NonEmpty(bundle) then Ok(o)
    else match o.value
      case Some(Str(s)) =>
        if s in bundle.value then Ok(o.(value := Some(Resolved(bundle.value[s])))) else Err(KeyMissing)
      case _ => Err(KeyMissing)
  }

  /** The result of `__sub_command_context`: a focused `(name, value)`
      pair, or a keyword-argument dict. */
  datatype Flat = Focused(name: string, value: Value) | Kwargs(kw: map<string, Value>)

  /** `_check_auto`: the `(name, value)` pair of a focused option. */
  function CheckAuto(o: CmdOption): (r: Result<Option<(string, Value)>>)
    ensures !o.focused ==> r == Ok(None)
    ensures o.focused && o.value.Some? ==> r == Ok(Some((o.name, o.value.value)))
    ensures o.focused && o.value.None? ==> r == Err(KeyMissing)
  {
    if !o.focused then Ok(None)
    else if o.value.None? then Err(KeyMissing)
    else Ok(Some((o.name, o.value.value)))
  }

  /** The sub-option loop: each sub-option is resolved, a focused one ends
      the walk with its unresolved pair, any other adds `name -> value`. */
  function CollectLeaves(ctx: OptionContext, opts: seq<CmdOption>, kw: map<string, Value>): (r: Result<Flat>)
    ensures r.Ok? && r.value.Kwargs? ==> kw.Keys <= r.value.kw.Keys
    decreases |opts|
  {
    if |opts| == 0 then Ok(Kwargs(kw))
    else
      var so := opts[0];
      var check :- CheckAuto(so);
      var resolved :- ResolveValue(ctx, so);
      if check.Some? then Ok(Focused(check.value.0, check.value.1))
      else if resolved.value.None? then Err(KeyMissing)
      else CollectLeaves(ctx, opts[1..], kw[so.name := resolved.value.value])
  }

  /** The sub-command-group loop: each group member sets `sub_command`
      and contributes its own sub-options. */
  function CollectGroup(ctx: OptionContext, groups: seq<CmdOption>, kw: map<string, Value>): (r: Result<Flat>)
    ensures r.Ok? && r.value.Kwargs? ==> kw.Keys <= r.value.kw.Keys
    decreases |groups|
  {
    if |groups| == 0 then Ok(Kwargs(kw))
    else
      var g := groups[0];
      var _ :- CheckAuto(g);
      var kw1 := kw["sub_command" := Str(g.name)];
      if g.options.None? then Err(KeyMissing)
      else match CollectLeaves(ctx, g.options.value, kw1)
        case Err(e) => Err(e)
        case Ok(Focused(n, v)) => Ok(Focused(n, v))
        case Ok(Kwargs(kw2)) => CollectGroup(ctx, groups[1..], kw2)
  }

  predicate HasOptions(o: CmdOption) {
    o.options.Some? && |o.options.value| > 0
  }

  /** `__sub_command_context`. */
  function SubCommandContext(ctx: OptionContext, o: CmdOption): (r: Result<Flat>)
    ensures o.focused && o.value.Some? ==> r == Ok(Focused(o.name, o.value.value))
    ensures !o.focused && !HasOptions(o) && o.optType == SUB_COMMAND ==>
      r == Ok(Kwargs(map["sub_command" := Str(o.name)]))
    ensures !o.focused && !HasOptions(o) && o.optType != SUB_COMMAND ==>
      r == Ok(Kwargs(if o.value.Some? && o.value.value != Null then map[o.name := o.value.value] else map[]))
    ensures !o.focused && HasOptions(o) && o.optType !in {SUB_COMMAND, SUB_COMMAND_GROUP} ==>
      r == Ok(Kwargs(map[]))
    ensures !o.focused && HasOptions(o) && o.optType == SUB_COMMAND && r.Ok? && r.value.Kwargs? ==>
      "sub_command" in r.value.kw
    ensures !o.focused && HasOptions(o) && o.optType == SUB_COMMAND_GROUP && r.Ok? && r.value.Kwargs? ==>
      "sub_command_group" in r.value.kw
  {
    var check :- CheckAuto(o);
    if check.Some? then Ok(Focused(check.value.0, check.value.1))
    else if HasOptions(o) then
      if o.optType == SUB_COMMAND then
        CollectLeaves(ctx, o.options.value, map["sub_command" := Str(o.name)])
      else if o.optType == SUB_COMMAND_GROUP then
        CollectGroup(ctx, o.options.value, map["sub_command_group" := Str(o.name)])
      else Ok(Kwargs(map[]))
    else if o.optType == SUB_COMMAND then Ok(Kwargs(map["sub_command" := Str(o.name)]))
    else if o.value.Some? && o.value.value != Null then Ok(Kwargs(map[o.name := o.value.value]))
    else Ok(Kwargs(map[]))
  }

  /** The value a sub-option contributes once resolved (Null when it
      does not resolve). */
  function ContributedValue(ctx: OptionContext, so: CmdOption): Value {
    match ResolveValue(ctx, so)
    case Ok(o) => o.value.GetOr(Null)
    case Err(_) => Null
  }

  /** A sub-option that is not focused, resolves, and carries a value. */
  predicate Contributes(ctx: OptionContext, so: CmdOption) {
    !so.focused && ResolveValue(ctx, so).Ok? && ResolveValue(ctx, so).value.value.Some?
  }

  /** The option names of a list. */
  function Names(opts: seq<CmdOption>): (r: set<string>)
    ensures forall i :: 0 <= i < |opts| ==> opts[i].name in r
    ensures forall n :: n in r ==> exists i :: 0 <= i < |opts| && opts[i].name == n
  {
    if |opts| == 0 then {} else {opts[0].name} + Names(opts[1..])
  }

  predicate DistinctNames(opts: seq<CmdOption>) {
    forall i, j :: 0 <= i < j < |opts| ==> opts[i].name != opts[j].name
  }

  /** One step of the leaf loop over a contributing sub-option. */
  lemma LeavesStep(ctx: OptionContext, opts: seq<CmdOption>, kw: map<string, Value>)
    requires |opts| > 0 && Contributes(ctx, opts[0])
    ensures CollectLeaves(ctx, opts, kw) == CollectLeaves(ctx, opts[1..], kw[opts[0].name := ContributedValue(ctx, opts[0])])
  {
  }

  /** An entry under a name no sub-option uses survives the leaf loop. */
  lemma {:induction false} LeavesKeepReserved(ctx: OptionContext, opts: seq<CmdOption>, kw: map<string, Value>, key: string)
    requires forall j :: 0 <= j < |opts| ==> Contributes(ctx, opts[j]) && opts[j].name != key
    requires key in kw
    ensures CollectLeaves(ctx, opts, kw).Ok? && CollectLeaves(ctx, opts, kw).value.Kwargs?
    ensures CollectLeaves(ctx, opts, kw).value.kw[key] == kw[key]
    decreases |opts|
  {
    if |opts| > 0 {
      var so := opts[0];
      assert Contributes(ctx, so);
      LeavesStep(ctx, opts, kw);
      LeavesKeepReserved(ctx, opts[1..], kw[so.name := ContributedValue(ctx, so)], key);
    }
  }

  lemma ContributesTail(ctx: OptionContext, opts: seq<CmdOption>)
    requires |opts| > 0
    requires forall i :: 0 <= i < |opts| ==> Contributes(ctx, opts[i])
    ensures forall j :: 0 <= j < |opts[1..]| ==> Contributes(ctx, opts[1..][j])
  {
    forall j | 0 <= j < |opts[1..]| ensures Contributes(ctx, opts[1..][j]) {
      assert opts[1..][j] == opts[j + 1];
    }
  }

  /** The tail of a list of distinctly named contributing sub-options is
      one too, and none of its names is the head's. */
  lemma TailFacts(ctx: OptionContext, opts: seq<CmdOption>)
    requires |opts| > 0
    requires forall i :: 0 <= i < |opts| ==> Contributes(ctx, opts[i])
    requires DistinctNames(opts)
    ensures DistinctNames(opts[1..])
    ensures forall j :: 0 <= j < |opts[1..]| ==> Contributes(ctx, opts[1..][j]) && opts[1..][j].name != opts[0].name
  {
    var rest := opts[1..];
    forall i, j | 0 <= i < j < |rest| ensures rest[i].name != rest[j].name {
      assert rest[i] == opts[i + 1] && rest[j] == opts[j + 1];
    }
    forall j | 0 <= j < |rest| ensures Contributes(ctx, rest[j]) && rest[j].name != opts[0].name {
      assert rest[j] == opts[j + 1];
    }
  }

  lemma NamesCons(opts: seq<CmdOption>)
    requires |opts| > 0
    ensures Names(opts) == {opts[0].name} + Names(opts[1..])
  {
  }

  lemma KeysAfterInsert<V>(m: map<string, V>, k: string, v: V, out: set<string>, more: set<string>)
    requires out == m[k := v].Keys + more
    ensures out == m.Keys + ({k} + more)
  {
  }

  /** When every sub-option contributes, the leaf loop succeeds and adds
      exactly the sub-options' names to the keys. */
  lemma {:induction false} LeavesKeys(ctx: OptionContext, opts: seq<CmdOption>, kw: map<string, Value>)
    requires forall i :: 0 <= i < |opts| ==> Contributes(ctx, opts[i])
    ensures CollectLeaves(ctx, opts, kw).Ok?
    ensures CollectLeaves(ctx, opts, kw).value.Kwargs?
    ensures CollectLeaves(ctx, opts, kw).value.kw.Keys == kw.Keys + Names(opts)
    decreases |opts|
  {
    if |opts| > 0 {
      var so := opts[0];
      var rest := opts[1..];
      assert Contributes(ctx, so);
      var kw1 := kw[so.name := ContributedValue(ctx, so)];
      LeavesStep(ctx, opts, kw);
      ContributesTail(ctx, opts);
      LeavesKeys(ctx, rest, kw1);
      assert CollectLeaves(ctx, opts, kw) == CollectLeaves(ctx, rest, kw1);
      NamesCons(opts);
      var out := CollectLeaves(ctx, rest, kw1).value.kw;
      KeysAfterInsert(kw, so.name, ContributedValue(ctx, so), out.Keys, Names(rest));
    }
  }

  /** When every sub-option contributes and the names are distinct, the
      leaf loop maps each sub-option's name to its resolved value. */
  lemma {:induction false} LeavesValues(ctx: OptionContext, opts: seq<CmdOption>, kw: map<string, Value>)
    requires forall i :: 0 <= i < |opts| ==> Contributes(ctx, opts[i])
    requires DistinctNames(opts)
    ensures CollectLeaves(ctx, opts, kw).Ok? && CollectLeaves(ctx, opts, kw).value.Kwargs?
    ensures var out := CollectLeaves(ctx, opts, kw).value.kw;
            forall i :: 0 <= i < |opts| ==> opts[i].name in out && out[opts[i].name] == ContributedValue(ctx, opts[i])
    decreases |opts|
  {
    LeavesKeys(ctx, opts, kw);
    if |opts| > 0 {
      var so := opts[0];
      var rest := opts[1..];
      assert Contributes(ctx, so);
      var kw1 := kw[so.name := ContributedValue(ctx, so)];
      LeavesStep(ctx, opts, kw);
      TailFacts(ctx, opts);
      LeavesValues(ctx, rest, kw1);
      LeavesKeepReserved(ctx, rest, kw1, so.name);
      var out := CollectLeaves(ctx, rest, kw1).value.kw;
      forall i | 0 <= i < |opts|
        ensures opts[i].name in out && out[opts[i].name] == ContributedValue(ctx, opts[i])
      {
        if i > 0 {
          assert rest[i - 1] == opts[i];
        }
      }
    }
  }

  /** When every sub-option contributes and the names are distinct, the
      leaf loop adds exactly one `name -> resolved value` entry per
      sub-option. */
  lemma LeavesEntries(ctx: OptionContext, opts: seq<CmdOption>, kw: map<string, Value>)
    requires forall i :: 0 <= i < |opts| ==> Contributes(ctx, opts[i])
    requires DistinctNames(opts)
    ensures CollectLeaves(ctx, opts, kw).Ok?
    ensures CollectLeaves(ctx, opts, kw).value.Kwargs?
    ensures var out := CollectLeaves(ctx, opts, kw).value.kw;
            && out.Keys == kw.Keys + Names(opts)
            && (forall i :: 0 <= i < |opts| ==> out[opts[i].name] == ContributedValue(ctx, opts[i]))
  {
    LeavesKeys(ctx, opts, kw);
    LeavesValues(ctx, opts, kw);
  }

  /** A SUB_COMMAND whose sub-options all contribute, with distinct names
      other than "sub_command", flattens to `sub_command = name` plus one
      entry per sub-option and nothing else. */
  lemma SubCommandFlattens(ctx: OptionContext, o: CmdOption)
    requires !o.focused && o.optType == SUB_COMMAND && HasOptions(o)
    requires forall i :: 0 <= i < |o.options.value| ==> Contributes(ctx, o.options.value[i])
    requires DistinctNames(o.options.value)
    requires forall i :: 0 <= i < |o.options.value| ==> o.options.value[i].name != "sub_command"
    ensures SubCommandContext(ctx, o).Ok? && SubCommandContext(ctx, o).value.Kwargs?
    ensures var kw := SubCommandContext(ctx, o).value.kw;
            var opts := o.options.value;
            && kw.Keys == {"sub_command"} + Names(opts)
            && kw["sub_command"] == Str(o.name)
            && (forall i :: 0 <= i < |opts| ==> kw[opts[i].name] == ContributedValue(ctx, opts[i]))
  {
    LeavesEntries(ctx, o.options.value, map["sub_command" := Str(o.name)]);
    LeavesKeepReserved(ctx, o.options.value, map["sub_command" := Str(o.name)], "sub_command");
  }

  /** The first focused sub-option ends the flattening with its own
      `(name, value)` pair, whatever the earlier entries were. */
  lemma {:induction false} FocusedLeafShortCircuits(ctx: OptionContext, opts: seq<CmdOption>, kw: map<string, Value>, k: nat)
    requires k < |opts| && opts[k].focused && opts[k].value.Some?
    requires ResolveValue(ctx, opts[k]).Ok?
    requires forall i :: 0 <= i < k ==> Contributes(ctx, opts[i])
    ensures CollectLeaves(ctx, opts, kw) == Ok(Focused(opts[k].name, opts[k].value.value))
    decreases k
  {
    if k > 0 {
      var so := opts[0];
      assert Contributes(ctx, so);
      LeavesStep(ctx, opts, kw);
      FocusedLeafShortCircuits(ctx, opts[1..], kw[so.name := ContributedValue(ctx, so)], k - 1);
    }
  }

  /** A SUB_COMMAND_GROUP records its own name under `sub_command_group`
      and the last member's name under `sub_command`. */
  lemma GroupNamesRecorded(ctx: OptionContext, o: CmdOption)
    requires !o.focused && o.optType == SUB_COMMAND_GROUP && HasOptions(o)
    requires forall i :: 0 <= i < |o.options.value| ==>
      var g := o.options.value[i];
      && !g.focused && g.options.Some?
      && (forall j :: 0 <= j < |g.options.value| ==> Contributes(ctx, g.options.value[j]))
    requires forall i, j :: 0 <= i < |o.options.value| && 0 <= j < |o.options.value[i].options.value| ==>
      o.options.value[i].options.value[j].name !in {"sub_command", "sub_command_group"}
    ensures SubCommandContext(ctx, o).Ok? && SubCommandContext(ctx, o).value.Kwargs?
    ensures var kw := SubCommandContext(ctx, o).value.kw;
            && kw["sub_command_group"] == Str(o.name)
            && kw["sub_command"] == Str(o.options.value[|o.options.value| - 1].name)
  {
    GroupLoop(ctx, o.options.value, map["sub_command_group" := Str(o.name)], o.name);
  }

  lemma {:induction false} GroupLoop(ctx: OptionContext, groups: seq<CmdOption>, kw: map<string, Value>, groupName: string)
    requires |groups| > 0
    requires forall i :: 0 <= i < |groups| ==>
      var g := groups[i];
      && !g.focused && g.options.Some?
      && (forall j :: 0 <= j < |g.options.value| ==> Contributes(ctx, g.options.value[j]))
    requires forall i, j :: 0 <= i < |groups| && 0 <= j < |groups[i].options.value| ==>
      groups[i].options.value[j].name !in {"sub_command", "sub_command_group"}
    requires "sub_command_group" in kw && kw["sub_command_group"] == Str(groupName)
    ensures CollectGroup(ctx, groups, kw).Ok? && CollectGroup(ctx, groups, kw).value.Kwargs?
    ensures var out := CollectGroup(ctx, groups, kw).value.kw;
            && out["sub_command_group"] == Str(groupName)
            && out["sub_command"] == Str(groups[|groups| - 1].name)
    decreases |groups|
  {
    var g := groups[0];
    var kw1 := kw["sub_command" := Str(g.name)];
    var leaves := g.options.value;
    assert forall j :: 0 <= j < |leaves| ==> Contributes(ctx, leaves[j]) && leaves[j].name != "sub_command" by {
      forall j | 0 <= j < |leaves| ensures Contributes(ctx, leaves[j]) && leaves[j].name != "sub_command" {
        assert groups[0].options.value[j].name !in {"sub_command", "sub_command_group"};
      }
    }
    assert forall j :: 0 <= j < |leaves| ==> leaves[j].name != "sub_command_group" by {
      forall j | 0 <= j < |leaves| ensures leaves[j].name != "sub_command_group" {
        assert groups[0].options.value[j].name !in {"sub_command", "sub_command_group"};
      }
    }
    LeavesKeepReserved(ctx, leaves, kw1, "sub_command");
    LeavesKeepReserved(ctx, leaves, kw1, "sub_command_group");
    var kw2 := CollectLeaves(ctx, leaves, kw1).value.kw;
    assert CollectGroup(ctx, groups, kw) == CollectGroup(ctx, groups[1..], kw2);
    if |groups| > 1 {
      GroupLoop(ctx, groups[1..], kw2, groupName);
    }
  }
}

=== FILE: payloads.dfy ===
/** The outbound Gateway payloads the client builds (`__identify`,
    `__resume`, `__heartbeat`, `_update_presence`), their JSON shape, and
    the rate-limit decision of `_send_packet`. */
module Payloads {
  import opened Wrappers

  /** Gateway opcodes. */
  const DISPATCH: int := 0
  const HEARTBEAT: int := 1
  const IDENTIFY: int := 2
  const PRESENCE: int := 3
  const RESUME: int := 6
  const RECONNECT: int := 7
  const INVALIDATE_SESSION: int := 9
  const HELLO: int := 10
  const HEARTBEAT_ACK: int := 11

  /** The `$browser` and `$device` connection properties. */
  const LIBRARY: string := "interactions.py"

  /** A JSON value; object members keep their insertion order. */
  datatype Json =
    | JNull
    | JBool(b: bool)
    | JInt(i: int)
    | JStr(s: string)
    | JArr(items: seq<Json>)
    | JObj(fields: seq<(string, Json)>)

  /** A payload the client sends.  `shard` and `presence` are what the
      caller passed to `__identify`; `presence` is the presence's JSON. */
  datatype GatewayPayload =
    | Identify(token: string, intents: int, os: string, shard: Option<seq<int>>, presence: Option<Json>)
    | Resume(token: string, sequence: Option<int>, sessionId: Option<string>)
    | Heartbeat(sequence: Option<int>)
    | PresenceUpdate(status: Json)

  function Op(p: GatewayPayload): (op: int)
    ensures op in {HEARTBEAT, IDENTIFY, PRESENCE, RESUME}
  {
    match p
    case Identify(_, _, _, _, _) => IDENTIFY
    case Resume(_, _, _) => RESUME
    case Heartbeat(_) => HEARTBEAT
    case PresenceUpdate(_) => PRESENCE
  }

  /** The value of the first member named `key`. */
  function Lookup(fields: seq<(string, Json)>, key: string): (r: Option<Json>)
    ensures r.Some? ==> exists i :: 0 <= i < |fields| && fields[i] == (key, r.value)
    ensures r.None? ==> forall i :: 0 <= i < |fields| ==> fields[i].0 != key
  {
    if |fields| == 0 then None
    else if fields[0].0 == key then Some(fields[0].1)
    else Lookup(fields[1..], key)
  }

  function OptInt(v: Option<int>): Json {
    if v.Some? then JInt(v.value) else JNull
  }

  function OptStr(v: Option<string>): Json {
    if v.Some? then JStr(v.value) else JNull
  }

  function Ints(xs: seq<int>): (r: seq<Json>)
    ensures |r| == |xs|
    ensures forall i :: 0 <= i < |xs| ==> r[i] == JInt(xs[i])
  {
    if |xs| == 0 then [] else [JInt(xs[0])] + Ints(xs[1..])
  }

  /** A shard list is sent only when it has at least one element. */
  predicate SendsShard(shard: Option<seq<int>>) {
    shard.Some? && |shard.value| >= 1
  }

  /** The connection properties of an identify. */
  function Properties(os: string): Json {
    JObj([("$os", JStr(os)), ("$browser", JStr(LIBRARY)), ("$device", JStr(LIBRARY))])
  }

  /** The optional members of an identify's `d` object. */
  function Extras(shard: Option<seq<int>>, presence: Option<Json>): seq<(string, Json)> {
    (if SendsShard(shard) then [("shard", JArr(Ints(shard.value)))] else [])
    + (if presence.Some? then [("presence", presence.value)] else [])
  }

  /** The `d` object of an identify. */
  function IdentifyBody(token: string, intents: int, os: string, shard: Option<seq<int>>, presence: Option<Json>): seq<(string, Json)> {
    [("token", JStr(token)), ("intents", JInt(intents)), ("properties", Properties(os))]
    + Extras(shard, presence)
  }

  /** The `{"op": ..., "d": ...}` object of a payload. */
  function Encode(p: GatewayPayload): (j: Json)
    ensures j.JObj? && |j.fields| == 2
    ensures j.fields[0] == ("op", JInt(Op(p)))
    ensures p.Heartbeat? ==> j.fields[1] == ("d", OptInt(p.sequence))
    ensures p.PresenceUpdate? ==> j.fields[1] == ("d", p.status)
  {
    var d := match p
      case Identify(token, intents, os, shard, presence) => JObj(IdentifyBody(token, intents, os, shard, presence))
      case Resume(token, sequence, sessionId) =>
        JObj([("token", JStr(token)), ("seq", OptInt(sequence)), ("session_id", OptStr(sessionId))])
      case Heartbeat(sequence) => OptInt(sequence)
      case PresenceUpdate(presence) => presence;
    JObj([("op", JInt(Op(p))), ("d", d)])
  }

  function DecodeOptInt(j: Json): Option<Option<int>> {
    match j
    case JNull => Some(None)
    case JInt(i) => Some(Some(i))
    case _ => None
  }

  function DecodeOptStr(j: Json): Option<Option<string>> {
    match j
    case JNull => Some(None)
    case JStr(s) => Some(Some(s))
    case _ => None
  }

  function DecodeInts(items: seq<Json>): (r: Option<seq<int>>)
    ensures r.Some? ==> |r.value| == |items|
  {
    if |items| == 0 then Some([])
    else match items[0]
      case JInt(i) =>
        (match DecodeInts(items[1..])
         case Some(rest) => Some([i] + rest)
         case None => None)
      case _ => None
  }

  function DecodeIdentify(fields: seq<(string, Json)>): Option<GatewayPayload> {
    match (Lookup(fields, "token"), Lookup(fields, "intents"), Lookup(fields, "properties"))
    case (Some(JStr(token)), Some(JInt(intents)), Some(JObj(props))) =>
      (match Lookup(props, "$os")
       case Some(JStr(os)) =>
         var shard := match Lookup(fields, "shard")
           case Some(JArr(items)) => DecodeInts(items)
           case _ => None;
         Some(Identify(token, intents, os, shard, Lookup(fields, "presence")))
       case _ => None)
    case _ => None
  }

  /** What the Gateway reads back out of a payload object. */
  function Decode(j: Json): Option<GatewayPayload> {
    match j
    case JObj(fields) =>
      (match (Lookup(fields, "op"), Lookup(fields, "d"))
       case (Some(JInt(op)), Some(d)) => DecodeBody(op, d)
       case _ => None)
    case _ => None
  }

  /** The payload an opcode and its `d` describe. */
  function DecodeBody(op: int, d: Json): Option<GatewayPayload> {
    if op == HEARTBEAT then
      (match DecodeOptInt(d) case Some(s) => Some(Heartbeat(s)) case None => None)
    else if op == PRESENCE then Some(PresenceUpdate(d))
    else if op == IDENTIFY then
      (match d case JObj(body) => DecodeIdentify(body) case _ => None)
    else if op == RESUME then
      (match d case JObj(body) => DecodeResume(body) case _ => None)
    else None
  }

  function DecodeResume(body: seq<(string, Json)>): Option<GatewayPayload> {
    match (Lookup(body, "token"), Lookup(body, "seq"), Lookup(body, "session_id"))
    case (Some(JStr(token)), Some(s), Some(sid)) =>
      (match (DecodeOptInt(s), DecodeOptStr(sid))
       case (Some(sequence), Some(sessionId)) => Some(Resume(token, sequence, sessionId))
       case _ => None)
    case _ => None
  }

  /** The payload as the Gateway sees it: an empty shard list is not
      sent, so it reads as no shard. */
  function Normalize(p: GatewayPayload): GatewayPayload {
    if p.Identify? && !SendsShard(p.shard) then p.(shard := None) else p
  }

  lemma {:induction false} DecodeInts_Ints(xs: seq<int>)
    ensures DecodeInts(Ints(xs)) == Some(xs)
    decreases |xs|
  {
    if |xs| > 0 {
      DecodeInts_Ints(xs[1..]);
      assert Ints(xs)[1..] == Ints(xs[1..]);
      assert [xs[0]] + xs[1..] == xs;
    }
  }

  /** A lookup in `a + b` finds the member of `a` when there is one, else
      the member of `b`. */
  lemma {:induction false} LookupAppend(a: seq<(string, Json)>, b: seq<(string, Json)>, key: string)
    ensures Lookup(a, key).Some? ==> Lookup(a + b, key) == Lookup(a, key)
    ensures Lookup(a, key).None? ==> Lookup(a + b, key) == Lookup(b, key)
    decreases |a|
  {
    if |a| == 0 {
      assert a + b == b;
    } else {
      assert (a + b)[0] == a[0];
      assert (a + b)[1..] == a[1..] + b;
      LookupAppend(a[1..], b, key);
    }
  }

  lemma ExtrasLookup(shard: Option<seq<int>>, presence: Option<Json>)
    ensures Lookup(Extras(shard, presence), "shard") ==
            (if SendsShard(shard) then Some(JArr(Ints(shard.value))) else None)
    ensures Lookup(Extras(shard, presence), "presence") == presence
  {
    var first: seq<(string, Json)> := if SendsShard(shard) then [("shard", JArr(Ints(shard.value)))] else [];
    var second: seq<(string, Json)> := if presence.Some? then [("presence", presence.value)] else [];
    LookupAppend(first, second, "shard");
    LookupAppend(first, second, "presence");
  }

  lemma IdentifyBodyLookup(token: string, intents: int, os: string, shard: Option<seq<int>>, presence: Option<Json>)
    ensures var body := IdentifyBody(token, intents, os, shard, presence);
            && Lookup(body, "token") == Some(JStr(token))
            && Lookup(body, "intents") == Some(JInt(intents))
            && Lookup(body, "properties") == Some(Properties(os))
            && Lookup(body, "shard") == (if SendsShard(shard) then Some(JArr(Ints(shard.value))) else None)
            && Lookup(body, "presence") == presence
  {
    var head := [("token", JStr(token)), ("intents", JInt(intents)), ("properties", Properties(os))];
    var extras := Extras(shard, presence);
    LookupAppend(head, extras, "token");
    LookupAppend(head, extras, "intents");
    LookupAppend(head, extras, "properties");
    assert head[1..][1..][0] == ("properties", Properties(os));
    assert Lookup(head, "properties") == Some(Properties(os));
    LookupAppend(head, extras, "shard");
    LookupAppend(head, extras, "presence");
    ExtrasLookup(shard, presence);
  }

  lemma DecodeIdentifyBody(token: string, intents: int, os: string, shard: Option<seq<int>>, presence: Option<Json>)
    ensures DecodeIdentify(IdentifyBody(token, intents, os, shard, presence)) ==
            Some(Identify(token, intents, os, if SendsShard(shard) then shard else None, presence))
  {
    IdentifyBodyLookup(token, intents, os, shard, presence);
    assert Lookup([("$os", JStr(os)), ("$browser", JStr(LIBRARY)), ("$device", JStr(LIBRARY))], "$os") == Some(JStr(os));
    if SendsShard(shard) {
      DecodeInts_Ints(shard.value);
    }
  }

  lemma DecodeResumeBody(token: string, sequence: Option<int>, sessionId: Option<string>)
    ensures DecodeResume([("token", JStr(token)), ("seq", OptInt(sequence)), ("session_id", OptStr(sessionId))]) ==
            Some(Resume(token, sequence, sessionId))
  {
    var body := [("token", JStr(token)), ("seq", OptInt(sequence)), ("session_id", OptStr(sessionId))];
    assert Lookup(body, "token") == Some(JStr(token));
    assert body[1..][0] == ("seq", OptInt(sequence));
    assert Lookup(body, "seq") == Some(OptInt(sequence));
    assert body[1..][1..][0] == ("session_id", OptStr(sessionId));
    assert Lookup(body, "session_id") == Some(OptStr(sessionId));
  }

  /** An encoded payload is read back through its opcode and body. */
  lemma DecodeEncodedFrame(p: GatewayPayload)
    ensures Decode(Encode(p)) == DecodeBody(Op(p), Encode(p).fields[1].1)
  {
    var fields := Encode(p).fields;
    assert Lookup(fields, "op") == Some(JInt(Op(p)));
    assert fields[1..][0] == fields[1];
    assert Lookup(fields, "d") == Some(fields[1].1);
  }

  /** Decoding an encoded payload gives it back, up to the dropped empty
      shard list. */
  lemma DecodeEncode(p: GatewayPayload)
    ensures Decode(Encode(p)) == Some(Normalize(p))
  {
    DecodeEncodedFrame(p);
    match p
    case Identify(token, intents, os, shard, presence) =>
      DecodeIdentifyBody(token, intents, os, shard, presence);
    case Resume(token, sequence, sessionId) =>
      DecodeResumeBody(token, sequence, sessionId);
    case Heartbeat(_) =>
    case PresenceUpdate(_) =>
  }

  /** The identify payload: the library's name as browser and device, the
      shard only when the list is non-empty, the presence when given. */
  lemma IdentifyFields(token: string, intents: int, os: string, shard: Option<seq<int>>, presence: Option<Json>)
    ensures var body := Encode(Identify(token, intents, os, shard, presence)).fields[1].1;
            && body.JObj?
            && Lookup(body.fields, "properties") ==
                 Some(JObj([("$os", JStr(os)), ("$browser", JStr(LIBRARY)), ("$device", JStr(LIBRARY))]))
            && (Lookup(body.fields, "shard").Some? <==> SendsShard(shard))
            && Lookup(body.fields, "presence") == presence
  {
    IdentifyBodyLookup(token, intents, os, shard, presence);
  }

  /** `_send_packet` reads the `op` of the object it sends and waits for
      the rate limiter unless it is a heartbeat: every payload but a
      heartbeat needs a send permit. */
  function NeedsPermit(p: GatewayPayload): (r: bool)
    ensures r <==> !p.Heartbeat?
  {
    Lookup(Encode(p).fields, "op") != Some(JInt(HEARTBEAT))
  }
}

=== FILE: receive.dfy ===
/** `__receive_packet`: what the client does with each WebSocket message
    until it has a Gateway frame to return.  A forced read is the one made
    during a connection handshake (`ignore_lock`), which neither waits for
    the connection to be usable nor survives a close. */
module Receive {
  import opened Wrappers

  /** A WebSocket message as aiohttp reports it: a close frame with its
      code, the closed and closing notifications, a text frame, a frame
      whose data is something other than text, or one without data. */
  datatype Packet = Close(code: int) | Closed | Closing | Text(text: string) | NonText | NoData

  /** Close code 1000, "normal closure" (section 7.4.1 of RFC 6455). */
  const NORMAL_CLOSURE: int := 1000

  /** The close code `_reconnect` uses by default. */
  const DEFAULT_RECONNECT_CODE: int := 1012

  /** Something the receive loop does before reading again. */
  datatype Action = Reconnect(resume: bool, code: int) | AwaitClosed

  /** The verdict on one message: raise, read again (possibly after an
      action), or return a frame (None when the data is not text). */
  datatype Verdict = Raise(error: Error) | Again(action: Option<Action>) | Deliver(frame: Option<string>)

  /** The decision for one message; `closedSet` is the state of the
      "connection usable" event when the message is looked at. */
  function Classify(p: Packet, forced: bool, closedSet: bool): (v: Verdict)
    ensures p.Close? && p.code >= 4000 ==> v == Raise(LibraryError(p.code))
    ensures p.Close? && p.code < 4000 && !forced ==> v == Again(Some(Reconnect(p.code != NORMAL_CLOSURE, p.code)))
    ensures (p.Close? || p.Closed? || p.Closing?) && forced ==> v.Raise?
    ensures p.Closed? && !forced ==> v == Again(Some(if closedSet then Reconnect(true, DEFAULT_RECONNECT_CODE) else AwaitClosed))
    ensures p.Closing? && !forced ==> v == Again(Some(AwaitClosed))
    ensures p.Text? ==> v == Deliver(Some(p.text))
    ensures p.NonText? ==> v == Deliver(None)
    ensures p.NoData? ==> v == Again(None)
  {
    match p
    case Close(code) =>
      if code >= 4000 then Raise(LibraryError(code))
      else if forced then Raise(ForcedClose)
      else Again(Some(Reconnect(code != NORMAL_CLOSURE, code)))
    case Closed =>
      if forced then Raise(ForcedClose)
      else if !closedSet then Again(Some(AwaitClosed))
      else Again(Some(Reconnect(true, DEFAULT_RECONNECT_CODE)))
    case Closing =>
      if forced then Raise(ForcedClose) else Again(Some(AwaitClosed))
    case Text(t) => Deliver(Some(t))
    case NonText => Deliver(None)
    case NoData => Again(None)
  }

  /** No close code of 4000 or above leads to a reconnect, and code 4001
      is no exception. */
  lemma HighCodesNeverReconnect(code: int, forced: bool, closedSet: bool)
    requires code >= 4000
    ensures Classify(Close(code), forced, closedSet) == Raise(LibraryError(code))
    ensures !Classify(Close(code), forced, closedSet).Again?
  {
  }

  /** A close below 4000 outside a handshake reconnects, resuming exactly
      when the code is not a normal closure. */
  lemma ResumeIffAbnormal(code: int, closedSet: bool)
    requires code < 4000
    ensures var v := Classify(Close(code), false, closedSet);
            v.Again? && v.action.Some? && v.action.value.Reconnect?
            && (v.action.value.resume <==> code != NORMAL_CLOSURE)
            && v.action.value.code == code
  {
  }

  /** How one receive call ended: a frame, an exception, or (in the model
      only) the end of the available messages. */
  datatype Outcome = Returned(frame: Option<string>) | Failed(error: Error) | Exhausted

  datatype Received = Received(actions: seq<Action>, outcome: Outcome, consumed: nat)

  /** The state of the "usable" event after an action: both a reconnect
      and a completed wait leave it set. */
  function ClosedAfter(closedSet: bool, action: Option<Action>): bool {
    closedSet || action.Some?
  }

  /** The waits and actions before the first message is classified. */
  function Prelude(forced: bool, closedSet: bool): seq<Action> {
    if !forced && !closedSet then [AwaitClosed] else []
  }

  /** The receive loop over the messages that arrive, in order.  Before
      each read an unforced call waits for the connection to be usable. */
  function ReceiveAll(packets: seq<Packet>, forced: bool, closedSet: bool): (r: Received)
    ensures r.consumed <= |packets|
    ensures r.outcome.Exhausted? ==> r.consumed == |packets|
    ensures forced ==> forall i :: 0 <= i < |r.actions| ==> !r.actions[i].Reconnect?
    decreases |packets|
  {
    var pre := Prelude(forced, closedSet);
    var cs := closedSet || !forced;
    if |packets| == 0 then Received(pre, Exhausted, 0)
    else
      match Classify(packets[0], forced, cs)
      case Raise(e) => Received(pre, Failed(e), 1)
      case Deliver(f) => Received(pre, Returned(f), 1)
      case Again(a) =>
        var rest := ReceiveAll(packets[1..], forced, ClosedAfter(cs, a));
        Received(pre + (if a.Some? then [a.value] else []) + rest.actions, rest.outcome, rest.consumed + 1)
  }

  /** The result of a receive that started `offset` messages in, after
      `done` actions were already taken. */
  function After(done: seq<Action>, offset: nat, r: Received): Received {
    Received(done + r.actions, r.outcome, r.consumed + offset)
  }

  /** One unfolding of `ReceiveAll` on a message that is read past. */
  lemma AgainStep(packets: seq<Packet>, forced: bool, closedSet: bool, a: Option<Action>)
    requires |packets| > 0
    requires Classify(packets[0], forced, closedSet || !forced) == Again(a)
    ensures ReceiveAll(packets, forced, closedSet) ==
            After(Prelude(forced, closedSet) + (if a.Some? then [a.value] else []), 1,
                  ReceiveAll(packets[1..], forced, ClosedAfter(closedSet || !forced, a)))
  {
    var rest := ReceiveAll(packets[1..], forced, ClosedAfter(closedSet || !forced, a));
    var pre := Prelude(forced, closedSet) + (if a.Some? then [a.value] else []);
    assert pre + rest.actions == Prelude(forced, closedSet) + (if a.Some? then [a.value] else []) + rest.actions;
  }

  /** One unfolding of `ReceiveAll` on a message that ends the call. */
  lemma StopStep(packets: seq<Packet>, forced: bool, closedSet: bool)
    requires |packets| > 0
    requires !Classify(packets[0], forced, closedSet || !forced).Again?
    ensures var v := Classify(packets[0], forced, closedSet || !forced);
            ReceiveAll(packets, forced, closedSet) ==
              Received(Prelude(forced, closedSet), if v.Raise? then Failed(v.error) else Returned(v.frame), 1)
  {
  }

  /** The loop invariant of `Receive` survives a message that is read
      past. */
  lemma LoopStep(packets: seq<Packet>, forced: bool, closedSet: bool, actions: seq<Action>, i: nat, cs: bool)
    requires i < |packets|
    requires ReceiveAll(packets, forced, closedSet) == After(actions, i, ReceiveAll(packets[i..], forced, cs))
    requires Classify(packets[i], forced, cs || !forced).Again?
    ensures var a := Classify(packets[i], forced, cs || !forced).action;
            ReceiveAll(packets, forced, closedSet) ==
              After(actions + Prelude(forced, cs) + (if a.Some? then [a.value] else []), i + 1,
                    ReceiveAll(packets[i + 1..], forced, ClosedAfter(cs || !forced, a)))
  {
    var rest := packets[i..];
    assert rest[0] == packets[i];
    var a := Classify(packets[i], forced, cs || !forced).action;
    var step := Prelude(forced, cs) + (if a.Some? then [a.value] else []);
    assert rest[1..] == packets[i + 1..];
    var tail := ReceiveAll(packets[i + 1..], forced, ClosedAfter(cs || !forced, a));
    AgainStep(rest, forced, cs, a);
    assert ReceiveAll(rest, forced, cs) == After(step, 1, tail);
    AfterAfter(actions, i, step, 1, tail);
    AppendAssoc(actions, Prelude(forced, cs), if a.Some? then [a.value] else []);
  }

  /** Two offsets compose. */
  lemma AfterAfter(d1: seq<Action>, o1: nat, d2: seq<Action>, o2: nat, r: Received)
    ensures After(d1, o1, After(d2, o2, r)) == After(d1 + d2, o1 + o2, r)
  {
    AppendAssoc(d1, d2, r.actions);
  }

  /** The receive loop, one message per iteration, with the model's
      actions collected in order. */
  method Receive(packets: seq<Packet>, forced: bool, closedSet: bool) returns (actions: seq<Action>, outcome: Outcome, consumed: nat)
    ensures Received(actions, outcome, consumed) == ReceiveAll(packets, forced, closedSet)
  {
    actions := [];
    var cs := closedSet;
    var i := 0;
    while i < |packets|
      invariant 0 <= i <= |packets|
      invariant ReceiveAll(packets, forced, closedSet) == After(actions, i, ReceiveAll(packets[i..], forced, cs))
      decreases |packets| - i
    {
      var v := Classify(packets[i], forced, cs || !forced);
      if !v.Again? {
        assert packets[i..][0] == packets[i];
        StopStep(packets[i..], forced, cs);
        if v.Raise? {
          return actions + Prelude(forced, cs), Failed(v.error), i + 1;
        }
        return actions + Prelude(forced, cs), Returned(v.frame), i + 1;
      }
      LoopStep(packets, forced, closedSet, actions, i, cs);
      actions := actions + Prelude(forced, cs) + (if v.action.Some? then [v.action.value] else []);
      cs := ClosedAfter(cs || !forced, v.action);
      i := i + 1;
    }
    assert packets[i..] == [];
    return actions + Prelude(forced, cs), Exhausted, i;
  }

  /** A handshake read delivers the first text (or None for non-text
      data), raises on the first close-type message, skips empty frames,
      and takes no action at all. */
  lemma {:induction false} ForcedReadTakesNoAction(packets: seq<Packet>, closedSet: bool)
    ensures ReceiveAll(packets, true, closedSet).actions == []
    decreases |packets|
  {
    if |packets| > 0 && packets[0].NoData? {
      ForcedReadTakesNoAction(packets[1..], closedSet);
    }
  }

  /** Empty frames before a text frame are skipped and the text is
      returned, whether or not the read is forced. */
  lemma {:induction false} SkipsEmptyFrames(packets: seq<Packet>, k: nat, forced: bool)
    requires k < |packets| && packets[k].Text?
    requires forall j :: 0 <= j < k ==> packets[j].NoData?
    ensures ReceiveAll(packets, forced, true).outcome == Returned(Some(packets[k].text))
    ensures ReceiveAll(packets, forced, true).consumed == k + 1
    ensures ReceiveAll(packets, forced, true).actions == []
    decreases k
  {
    if k > 0 {
      SkipsEmptyFrames(packets[1..], k - 1, forced);
    }
  }

  /** Outside a handshake, an abnormal close followed by a text frame
      reconnects with resume and then returns the text. */
  lemma CloseThenText(code: int, text: string)
    requires code < 4000 && code != NORMAL_CLOSURE
    ensures ReceiveAll([Close(code), Text(text)], false, true) ==
            Received([Reconnect(true, code)], Returned(Some(text)), 2)
  {
    assert [Close(code), Text(text)][1..] == [Text(text)];
  }
}

=== FILE: reconciler.dfy ===
/** The entity branch of `_dispatch_event`: the event name becomes a model
    class name, the decoded object gets a cache key, and the create /
    update / delete policies write the cache, maintain the owning guild's
    child list and produce the dispatched events in order. */
module Reconciler {
  import opened Wrappers
  import opened Text
  import opened Entities
  import opened GuildLists

  /** Capitalise every section. */
  function CapitalizeAll(ws: seq<string>): (r: seq<string>)
    ensures |r| == |ws|
    ensures forall i :: 0 <= i < |ws| ==> r[i] == Capitalize(ws[i])
  {
    if |ws| == 0 then [] else [Capitalize(ws[0])] + CapitalizeAll(ws[1..])
  }

  /** The model class name of an event: the capitalised `_` sections of
      the lower-cased name, the first alone when there are fewer than
      three sections, else all but the last concatenated. */
  function ModelName(event: string): string {
    var sections := CapitalizeAll(Split(Lower(event), '_'));
    if |sections| < 3 then sections[0] else Concat(sections[..|sections| - 1])
  }

  function LowerAll(ws: seq<string>): (r: seq<string>)
    ensures |r| == |ws|
    ensures forall i :: 0 <= i < |ws| ==> r[i] == Lower(ws[i])
  {
    if |ws| == 0 then [] else [Lower(ws[0])] + LowerAll(ws[1..])
  }

  lemma {:induction false} LowerJoin(ws: seq<string>, sep: char)
    requires LowerChar(sep) == sep
    ensures Lower(JoinWith(ws, sep)) == JoinWith(LowerAll(ws), sep)
    decreases |ws|
  {
    if |ws| >= 2 {
      LowerJoin(ws[1..], sep);
      LowerConcat(ws[0] + [sep], JoinWith(ws[1..], sep));
      LowerConcat(ws[0], [sep]);
      assert LowerAll(ws)[1..] == LowerAll(ws[1..]);
    }
  }

  lemma LowerTwice(s: string)
    ensures Lower(Lower(s)) == Lower(s)
  {
    forall i | 0 <= i < |s| ensures Lower(Lower(s))[i] == Lower(s)[i] {
      assert LowerChar(LowerChar(s[i])) == LowerChar(s[i]);
    }
  }

  lemma CapitalizeLower(w: string)
    ensures Capitalize(Lower(w)) == Capitalize(w)
  {
    if |w| > 0 {
      var l := Lower(w);
      assert l[1..] == Lower(w[1..]);
      LowerTwice(w[1..]);
      assert UpperChar(LowerChar(w[0])) == UpperChar(w[0]);
    }
  }

  lemma LowerAllKeepsSeparatorOut(words: seq<string>)
    requires forall k :: 0 <= k < |words| ==> '_' !in words[k]
    ensures forall k :: 0 <= k < |words| ==> '_' !in LowerAll(words)[k]
  {
    var lowered := LowerAll(words);
    forall k | 0 <= k < |lowered| ensures '_' !in lowered[k] {
      forall i | 0 <= i < |lowered[k]| ensures lowered[k][i] != '_' {
        assert words[k][i] in words[k];
      }
    }
  }

  lemma CapitalizeAllLower(words: seq<string>)
    ensures CapitalizeAll(LowerAll(words)) == CapitalizeAll(words)
  {
    forall k | 0 <= k < |words| ensures Capitalize(LowerAll(words)[k]) == Capitalize(words[k]) {
      CapitalizeLower(words[k]);
    }
  }

  /** The transform on a name built from `_`-free words: the capitalised
      first word below three words, else the concatenation of all
      capitalised words but the last. */
  lemma ModelNameOfWords(words: seq<string>)
    requires |words| >= 1
    requires forall k :: 0 <= k < |words| ==> '_' !in words[k]
    ensures var titled := CapitalizeAll(words);
            ModelName(JoinWith(words, '_')) ==
              if |words| < 3 then titled[0] else Concat(titled[..|words| - 1])
  {
    LowerJoin(words, '_');
    LowerAllKeepsSeparatorOut(words);
    SplitJoin(LowerAll(words), '_');
    CapitalizeAllLower(words);
  }

  lemma TwoWordName(e: string, a: string, b: string)
    requires e == a + "_" + b && '_' !in a && '_' !in b
    ensures ModelName(e) == Capitalize(a)
  {
    assert JoinWith([a, b], '_') == e;
    ModelNameOfWords([a, b]);
  }

  /** `CHANNEL_CREATE` is dispatched to the `Channel` model. */
  lemma ChannelCreateModel(e: string)
    requires e == "CHANNEL_CREATE"
    ensures ModelName(e) == "Channel"
  {
    assert e == "CHANNEL" + "_" + "CREATE";
    TwoWordName(e, "CHANNEL", "CREATE");
    assert Capitalize("CHANNEL") == "Channel";
  }

  lemma ThreeWordName(e: string, a: string, b: string, c: string)
    requires e == a + "_" + b + "_" + c && '_' !in a && '_' !in b && '_' !in c
    ensures ModelName(e) == Capitalize(a) + Capitalize(b)
  {
    var words := [a, b, c];
    assert words[1..] == [b, c] && [b, c][1..] == [c];
    assert JoinWith([b, c], '_') == b + "_" + c;
    assert JoinWith(words, '_') == a + "_" + (b + "_" + c);
    assert JoinWith(words, '_') == e;
    ModelNameOfWords(words);
    var titled := CapitalizeAll(words);
    assert titled[..2] == [Capitalize(a), Capitalize(b)];
    var pair := [Capitalize(a), Capitalize(b)];
    assert pair[1..] == [Capitalize(b)] && [Capitalize(b)][1..] == [];
    assert Concat([Capitalize(b)]) == Capitalize(b) + "";
    assert Concat(pair) == Capitalize(a) + Capitalize(b);
  }

  lemma CapitalizeGuild(w: string)
    requires w == "GUILD"
    ensures Capitalize(w) == "Guild"
  {
  }

  lemma CapitalizeMember(w: string)
    requires w == "MEMBER"
    ensures Capitalize(w) == "Member"
  {
  }

  lemma GuildMemberAddWords(e: string)
    requires e == "GUILD_MEMBER_ADD"
    ensures e == "GUILD" + "_" + "MEMBER" + "_" + "ADD"
    ensures '_' !in "GUILD" && '_' !in "MEMBER" && '_' !in "ADD"
  {
  }

  /** `GUILD_MEMBER_ADD` is dispatched to the `GuildMember` model. */
  lemma GuildMemberAddModel(e: string)
    requires e == "GUILD_MEMBER_ADD"
    ensures ModelName(e) == "GuildMember"
  {
    GuildMemberAddWords(e);
    ThreeWordName(e, "GUILD", "MEMBER", "ADD");
    CapitalizeGuild("GUILD");
    CapitalizeMember("MEMBER");
  }

  /** What the dispatcher knows of a model class. */
  datatype ModelInfo = ModelInfo(isMember: bool, isGuild: bool)

  /** The models the client can build: class name to class facts.  A name
      missing here stands for the `AttributeError` of the module lookup. */
  type Models = map<string, ModelInfo>

  /** Models whose events are never cached. */
  const NoCache: seq<string> :=
    ["Invite", "GuildBan", "ChannelPins", "MessageReaction", "MessageReactionRemove", "MessageDelete"]

  /** The identifier derivation.  `Err(AttributeMissing)` is the caught
      `AttributeError` (the frame is dropped); `Err(KeyMissing)` is the
      uncaught `KeyError` of a member event without `guild_id`. */
  function DeriveKey(modelName: string, info: ModelInfo, guildId: Option<Snowflake>, obj: Entity): (r: Result<Option<Key>>)
    ensures info.isMember && guildId.Some? && obj.id.IdAttr? ==>
      r == Ok(Some(MemberPair(guildId.value, obj.id.value)))
    ensures info.isMember && guildId.None? ==> r == Err(KeyMissing)
    ensures info.isMember && guildId.Some? && obj.id.NoIdAttr? ==> r == Err(AttributeMissing)
    ensures !info.isMember && IdValue(obj).Some? ==> r == Ok(Some(Id(IdValue(obj).value)))
    ensures !info.isMember && IdValue(obj).None? && modelName == "GuildScheduledEventUser" ==>
      r == Ok(Some(ClassAttribute))
    ensures !info.isMember && IdValue(obj).None? && modelName in NoCache ==> r == Ok(None)
    ensures !info.isMember && IdValue(obj).None? && !StartsWith(modelName, "Guild") ==> r == Ok(None)
    ensures r.Ok? && r.value.Some? && r.value.value.MemberPair? ==> info.isMember
    ensures !info.isMember && IdValue(obj).None? && modelName != "GuildScheduledEventUser" &&
            modelName !in NoCache && StartsWith(modelName, "Guild") ==>
      var attr := DropPrefix(modelName, 5);
      && (attr in obj.refs ==> r == Ok(if obj.refs[attr].Some? then Some(Id(obj.refs[attr].value)) else None))
      && (attr !in obj.refs && attr + "_id" in obj.ids ==>
            r == Ok(if obj.ids[attr + "_id"].Some? then Some(Id(obj.ids[attr + "_id"].value)) else None))
      && (attr !in obj.refs && attr + "_id" !in obj.ids ==> r == Ok(None))
  {
    if info.isMember then
      if guildId.None? then Err(KeyMissing)
      else if obj.id.NoIdAttr? then Err(AttributeMissing)
      else Ok(Some(MemberPair(guildId.value, obj.id.value)))
    else match IdValue(obj)
      case Some(s) => Ok(Some(Id(s)))
      case None =>
        if modelName == "GuildScheduledEventUser" then Ok(Some(ClassAttribute))
        else if modelName in NoCache then Ok(None)
        else if StartsWith(modelName, "Guild") then
          var attr := DropPrefix(modelName, 5);
          if attr in obj.refs then
            Ok(if obj.refs[attr].Some? then Some(Id(obj.refs[attr].value)) else None)
          else if attr + "_id" in obj.ids then
            Ok(if obj.ids[attr + "_id"].Some? then Some(Id(obj.ids[attr + "_id"].value)) else None)
          else Ok(None)
        else Ok(None)
  }

  /** One `dispatch(...)` of the entity branch. */
  datatype EntityEvent =
    | WithObject(name: string, obj: Entity)                           // on_<name>(obj), on_raw_<name>(obj)
    | WithPopped(name: string, popped: Option<Entity>)                // on_<name>(cache.pop(id))
    | WithDelta(name: string, before: Option<Entity>, after: Entity)  // on_<name>(before, after)

  /** How the handling of one frame ended. */
  datatype Outcome = Completed | Dropped | Raised(error: Error)

  datatype Step = Step(cache: Cache, events: seq<EntityEvent>, outcome: Outcome)

  /** The entity branch for a non-interaction event.  `merge` is the
      uninterpreted field merge and `slotted` whether the guild class
      rejects undeclared attributes.  A write-back that raises inside
      `__modify_guild_cache` ends the branch where it stands: the
      surrounding `except AttributeError` drops the rest of the frame. */
  function Reconcile(models: Models, c: Cache, event: string, guildId: Option<Snowflake>,
                     obj: Entity, merge: Merge, slotted: bool): Step
  {
    var name := Lower(event);
    var model := ModelName(event);
    if model !in models then Step(c, [], Dropped)
    else
      var info := models[model];
      match DeriveKey(model, info, guildId, obj)
      case Err(e) => Step(c, [], if e == AttributeMissing then Dropped else Raised(e))
      case Ok(key) =>
        if IsCreateName(name) then
          var c1 := if key.Some? then MergeInto(c, model, key, obj, merge) else c;
          var g := ModifyGuildCache(c1, name, model, info.isGuild, guildId, obj, key, slotted);
          Step(g.cache, [WithObject("on_" + name, obj)], if g.raised then Dropped else Completed)
        else if IsUpdateName(name) then
          var raw := WithObject("on_raw_" + name, obj);
          if obj.id.NoIdAttr? then Step(c, [raw], Completed)
          else
            var before := Get(c, model, key);
            var after := if before.Some? then merge(before.value, obj) else obj;
            var c1 := Put(c, model, key, after);
            var g := ModifyGuildCache(c1, name, model, info.isGuild, guildId, obj, key, slotted);
            if g.raised then Step(g.cache, [raw], Dropped)
            else Step(g.cache, [raw, WithDelta("on_" + name, before, after)], Completed)
        else if IsRemoveName(name) then
          var raw := WithObject("on_raw_" + name, obj);
          var g := ModifyGuildCache(c, name, model, info.isGuild, guildId, obj, key, slotted);
          if g.raised then Step(g.cache, [raw], Dropped)
          else if key.Some? then
            Step(Remove(g.cache, model, key), [raw, WithPopped("on_" + name, Get(g.cache, model, key))], Completed)
          else if Contains(name, "_delete_bulk") then
            Step(g.cache, [raw, WithObject("on_" + name, obj)], Completed)
          else Step(g.cache, [raw], Completed)
        else Step(c, [WithObject("on_" + name, obj)], Completed)
  }

  /** Whether the guild-list write-back of the entity branch raises, given
      the cache `__modify_guild_cache` sees.  Only the Guild store matters,
      and the create and update branches change only the model's own. */
  predicate WriteBackFailsOn(models: Models, c: Cache, event: string, guildId: Option<Snowflake>,
                             key: Option<Key>, slotted: bool) {
    var model := ModelName(event);
    model in models && WriteBackFails(c, Lower(event), model, models[model].isGuild, guildId, key, slotted)
  }

  /** The key the entity branch uses for `obj`, when it gets that far. */
  predicate KeyedAs(models: Models, event: string, guildId: Option<Snowflake>, obj: Entity, key: Option<Key>) {
    var model := ModelName(event);
    model in models && DeriveKey(model, models[model], guildId, obj) == Ok(key)
  }

  /** An uncaught error is raised before any event goes out or the cache
      changes; with an unslotted guild class the same holds for a dropped
      frame, since only the write-back can drop it late. */
  lemma FailsBeforeEffects(models: Models, c: Cache, event: string, guildId: Option<Snowflake>, obj: Entity,
                           merge: Merge, slotted: bool)
    ensures var r := Reconcile(models, c, event, guildId, obj, merge, slotted);
            && (r.outcome.Raised? ==> r.events == [] && r.cache == c)
            && (!slotted && r.outcome != Completed ==> r.events == [] && r.cache == c)
  {
    var name := Lower(event);
    var model := ModelName(event);
    if model in models {
      match DeriveKey(model, models[model], guildId, obj)
      case Err(_) =>
      case Ok(key) =>
        var info := models[model];
        if IsCreateName(name) {
          var c1 := if key.Some? then MergeInto(c, model, key, obj, merge) else c;
          var g := ModifyGuildCache(c1, name, model, info.isGuild, guildId, obj, key, slotted);
          assert !slotted ==> !g.raised;
        } else if IsUpdateName(name) && obj.id.IdAttr? {
          var before := Get(c, model, key);
          var after := if before.Some? then merge(before.value, obj) else obj;
          var g := ModifyGuildCache(Put(c, model, key, after), name, model, info.isGuild, guildId, obj, key, slotted);
          assert !slotted ==> !g.raised;
        } else if !IsUpdateName(name) && IsRemoveName(name) {
          var g := ModifyGuildCache(c, name, model, info.isGuild, guildId, obj, key, slotted);
          assert !slotted ==> !g.raised;
        }
    }
  }

  /** An unknown model drops the frame: no event, no cache change. */
  lemma UnknownModelDropped(models: Models, c: Cache, event: string, guildId: Option<Snowflake>, obj: Entity,
                            merge: Merge, slotted: bool)
    requires ModelName(event) !in models
    ensures Reconcile(models, c, event, guildId, obj, merge, slotted) == Step(c, [], Dropped)
  {
  }

  /** Create/add: `on_<name>` carries the new object; with a key the store
      holds it (merged into a cached value when there is one).  The frame
      is dropped, after both, exactly when the guild write-back raises. */
  lemma CreatePolicy(models: Models, c: Cache, event: string, guildId: Option<Snowflake>,
                     obj: Entity, merge: Merge, slotted: bool, key: Option<Key>)
    requires KeyedAs(models, event, guildId, obj, key)
    requires IsCreateName(Lower(event))
    requires ModelName(event) != "Guild" || models[ModelName(event)].isGuild
    ensures var r := Reconcile(models, c, event, guildId, obj, merge, slotted);
            var model := ModelName(event);
            && r.outcome == (if WriteBackFailsOn(models, c, event, guildId, key, slotted) then Dropped else Completed)
            && r.events == [WithObject("on_" + Lower(event), obj)]
            && (key.Some? && Get(c, model, key).Some? ==> Get(r.cache, model, key) == Some(merge(Get(c, model, key).value, obj)))
            && (key.Some? && Get(c, model, key).None? ==> Get(r.cache, model, key) == Some(obj))
            && (key.None? ==> StoreOf(r.cache, model) == StoreOf(c, model))
  {
    var model := ModelName(event);
    var c1 := if key.Some? then MergeInto(c, model, key, obj, merge) else c;
    if ModelName(event) != "Guild" {
      assert StoreOf(c1, "Guild") == StoreOf(c, "Guild");
    } else {
      assert !Applies(Lower(event), true, guildId, key);
    }
  }

  /** Update of a cached key: `on_raw_<name>`, then `on_<name>(before,
      after)` with the old value as `before` and the merge as `after`
      unless the guild write-back raises first; the store holds the merge
      either way. */
  lemma UpdateCachedPolicy(models: Models, c: Cache, event: string, guildId: Option<Snowflake>,
                           obj: Entity, merge: Merge, slotted: bool, key: Option<Key>)
    requires KeyedAs(models, event, guildId, obj, key)
    requires !IsCreateName(Lower(event)) && IsUpdateName(Lower(event))
    requires obj.id.IdAttr?
    requires ModelName(event) != "Guild" || models[ModelName(event)].isGuild
    requires Get(c, ModelName(event), key).Some?
    ensures var r := Reconcile(models, c, event, guildId, obj, merge, slotted);
            var cached := Get(c, ModelName(event), key).value;
            var fails := WriteBackFailsOn(models, c, event, guildId, key, slotted);
            && r.outcome == (if fails then Dropped else Completed)
            && r.events == [WithObject("on_raw_" + Lower(event), obj)] +
                           (if fails then [] else [WithDelta("on_" + Lower(event), Some(cached), merge(cached, obj))])
            && Get(r.cache, ModelName(event), key) == Some(merge(cached, obj))
  {
    var c1 := Put(c, ModelName(event), key, merge(Get(c, ModelName(event), key).value, obj));
    if ModelName(event) != "Guild" {
      assert StoreOf(c1, "Guild") == StoreOf(c, "Guild");
    } else {
      assert !Applies(Lower(event), true, guildId, key);
    }
  }

  /** Update of an uncached key: `before` is None, the store holds the new
      object. */
  lemma UpdateUncachedPolicy(models: Models, c: Cache, event: string, guildId: Option<Snowflake>,
                             obj: Entity, merge: Merge, slotted: bool, key: Option<Key>)
    requires KeyedAs(models, event, guildId, obj, key)
    requires !IsCreateName(Lower(event)) && IsUpdateName(Lower(event))
    requires obj.id.IdAttr?
    requires ModelName(event) != "Guild" || models[ModelName(event)].isGuild
    requires Get(c, ModelName(event), key).None?
    ensures var r := Reconcile(models, c, event, guildId, obj, merge, slotted);
            var fails := WriteBackFailsOn(models, c, event, guildId, key, slotted);
            && r.outcome == (if fails then Dropped else Completed)
            && r.events == [WithObject("on_raw_" + Lower(event), obj)] +
                           (if fails then [] else [WithDelta("on_" + Lower(event), None, obj)])
            && Get(r.cache, ModelName(event), key) == Some(obj)
  {
    var c1 := Put(c, ModelName(event), key, obj);
    if ModelName(event) != "Guild" {
      assert StoreOf(c1, "Guild") == StoreOf(c, "Guild");
    } else {
      assert !Applies(Lower(event), true, guildId, key);
    }
  }

  /** Update of an object without an `id` attribute: only the raw event,
      and the cache is untouched. */
  lemma UpdateWithoutIdPolicy(models: Models, c: Cache, event: string, guildId: Option<Snowflake>,
                              obj: Entity, merge: Merge, slotted: bool, key: Option<Key>)
    requires KeyedAs(models, event, guildId, obj, key)
    requires !IsCreateName(Lower(event)) && IsUpdateName(Lower(event))
    requires obj.id.NoIdAttr?
    ensures Reconcile(models, c, event, guildId, obj, merge, slotted) ==
            Step(c, [WithObject("on_raw_" + Lower(event), obj)], Completed)
  {
  }

  /** Delete/remove with a key: `on_raw_<name>`, then `on_<name>` with the
      popped value, after which the key is absent from the store.  When
      the guild write-back raises first, neither the pop nor the second
      event happens and the store keeps the key. */
  lemma DeleteKeyedPolicy(models: Models, c: Cache, event: string, guildId: Option<Snowflake>,
                          obj: Entity, merge: Merge, slotted: bool, key: Option<Key>)
    requires KeyedAs(models, event, guildId, obj, key) && key.Some?
    requires !IsCreateName(Lower(event)) && !IsUpdateName(Lower(event)) && IsRemoveName(Lower(event))
    requires ModelName(event) != "Guild" || models[ModelName(event)].isGuild
    ensures var r := Reconcile(models, c, event, guildId, obj, merge, slotted);
            var raw := WithObject("on_raw_" + Lower(event), obj);
            && (WriteBackFailsOn(models, c, event, guildId, key, slotted) ==>
                  && r.outcome == Dropped
                  && r.events == [raw]
                  && StoreOf(r.cache, ModelName(event)) == StoreOf(c, ModelName(event)))
            && (!WriteBackFailsOn(models, c, event, guildId, key, slotted) ==>
                  && r.outcome == Completed
                  && r.events == [raw, WithPopped("on_" + Lower(event), Get(c, ModelName(event), key))]
                  && Get(r.cache, ModelName(event), key).None?
                  && (forall k :: k != key ==> Get(r.cache, ModelName(event), k) == Get(c, ModelName(event), k)))
  {
  }

  /** Delete/remove without a key: a second event only for bulk deletes,
      and the cache is untouched (without a key the guild lists are not
      consulted). */
  lemma DeleteUnkeyedPolicy(models: Models, c: Cache, event: string, guildId: Option<Snowflake>,
                            obj: Entity, merge: Merge, slotted: bool)
    requires KeyedAs(models, event, guildId, obj, None)
    requires !IsCreateName(Lower(event)) && !IsUpdateName(Lower(event)) && IsRemoveName(Lower(event))
    ensures var r := Reconcile(models, c, event, guildId, obj, merge, slotted);
            var raw := WithObject("on_raw_" + Lower(event), obj);
            && r.outcome == Completed
            && r.cache == c
            && (Contains(Lower(event), "_delete_bulk") ==> r.events == [raw, WithObject("on_" + Lower(event), obj)])
            && (!Contains(Lower(event), "_delete_bulk") ==> r.events == [raw])
  {
  }

  /** Once a create has cached a key, a later update of the same key
      under the same model delivers a non-null `before`, the value the
      create stored, unless the update's guild write-back raises. */
  lemma CreateThenUpdateHasBefore(models: Models, c: Cache, create: string, update: string,
                                  guildId: Option<Snowflake>, obj1: Entity, obj2: Entity,
                                  merge: Merge, slotted: bool, key: Key)
    requires ModelName(create) == ModelName(update)
    requires KeyedAs(models, create, guildId, obj1, Some(key))
    requires ModelName(create) != "Guild" || models[ModelName(create)].isGuild
    requires KeyedAs(models, update, guildId, obj2, Some(key))
    requires IsCreateName(Lower(create))
    requires !IsCreateName(Lower(update)) && IsUpdateName(Lower(update))
    requires obj2.id.IdAttr?
    ensures var c1 := Reconcile(models, c, create, guildId, obj1, merge, slotted).cache;
            var r := Reconcile(models, c1, update, guildId, obj2, merge, slotted);
            var stored := Get(c1, ModelName(create), Some(key)).value;
            && Get(c1, ModelName(create), Some(key)).Some?
            && (!WriteBackFailsOn(models, c1, update, guildId, Some(key), slotted) ==>
                  r.events == [WithObject("on_raw_" + Lower(update), obj2),
                               WithDelta("on_" + Lower(update), Some(stored), merge(stored, obj2))])
  {
    CreatePolicy(models, c, create, guildId, obj1, merge, slotted, Some(key));
    var c1 := Reconcile(models, c, create, guildId, obj1, merge, slotted).cache;
    UpdateCachedPolicy(models, c1, update, guildId, obj2, merge, slotted, Some(key));
  }

  /** Create, then update, then delete of the same key leaves the key
      absent from the store, unless the delete's guild write-back raises,
      in which case the key is still cached. */
  lemma CreateUpdateDeleteClears(models: Models, c: Cache, create: string, update: string, delete: string,
                                 guildId: Option<Snowflake>, obj1: Entity, obj2: Entity, obj3: Entity,
                                 merge: Merge, slotted: bool, key: Key)
    requires ModelName(create) == ModelName(update) == ModelName(delete)
    requires KeyedAs(models, create, guildId, obj1, Some(key))
    requires ModelName(create) != "Guild" || models[ModelName(create)].isGuild
    requires KeyedAs(models, update, guildId, obj2, Some(key))
    requires KeyedAs(models, delete, guildId, obj3, Some(key))
    requires IsCreateName(Lower(create))
    requires !IsCreateName(Lower(update)) && IsUpdateName(Lower(update)) && obj2.id.IdAttr?
    requires !IsCreateName(Lower(delete)) && !IsUpdateName(Lower(delete)) && IsRemoveName(Lower(delete))
    ensures var c1 := Reconcile(models, c, create, guildId, obj1, merge, slotted).cache;
            var c2 := Reconcile(models, c1, update, guildId, obj2, merge, slotted).cache;
            var c3 := Reconcile(models, c2, delete, guildId, obj3, merge, slotted).cache;
            && (!WriteBackFailsOn(models, c2, delete, guildId, Some(key), slotted) ==> Get(c3, ModelName(create), Some(key)).None?)
            && (WriteBackFailsOn(models, c2, delete, guildId, Some(key), slotted) ==> Get(c3, ModelName(create), Some(key)).Some?)
  {
    var c1 := Reconcile(models, c, create, guildId, obj1, merge, slotted).cache;
    CreatePolicy(models, c, create, guildId, obj1, merge, slotted, Some(key));
    var c2 := Reconcile(models, c1, update, guildId, obj2, merge, slotted).cache;
    UpdateCachedPolicy(models, c1, update, guildId, obj2, merge, slotted, Some(key));
    DeleteKeyedPolicy(models, c2, delete, guildId, obj3, merge, slotted, Some(key));
  }

  /** The guild list sees the same operation as the store: a create of a
      guild child appends it to the cached guild's list, whether or not
      the write-back that follows raises. */
  lemma CreateAppendsToGuild(models: Models, c: Cache, event: string, g: Snowflake, obj: Entity,
                             merge: Merge, slotted: bool, key: Key, attr: string)
    requires KeyedAs(models, event, Some(g), obj, Some(key))
    requires IsCreateName(Lower(event)) && !IsRemoveName(Lower(event)) && !IsUpdateName(Lower(event))
    requires !models[ModelName(event)].isGuild && !Contains(Lower(event), "message")
    requires ModelName(event) != "Guild"
    requires Get(c, "Guild", Some(Id(g))).Some?
    requires ListAttribute(ModelName(event)) == Some(attr)
    requires attr in Get(c, "Guild", Some(Id(g))).value.lists
    ensures var r := Reconcile(models, c, event, Some(g), obj, merge, slotted);
            var before := Get(c, "Guild", Some(Id(g))).value.lists[attr];
            Get(r.cache, "Guild", Some(Id(g))).value.lists[attr] == before + [obj]
  {
    var model := ModelName(event);
    var c1 := MergeInto(c, model, Some(key), obj, merge);
    assert Get(c1, "Guild", Some(Id(g))) == Get(c, "Guild", Some(Id(g)));
    ModifyEditsOneList(c1, Lower(event), model, false, Some(g), obj, Some(key), slotted, attr);
    EditCreateAppends(Get(c, "Guild", Some(Id(g))).value.lists[attr], Lower(event), obj, key);
  }
}

=== FILE: session.dfy ===
/** The Gateway session of `WebSocketClient`: the session record, the
    frame reducer `_handle_stream`, the decision part of `_reconnect`, the
    start-up handshake of `run`, the heartbeat-ack check of
    `_manage_heartbeat` and `_update_presence`. */
module Session {
  import opened Wrappers
  import opened Entities
  import opened Reconciler
  import opened Payloads
  import opened Dispatch
  import Receive

  /** What the `_ready` slot holds: never assigned, a non-dict READY
      body, or the READY dict. */
  datatype ReadySlot = Unset | HoldsOther | HoldsDict

  /** The client's session state.
      - `ready`: the `ready` event; `started`: `__started`;
      - `ackSet`: the heartbeater's ack event; `closedSet`: `__closed`,
        set while the connection is usable;
      - `connected`: a WebSocket is held;
      - `shard`, `presence`: what the last identify or presence update used;
      - `stopping`: the closing event that ends `run`. */
  datatype Session = Session(
    sequence: Option<int>,
    sessionId: Option<string>,
    resumeUrl: Option<string>,
    wsUrl: Option<string>,
    ready: bool,
    started: bool,
    ackSet: bool,
    closedSet: bool,
    readySlot: ReadySlot,
    connected: bool,
    shard: Option<seq<int>>,
    presence: Option<Json>,
    stopping: bool)

  /** The state `__init__` leaves, for an optional session to resume. */
  function Initial(sessionId: Option<string>, sequence: Option<int>): (s: Session)
    ensures s.sessionId == sessionId && s.sequence == sequence
    ensures !s.ready && !s.started && !s.connected && s.readySlot == Unset
  {
    Session(sequence, sessionId, None, None, false, false, false, false, Unset, false, None, None, false)
  }

  /** What the client is configured with.  `guildSlotted` says whether
      the Guild model rejects attributes it does not declare, which
      decides whether the guild-list write-back can raise. */
  datatype Env = Env(token: string, intents: int, os: string, models: Models, merge: Merge, guildSlotted: bool)

  /** A Gateway frame: `op`, `t` and `s` are None when absent. */
  datatype Frame = Frame(op: Option<int>, t: Option<string>, d: Body, s: Option<int>)

  /** Where a reconnect connects to: a known URL (possibly None) or a
      fresh one from the HTTP API. */
  datatype Url = Given(url: Option<string>) | FetchGateway

  /** The decisions of one `_reconnect`: the close code used on the held
      socket (None when there is none), the URL, and the handshake sent. */
  datatype ReconnectPlan = ReconnectPlan(closeWith: Option<int>, url: Url, handshake: GatewayPayload)

  /** What the client does towards the outside. */
  datatype Effect =
    | Sent(payload: GatewayPayload)
    | Emitted(name: string)
    | Published(event: Dispatched)
    | Reconnected(plan: ReconnectPlan)

  predicate UrlTruthy(u: Option<string>) {
    u.Some? && u.value != ""
  }

  /** The decision part of `_reconnect(to_resume, code)`.  Clearing the
      `_ready` slot only works once READY stored a dict there. */
  function PlanReconnect(s: Session, resume: bool, code: int, env: Env): (r: Result<ReconnectPlan>)
    ensures r.Ok? <==> s.readySlot == HoldsDict
    ensures r.Err? ==> r.error == AttributeMissing
    ensures r.Ok? ==> (r.value.closeWith.Some? <==> s.connected)
    ensures r.Ok? && s.connected ==> r.value.closeWith == Some(code)
    ensures r.Ok? && resume ==>
      r.value.url == Given(s.resumeUrl) && r.value.handshake == Resume(env.token, s.sequence, s.sessionId)
    ensures r.Ok? && !resume ==>
      && r.value.url == (if UrlTruthy(s.wsUrl) then Given(s.wsUrl) else FetchGateway)
      && r.value.handshake == Identify(env.token, env.intents, env.os, s.shard, s.presence)
  {
    if s.readySlot != HoldsDict then Err(AttributeMissing)
    else
      var url := if resume then Given(s.resumeUrl) else if UrlTruthy(s.wsUrl) then Given(s.wsUrl) else FetchGateway;
      var handshake := if resume then Resume(env.token, s.sequence, s.sessionId)
                       else Identify(env.token, env.intents, env.os, s.shard, s.presence);
      Ok(ReconnectPlan(if s.connected then Some(code) else None, url, handshake))
  }

  /** The reconnect's effect on the session: a socket is held, the
      respawned heartbeat task sets the ack event, the connection is
      usable again; the plan is carried out and its handshake sent. */
  function Reconnect(s: Session, resume: bool, code: int, env: Env): (r: Result<(Session, seq<Effect>)>)
    ensures r.Ok? <==> PlanReconnect(s, resume, code, env).Ok?
    ensures r.Ok? ==>
      var plan := PlanReconnect(s, resume, code, env).value;
      && r.value.1 == [Reconnected(plan), Sent(plan.handshake)]
      && r.value.0 == s.(connected := true, ackSet := true, closedSet := true)
  {
    var plan :- PlanReconnect(s, resume, code, env);
    Ok((s.(connected := true, ackSet := true, closedSet := true), [Reconnected(plan), Sent(plan.handshake)]))
  }

  /** The result of handling one frame. */
  datatype StreamStep = StreamStep(session: Session, cache: Cache, effects: seq<Effect>, outcome: Outcome)

  function AfterReconnect(s: Session, c: Cache, r: Result<(Session, seq<Effect>)>): StreamStep {
    match r
    case Ok((s', effects)) => StreamStep(s', c, effects, Completed)
    case Err(e) => StreamStep(s, c, [], Raised(e))
  }

  function Publish(events: seq<Dispatched>): (r: seq<Effect>)
    ensures |r| == |events|
    ensures forall i :: 0 <= i < |events| ==> r[i] == Published(events[i])
  {
    if |events| == 0 then [] else [Published(events[0])] + Publish(events[1..])
  }

  /** A dispatch frame named READY. */
  predicate IsReady(f: Frame) {
    f.op == Some(DISPATCH) && f.t == Some("READY")
  }

  /** The `s` of a frame is taken over only when it is truthy. */
  predicate TakesSequence(f: Frame) {
    f.s.Some? && f.s.value != 0
  }

  /** READY: the ready event is set and `on_ready` goes out before the
      body is read; then the session id and resume URL are copied (a
      missing key raises, a null one is copied as None) and `on_start`
      goes out the first time only. */
  function HandleReady(s: Session, c: Cache, d: Body): (r: StreamStep)
    ensures r.session.ready && r.cache == c
    ensures |r.effects| >= 1 && r.effects[0] == Emitted("on_ready")
    ensures r.outcome == Completed <==> d.Object? && !d.sessionId.KeyAbsent? && !d.resumeUrl.KeyAbsent?
    ensures r.outcome == Completed ==>
      && r.session.sessionId == FieldValue(d.sessionId)
      && r.session.resumeUrl == FieldValue(d.resumeUrl)
      && r.session.started
    ensures r.outcome == Raised(KeyMissing) <==> d.Object? && (d.sessionId.KeyAbsent? || d.resumeUrl.KeyAbsent?)
    ensures r.outcome == Raised(TypeMismatch) <==> !d.Object?
    ensures r.outcome == Completed && !s.started ==> r.effects == [Emitted("on_ready"), Emitted("on_start")]
    ensures r.outcome != Completed || s.started ==> r.effects == [Emitted("on_ready")]
    ensures r.outcome != Completed ==> r.session.started == s.started
    ensures r.session.sequence == s.sequence && r.session.stopping == s.stopping
    ensures r.session.readySlot == (if d.Object? then HoldsDict else HoldsOther)
  {
    var s1 := s.(ready := true, readySlot := if d.Object? then HoldsDict else HoldsOther);
    var e := [Emitted("on_ready")];
    match d
    case Object(_, sid, rurl, _) =>
      if sid.KeyAbsent? then StreamStep(s1, c, e, Raised(KeyMissing))
      else
        var s2 := s1.(sessionId := FieldValue(sid));
        if rurl.KeyAbsent? then StreamStep(s2, c, e, Raised(KeyMissing))
        else
          var s3 := s2.(resumeUrl := FieldValue(rurl));
          if !s3.started then StreamStep(s3.(started := true), c, e + [Emitted("on_start")], Completed)
          else StreamStep(s3, c, e, Completed)
    case _ => StreamStep(s1, c, e, Raised(TypeMismatch))
  }

  /** The non-dispatch opcodes of `_handle_stream`: HEARTBEAT answers
      with a heartbeat, HEARTBEAT_ACK sets the ack event, INVALID_SESSION
      clears `ready` and reconnects (resuming iff the body is truthy),
      RECONNECT reconnects with resume; any other opcode does nothing. */
  function HandleControl(s: Session, c: Cache, f: Frame, env: Env): (r: StreamStep)
    ensures r.session.sequence == s.sequence && r.session.stopping == s.stopping
    ensures r.session.started == s.started && r.cache == c
    ensures forall i :: 0 <= i < |r.effects| ==> !r.effects[i].Emitted?
  {
    if f.op == Some(HEARTBEAT) then StreamStep(s, c, [Sent(Heartbeat(s.sequence))], Completed)
    else if f.op == Some(HEARTBEAT_ACK) then StreamStep(s.(ackSet := true), c, [], Completed)
    else if f.op == Some(INVALIDATE_SESSION) then
      var s1 := s.(ready := false);
      AfterReconnect(s1, c, Reconnect(s1, BodyTruthy(f.d), Receive.DEFAULT_RECONNECT_CODE, env))
    else if f.op == Some(RECONNECT) then
      AfterReconnect(s, c, Reconnect(s, true, Receive.DEFAULT_RECONNECT_CODE, env))
    else StreamStep(s, c, [], Completed)
  }

  /** The dispatch frames of `_handle_stream`: RESUMED does nothing, READY
      is `HandleReady`, anything else goes to `DispatchEvent`. */
  function HandleDispatch(s: Session, c: Cache, f: Frame, env: Env): (r: StreamStep)
    ensures r.session.sequence == s.sequence && r.session.stopping == s.stopping
    ensures s.started ==> r.session.started
    ensures f.t == Some("READY") ==>
      r.effects == [Emitted("on_ready")] + (if !s.started && r.session.started then [Emitted("on_start")] else [])
    ensures f.t != Some("READY") ==> r.session == s
    ensures f.t != Some("READY") ==> forall i :: 0 <= i < |r.effects| ==> !r.effects[i].Emitted?
  {
    if f.t == Some("RESUMED") then StreamStep(s, c, [], Completed)
    else if f.t == Some("READY") then HandleReady(s, c, f.d)
    else
      var r := DispatchEvent(env.models, c, f.t, f.d, env.merge, env.guildSlotted);
      StreamStep(s, r.cache, Publish(r.events), r.outcome)
  }

  /** `_handle_stream`: the sequence is taken over from a truthy `s`, then
      the frame goes to `HandleControl` (any opcode but DISPATCH, absent
      included) or `HandleDispatch`. */
  function HandleStream(s: Session, c: Cache, f: Frame, env: Env): (r: StreamStep)
    ensures r.session.sequence == (if TakesSequence(f) then f.s else s.sequence)
    ensures r.session.stopping == s.stopping
    ensures s.started ==> r.session.started
    ensures IsReady(f) ==>
      r.effects == [Emitted("on_ready")] + (if !s.started && r.session.started then [Emitted("on_start")] else [])
    ensures !IsReady(f) ==> r.session.started == s.started
    ensures !IsReady(f) ==> forall i :: 0 <= i < |r.effects| ==> !r.effects[i].Emitted?
  {
    var s1 := if TakesSequence(f) then s.(sequence := f.s) else s;
    if f.op != Some(DISPATCH) then HandleControl(s1, c, f, env) else HandleDispatch(s1, c, f, env)
  }

  /** How often `e` occurs in `es`. */
  function Count(es: seq<Effect>, e: Effect): nat {
    if |es| == 0 then 0 else (if es[0] == e then 1 else 0) + Count(es[1..], e)
  }

  lemma {:induction false} CountAppend(a: seq<Effect>, b: seq<Effect>, e: Effect)
    ensures Count(a + b, e) == Count(a, e) + Count(b, e)
    decreases |a|
  {
    if |a| == 0 {
      assert a + b == b;
    } else {
      assert (a + b)[1..] == a[1..] + b;
      CountAppend(a[1..], b, e);
    }
  }

  lemma {:induction false} CountAbsent(es: seq<Effect>, e: Effect)
    requires forall i :: 0 <= i < |es| ==> es[i] != e
    ensures Count(es, e) == 0
    decreases |es|
  {
    if |es| > 0 {
      CountAbsent(es[1..], e);
    }
  }

  lemma ReadyNames(n: string, m: string)
    requires n == "on_ready" && m == "on_start"
    ensures n != m
  {
    assert n[3] != m[3];
  }

  lemma CountReadyEffects(started: bool)
    ensures var es := [Emitted("on_ready")] + (if started then [Emitted("on_start")] else []);
            && Count(es, Emitted("on_start")) == (if started then 1 else 0)
            && Count(es, Emitted("on_ready")) == 1
  {
    ReadyNames("on_ready", "on_start");
    var tail: seq<Effect> := if started then [Emitted("on_start")] else [];
    CountAppend([Emitted("on_ready")], tail, Emitted("on_start"));
    CountAppend([Emitted("on_ready")], tail, Emitted("on_ready"));
    assert Count([Emitted("on_ready")], Emitted("on_start")) == 0;
    assert Count([Emitted("on_ready")], Emitted("on_ready")) == 1;
  }

  /** Per frame: `on_start` goes out exactly when this frame turned
      `started` on, and `on_ready` goes out once per READY frame. */
  lemma HandleStreamLifecycle(s: Session, c: Cache, f: Frame, env: Env)
    ensures var r := HandleStream(s, c, f, env);
            && Count(r.effects, Emitted("on_start")) == (if !s.started && r.session.started then 1 else 0)
            && Count(r.effects, Emitted("on_ready")) == (if IsReady(f) then 1 else 0)
  {
    var r := HandleStream(s, c, f, env);
    if IsReady(f) {
      CountReadyEffects(!s.started && r.session.started);
    } else {
      CountAbsent(r.effects, Emitted("on_start"));
      CountAbsent(r.effects, Emitted("on_ready"));
    }
  }

  /** The messages the receive loop hands over, handled in order until
      one raises (the exception leaves `run`).  A message is None when the
      socket data was not text; `_handle_stream` then fails on its first
      `stream.get`. */
  datatype Run = Run(session: Session, cache: Cache, effects: seq<Effect>, handled: nat, error: Option<Error>)

  function RunFrames(s: Session, c: Cache, messages: seq<Option<Frame>>, env: Env): (r: Run)
    ensures r.handled <= |messages|
    ensures r.error.None? ==> r.handled == |messages|
    ensures r.error.Some? ==> r.handled >= 1
    ensures forall i :: 0 <= i < r.handled - 1 ==> messages[i].Some?
    ensures r.handled >= 1 && messages[r.handled - 1].None? ==> r.error == Some(AttributeMissing)
    decreases |messages|
  {
    if |messages| == 0 then Run(s, c, [], 0, None)
    else match messages[0]
      case None => Run(s, c, [], 1, Some(AttributeMissing))
      case Some(f) =>
        var step := HandleStream(s, c, f, env);
        if step.outcome.Raised? then Run(step.session, step.cache, step.effects, 1, Some(step.outcome.error))
        else
          var rest := RunFrames(step.session, step.cache, messages[1..], env);
          Run(rest.session, rest.cache, step.effects + rest.effects, rest.handled + 1, rest.error)
  }

  /** A READY frame, as opposed to any other frame or a non-text message. */
  predicate IsReadyMessage(m: Option<Frame>) {
    m.Some? && IsReady(m.value)
  }

  /** The number of READY frames in a list of messages. */
  function ReadyCount(messages: seq<Option<Frame>>): nat {
    if |messages| == 0 then 0
    else (if IsReadyMessage(messages[0]) then 1 else 0) + ReadyCount(messages[1..])
  }

  /** Over a whole run, `on_start` is emitted at most once, and exactly
      once if `started` was off and is on at the end; `started` is never
      turned off; `on_ready` is emitted once per READY frame handled. */
  lemma {:induction false} RunLifecycle(s: Session, c: Cache, messages: seq<Option<Frame>>, env: Env)
    ensures var r := RunFrames(s, c, messages, env);
            && (s.started ==> r.session.started)
            && Count(r.effects, Emitted("on_start")) == (if !s.started && r.session.started then 1 else 0)
            && Count(r.effects, Emitted("on_ready")) == ReadyCount(messages[..r.handled])
    decreases |messages|
  {
    var r := RunFrames(s, c, messages, env);
    if |messages| == 0 {
      assert messages[..0] == [];
    } else if messages[0].None? {
      assert messages[..1] == [messages[0]];
      assert ReadyCount([messages[0]]) == 0;
    } else {
      var f := messages[0].value;
      var step := HandleStream(s, c, f, env);
      HandleStreamLifecycle(s, c, f, env);
      if step.outcome.Raised? {
        assert messages[..1] == [messages[0]];
        assert ReadyCount([messages[0]]) == (if IsReady(f) then 1 else 0);
      } else {
        var rest := RunFrames(step.session, step.cache, messages[1..], env);
        RunLifecycle(step.session, step.cache, messages[1..], env);
        CountAppend(step.effects, rest.effects, Emitted("on_start"));
        CountAppend(step.effects, rest.effects, Emitted("on_ready"));
        assert messages[..r.handled][1..] == messages[1..][..rest.handled];
        assert messages[..r.handled][0] == messages[0];
      }
    }
  }

  /** The last truthy `s` among the frames, or `sequence` when there is
      none; a non-text message carries none. */
  function LastSequence(messages: seq<Option<Frame>>, sequence: Option<int>): Option<int> {
    if |messages| == 0 then sequence
    else
      var next := if messages[0].Some? && TakesSequence(messages[0].value) then messages[0].value.s else sequence;
      LastSequence(messages[1..], next)
  }

  /** After a run the session holds the last truthy sequence number of the
      frames handled: frames without one never reset it. */
  lemma {:induction false} RunSequence(s: Session, c: Cache, messages: seq<Option<Frame>>, env: Env)
    ensures var r := RunFrames(s, c, messages, env);
            r.session.sequence == LastSequence(messages[..r.handled], s.sequence)
    decreases |messages|
  {
    var r := RunFrames(s, c, messages, env);
    if |messages| > 0 {
      if messages[0].None? {
        assert messages[..1] == [messages[0]];
        assert [messages[0]][1..] == [];
      } else {
        var step := HandleStream(s, c, messages[0].value, env);
        if step.outcome.Raised? {
          assert messages[..1] == [messages[0]];
          assert [messages[0]][1..] == [];
        } else {
          RunSequence(step.session, step.cache, messages[1..], env);
          var rest := RunFrames(step.session, step.cache, messages[1..], env);
          assert messages[..r.handled][1..] == messages[1..][..rest.handled];
          assert messages[..r.handled][0] == messages[0];
        }
      }
    }
  }

  /** HEARTBEAT_ACK sets the ack event and changes nothing else but the
      sequence. */
  lemma AckSetsOnlyAck(s: Session, c: Cache, f: Frame, env: Env)
    requires f.op == Some(HEARTBEAT_ACK)
    ensures var r := HandleStream(s, c, f, env);
            && r == StreamStep(s.(ackSet := true, sequence := r.session.sequence), c, [], Completed)
  {
  }

  /** A HEARTBEAT request is answered with a heartbeat carrying the
      sequence after this frame's update. */
  lemma HeartbeatRequestAnswered(s: Session, c: Cache, f: Frame, env: Env)
    requires f.op == Some(HEARTBEAT)
    ensures var r := HandleStream(s, c, f, env);
            r.effects == [Sent(Heartbeat(r.session.sequence))] && r.cache == c
  {
  }

  /** INVALID_SESSION clears `ready` and reconnects, resuming exactly when
      the body is truthy; before any READY stored its dict the reconnect
      raises instead. */
  lemma InvalidSessionReconnects(s: Session, c: Cache, f: Frame, env: Env)
    requires f.op == Some(INVALIDATE_SESSION)
    ensures var r := HandleStream(s, c, f, env);
            && !r.session.ready
            && (s.readySlot != HoldsDict ==> r.outcome == Raised(AttributeMissing) && r.effects == [])
            && (s.readySlot == HoldsDict ==>
                 && r.outcome == Completed && |r.effects| == 2
                 && r.effects[0].Reconnected?
                 && (r.effects[1].payload.Resume? <==> BodyTruthy(f.d))
                 && (BodyTruthy(f.d) ==> r.effects[0].plan.url == Given(s.resumeUrl)))
  {
  }

  /** RECONNECT reconnects with resume: to the resume URL, sending a
      RESUME with the token, the sequence and the session id. */
  lemma ReconnectOpResumes(s: Session, c: Cache, f: Frame, env: Env)
    requires f.op == Some(RECONNECT) && s.readySlot == HoldsDict
    ensures var r := HandleStream(s, c, f, env);
            var sequence := if TakesSequence(f) then f.s else s.sequence;
            && r.outcome == Completed
            && r.effects[0].Reconnected? && r.effects[0].plan.url == Given(s.resumeUrl)
            && r.effects[1] == Sent(Resume(env.token, sequence, s.sessionId))
  {
  }

  /** As written, a RECONNECT before the first READY raises: `_ready` has
      never been assigned. */
  lemma ReconnectBeforeReadyRaises(sid: Option<string>, sequence: Option<int>, c: Cache, env: Env)
    ensures var f := Frame(Some(RECONNECT), None, Absent, None);
            HandleStream(Initial(sid, sequence), c, f, env).outcome == Raised(AttributeMissing)
  {
  }

  /** `heartbeat_interval` of the hello read during a handshake; the
      opcode is not looked at.  A missing `d`, or an object without the
      interval, is a `KeyError`; no read frame (the data was not text), a
      null `d` or a boolean one is a `TypeError`.  A null interval is read
      as None without raising. */
  function HelloInterval(hello: Option<Frame>): (r: Result<Option<int>>)
    ensures r.Ok? <==> hello.Some? && hello.value.d.Object? && !hello.value.d.interval.KeyAbsent?
    ensures r.Ok? ==> r.value == FieldValue(hello.value.d.interval)
    ensures r == Err(KeyMissing) <==>
      hello.Some? && (hello.value.d.Absent? || (hello.value.d.Object? && hello.value.d.interval.KeyAbsent?))
    ensures r == Err(TypeMismatch) <==> hello.None? || hello.value.d.Null? || hello.value.d.Flag?
  {
    match hello
    case None => Err(TypeMismatch)
    case Some(f) =>
      match f.d
      case Absent => Err(KeyMissing)
      case Object(interval, _, _, _) => if interval.KeyAbsent? then Err(KeyMissing) else Ok(FieldValue(interval))
      case _ => Err(TypeMismatch)
  }

  /** Any frame with the interval does as a hello, whatever its opcode. */
  lemma HelloOpcodeIgnored(f: Frame, op: Option<int>)
    ensures HelloInterval(Some(f)) == HelloInterval(Some(f.(op := op)))
  {
  }

  /** The start of `run`: the fetched URL becomes `ws_url`, the hello gives
      the heartbeat delay (None for a null interval), an identify with the
      stored shard and presence goes out, and the connection and ack
      events are set. */
  function Start(s: Session, url: string, hello: Option<Frame>, env: Env): (r: Result<(Session, Option<int>, seq<Effect>)>)
    ensures r.Ok? <==> HelloInterval(hello).Ok?
    ensures r.Ok? ==>
      && r.value.0 == s.(wsUrl := Some(url), connected := true, closedSet := true, ackSet := true)
      && r.value.1 == HelloInterval(hello).value
      && r.value.2 == [Sent(Identify(env.token, env.intents, env.os, s.shard, s.presence))]
  {
    var interval :- HelloInterval(hello);
    Ok((s.(wsUrl := Some(url), connected := true, closedSet := true, ackSet := true), interval,
        [Sent(Identify(env.token, env.intents, env.os, s.shard, s.presence))]))
  }

  /** One iteration of `_manage_heartbeat`. */
  datatype Tick = Tick(session: Session, effects: seq<Effect>)

  /** A missing ack triggers a resuming reconnect first; then the ack
      event is cleared and a heartbeat with the current sequence goes
      out.  A failing reconnect ends the heartbeat task, which sets the
      closing event. */
  function HeartbeatTick(s: Session, env: Env): (r: Tick)
    ensures !r.session.stopping ==> !r.session.ackSet
    ensures r.session.stopping <==> s.stopping || (!s.ackSet && s.readySlot != HoldsDict)
    ensures s.ackSet ==> r.effects == [Sent(Heartbeat(s.sequence))]
    ensures !s.ackSet && s.readySlot == HoldsDict ==>
      && |r.effects| == 3
      && r.effects[0] == Reconnected(PlanReconnect(s, true, Receive.DEFAULT_RECONNECT_CODE, env).value)
      && r.effects[1] == Sent(Resume(env.token, s.sequence, s.sessionId))
      && r.effects[2] == Sent(Heartbeat(s.sequence))
    ensures r.session.sequence == s.sequence
  {
    if !s.ackSet then
      match Reconnect(s, true, Receive.DEFAULT_RECONNECT_CODE, env)
      case Err(_) => Tick(s.(stopping := true), [])
      case Ok((s1, effects)) => Tick(s1.(ackSet := false), effects + [Sent(Heartbeat(s1.sequence))])
    else Tick(s.(ackSet := false), [Sent(Heartbeat(s.sequence))])
  }

  function AckFrame(): Frame {
    Frame(Some(HEARTBEAT_ACK), None, Absent, None)
  }

  /** An ack between two ticks: the second tick only sends a heartbeat. */
  lemma AckedTickDoesNotReconnect(s: Session, c: Cache, env: Env)
    requires !s.stopping
    ensures var t1 := HeartbeatTick(s, env);
            var acked := HandleStream(t1.session, c, AckFrame(), env).session;
            HeartbeatTick(acked, env).effects == [Sent(Heartbeat(s.sequence))]
  {
  }

  /** No ack between two ticks: the second tick reconnects with resume
      before its heartbeat (or stops the heartbeat loop when it cannot). */
  lemma MissedAckReconnects(s: Session, env: Env)
    requires !s.stopping
    ensures var t1 := HeartbeatTick(s, env);
            var t2 := HeartbeatTick(t1.session, env);
            && (t1.session.readySlot == HoldsDict ==>
                  |t2.effects| == 3 && t2.effects[0].Reconnected? && t2.effects[0].plan.handshake.Resume?)
            && (t1.session.readySlot != HoldsDict ==> t2.session.stopping && t2.effects == [])
  {
  }

  /** `_update_presence`: the presence goes out and is kept for the next
      identify. */
  function UpdatePresence(s: Session, presence: Json): (r: (Session, seq<Effect>))
    ensures r.0.presence == Some(presence)
    ensures r.1 == [Sent(PresenceUpdate(presence))]
    ensures r.0 == s.(presence := Some(presence))
  {
    (s.(presence := Some(presence)), [Sent(PresenceUpdate(presence))])
  }

  /** A fresh reconnect after a presence update identifies with that
      presence. */
  lemma PresenceSurvivesReconnect(s: Session, presence: Json, code: int, env: Env)
    requires s.readySlot == HoldsDict
    ensures var s1 := UpdatePresence(s, presence).0;
            PlanReconnect(s1, false, code, env).value.handshake.presence == Some(presence)
  {
  }
}

=== FILE: text.dfy ===
/** String helpers with Python's meaning: `str.lower`, `str.capitalize`,
    `str.split(sep)`, `sep.join(...)`, `"".join(...)`, `sub in s`,
    `s.startswith(p)` and the slice `s[n:]`.  Case mapping covers ASCII
    letters only: event and class names are ASCII. */
module Text {

  function LowerChar(c: char): char {
    if 'A' <= c <= 'Z' then (c as int + 32) as char else c
  }

  function UpperChar(c: char): char {
    if 'a' <= c <= 'z' then (c as int - 32) as char else c
  }

  /** `s.lower()`: every character is mapped on its own, the length is kept. */
  function Lower(s: string): (r: string)
    ensures |r| == |s|
    ensures forall i :: 0 <= i < |s| ==> r[i] == LowerChar(s[i])
  {
    if s == [] then [] else [LowerChar(s[0])] + Lower(s[1..])
  }

  /** Lower-casing distributes over concatenation. */
  lemma LowerConcat(a: string, b: string)
    ensures Lower(a + b) == Lower(a) + Lower(b)
  {
    assert forall i :: 0 <= i < |a + b| ==> (a + b)[i] == if i < |a| then a[i] else b[i - |a|];
  }

  /** `s.capitalize()`: first character upper-cased, the rest lower-cased. */
  function Capitalize(s: string): (r: string)
    ensures |r| == |s|
    ensures |s| > 0 ==> r[0] == UpperChar(s[0])
    ensures forall i :: 0 < i < |s| ==> r[i] == LowerChar(s[i])
  {
    if s == [] then [] else [UpperChar(s[0])] + Lower(s[1..])
  }

  /** `sep.join(parts)` for a one-character separator. */
  function JoinWith(parts: seq<string>, sep: char): string {
    if |parts| == 0 then ""
    else if |parts| == 1 then parts[0]
    else parts[0] + [sep] + JoinWith(parts[1..], sep)
  }

  /** `"".join(parts)`. */
  function Concat(parts: seq<string>): string {
    if |parts| == 0 then "" else parts[0] + Concat(parts[1..])
  }

  /** `s.split(sep)`: never empty, no section holds the separator, and
      joining the sections back gives `s` again. */
  function Split(s: string, sep: char): (r: seq<string>)
    ensures |r| >= 1
    ensures forall k :: 0 <= k < |r| ==> sep !in r[k]
    ensures JoinWith(r, sep) == s
  {
    if |s| == 0 then [""]
    else
      var rest := Split(s[1..], sep);
      if s[0] == sep then
        assert s == [sep] + s[1..];
        [""] + rest
      else
        assert s == [s[0]] + s[1..];
        [[s[0]] + rest[0]] + rest[1..]
  }

  /** Joining separator-free sections and splitting again gives the
      sections back: `Split` is the unique inverse of `JoinWith`. */
  lemma {:induction false} SplitJoin(parts: seq<string>, sep: char)
    requires |parts| >= 1
    requires forall k :: 0 <= k < |parts| ==> sep !in parts[k]
    ensures Split(JoinWith(parts, sep), sep) == parts
    decreases |JoinWith(parts, sep)|
  {
    var s := JoinWith(parts, sep);
    if parts[0] == "" {
      if |parts| == 1 {
        assert s == "";
      } else {
        assert s == [sep] + JoinWith(parts[1..], sep);
        assert s[1..] == JoinWith(parts[1..], sep);
        SplitJoin(parts[1..], sep);
        assert Split(s, sep) == [""] + parts[1..];
        assert parts == [""] + parts[1..];
      }
    } else {
      var w := parts[0][1..];
      var tailParts := [w] + parts[1..];
      assert parts[0] == [parts[0][0]] + w;
      assert parts[0][0] != sep by { assert parts[0][0] in parts[0]; }
      forall k | 0 <= k < |tailParts|
        ensures sep !in tailParts[k]
      {
        if k == 0 {
          assert forall c :: c in w ==> c in parts[0];
        } else {
          assert tailParts[k] == parts[k];
        }
      }
      if |parts| == 1 {
        assert JoinWith(tailParts, sep) == w;
      } else {
        assert JoinWith(tailParts, sep) == w + [sep] + JoinWith(parts[1..], sep);
      }
      assert s == [parts[0][0]] + JoinWith(tailParts, sep);
      assert s[1..] == JoinWith(tailParts, sep);
      SplitJoin(tailParts, sep);
      assert parts == [[parts[0][0]] + tailParts[0]] + tailParts[1..];
    }
  }

  predicate StartsWith(s: string, prefix: string) {
    |prefix| <= |s| && s[..|prefix|] == prefix
  }

  /** `sub in s`, the substring test. */
  predicate Contains(s: string, sub: string)
    decreases |s|
  {
    StartsWith(s, sub) || (|s| > 0 && Contains(s[1..], sub))
  }

  /** `sub` occurs in `s` starting at position `i`. */
  predicate OccursAt(s: string, sub: string, i: int) {
    0 <= i && i + |sub| <= |s| && s[i..i + |sub|] == sub
  }

  /** The recursive substring test agrees with "occurs at some position". */
  lemma {:induction false} ContainsIffOccurs(s: string, sub: string)
    ensures Contains(s, sub) <==> exists i :: OccursAt(s, sub, i)
    decreases |s|
  {
    if StartsWith(s, sub) {
      assert OccursAt(s, sub, 0);
    } else if |s| > 0 {
      ContainsIffOccurs(s[1..], sub);
      if Contains(s[1..], sub) {
        var i :| OccursAt(s[1..], sub, i);
        assert s[i + 1..i + 1 + |sub|] == s[1..][i..i + |sub|];
        assert OccursAt(s, sub, i + 1);
      }
      if i :| OccursAt(s, sub, i) {
        assert i != 0;
        assert s[1..][i - 1..i - 1 + |sub|] == s[i..i + |sub|];
        assert OccursAt(s[1..], sub, i - 1);
      }
    }
  }

  /** A string that lacks some character of `sub` cannot contain `sub`. */
  lemma MissingCharExcludes(s: string, sub: string, c: char)
    requires c in sub && c !in s
    ensures !Contains(s, sub)
  {
    ContainsIffOccurs(s, sub);
  }

  /** `sub` is found inside `a + sub + b`. */
  lemma ContainsInfix(a: string, sub: string, b: string)
    ensures Contains(a + sub + b, sub)
  {
    var s := a + sub + b;
    assert s[|a|..|a| + |sub|] == sub;
    assert OccursAt(s, sub, |a|);
    ContainsIffOccurs(s, sub);
  }

  /** Python's `s[n:]` for `n >= 0`: empty once `n` passes the end. */
  function DropPrefix(s: string, n: nat): (r: string)
    ensures n <= |s| ==> s == s[..n] + r
    ensures n >= |s| ==> r == ""
  {
    if n >= |s| then "" else s[n..]
  }
}

=== FILE: voice.dfy ===
/** The voice processors of `VoiceEvents`: how a raw VOICE_STATE_UPDATE is
    turned into the library's voice events, and when a VOICE_SERVER_UPDATE
    is handed to the bot's own voice connection.  The voice cache is read,
    never written: placing the new state in the cache happens before the
    handler looks at it and is not part of this model. */
module Voice {
  import opened Wrappers
  import opened Entities

  /** A user's voice state, reduced to what the handler compares. */
  datatype VoiceState = VoiceState(
    member: Snowflake,
    channel: Option<Snowflake>,
    mute: bool,
    selfMute: bool,
    deaf: bool,
    selfDeaf: bool)

  /** The events the handler dispatches. */
  datatype VoiceEvent =
    | StateUpdate(before: Option<VoiceState>, after: Option<VoiceState>)
    | UserMute(state: VoiceState, member: Snowflake, channel: Option<Snowflake>, muted: bool)
    | UserDeafen(state: VoiceState, member: Snowflake, channel: Option<Snowflake>, deafened: bool)
    | UserMove(state: VoiceState, member: Snowflake, previous: Option<Snowflake>, channel: Option<Snowflake>)
    | UserJoin(state: VoiceState, member: Snowflake, channel: Option<Snowflake>)
    | UserLeave(state: VoiceState, member: Snowflake, channel: Option<Snowflake>)

  /** What the handler reads off the raw payload: `member.user.bot` and
      `guild_id` (None when the key is absent) and `user_id`. */
  datatype StateData = StateData(isBot: Option<bool>, guildId: Option<Snowflake>, userId: Snowflake)

  /** What the voice cache holds: the bot's own voice connection per
      guild, and each user's voice state, as the cache stands once the new
      state has been placed. */
  datatype VoiceCache = VoiceCache(bot: map<Snowflake, VoiceState>, users: map<Snowflake, VoiceState>)

  /** The dispatched events, and whether the payload was handed to the
      bot's voice connection. */
  datatype Handled = Handled(events: seq<VoiceEvent>, forwarded: bool)

  function Lookup<K, V>(m: map<K, V>, k: K): (r: Option<V>)
    ensures r.Some? <==> k in m
    ensures r.Some? ==> r.value == m[k]
  {
    if k in m then Some(m[k]) else None
  }

  predicate MuteChanged(b: VoiceState, a: VoiceState) {
    b.mute != a.mute || b.selfMute != a.selfMute
  }

  predicate DeafChanged(b: VoiceState, a: VoiceState) {
    b.deaf != a.deaf || b.selfDeaf != a.selfDeaf
  }

  /** The position of an event kind among the change events. */
  function Rank(e: VoiceEvent): nat {
    match e
    case UserMute(_, _, _, _) => 0
    case UserDeafen(_, _, _, _) => 1
    case UserMove(_, _, _, _) => 2
    case _ => 3
  }

  /** A join or a leave. */
  predicate Presence(e: VoiceEvent) {
    e.UserJoin? || e.UserLeave?
  }

  predicate IsChange(e: VoiceEvent) {
    e.UserMute? || e.UserDeafen? || e.UserMove?
  }

  /** The events for a user whose state was and still is known: a mute
      event when either mute flag changed, a deafen event when either deaf
      flag changed, a move event when the channel changed, in that order. */
  function Changes(b: VoiceState, a: VoiceState): (r: seq<VoiceEvent>)
    ensures forall e :: e in r ==> IsChange(e) && e.state == a && e.member == a.member
    ensures UserMute(a, a.member, a.channel, a.mute || a.selfMute) in r <==> MuteChanged(b, a)
    ensures UserDeafen(a, a.member, a.channel, a.deaf || a.selfDeaf) in r <==> DeafChanged(b, a)
    ensures UserMove(a, a.member, b.channel, a.channel) in r <==> b.channel != a.channel
    ensures forall e :: e in r && e.UserMute? ==> e == UserMute(a, a.member, a.channel, a.mute || a.selfMute)
    ensures forall e :: e in r && e.UserDeafen? ==> e == UserDeafen(a, a.member, a.channel, a.deaf || a.selfDeaf)
    ensures forall e :: e in r && e.UserMove? ==> e == UserMove(a, a.member, b.channel, a.channel)
    ensures forall i, j :: 0 <= i < j < |r| ==> Rank(r[i]) < Rank(r[j])
  {
    (if MuteChanged(b, a) then [UserMute(a, a.member, a.channel, a.mute || a.selfMute)] else [])
    + (if DeafChanged(b, a) then [UserDeafen(a, a.member, a.channel, a.deaf || a.selfDeaf)] else [])
    + (if b.channel != a.channel then [UserMove(a, a.member, b.channel, a.channel)] else [])
  }

  /** `_on_raw_voice_state_update`, given the new state `after` that the
      cache placement produced (None when it produced none).  A bot user's
      update goes out as one state update against the bot's connection in
      that guild, which then receives it; any other user's update goes out
      as a state update against the user's cached state, followed by the
      change, join or leave events. */
  function OnVoiceStateUpdate(cache: VoiceCache, data: StateData, after: Option<VoiceState>): (r: Result<Handled>)
    ensures r.Err? <==> data.isBot.None? || (data.isBot == Some(true) && data.guildId.None?)
    ensures r.Err? ==> r.error == KeyMissing
    ensures r.Ok? ==> |r.value.events| >= 1 && r.value.events[0].StateUpdate? && r.value.events[0].after == after
    ensures r.Ok? && data.isBot == Some(true) ==>
      r.value == Handled([StateUpdate(Lookup(cache.bot, data.guildId.value), after)], data.guildId.value in cache.bot)
    ensures r.Ok? && data.isBot == Some(false) ==>
      !r.value.forwarded && r.value.events[0] == StateUpdate(Lookup(cache.users, data.userId), after)
  {
    match data.isBot
    case None => Err(KeyMissing)
    case Some(true) =>
      if data.guildId.None? then Err(KeyMissing)
      else
        var vc := Lookup(cache.bot, data.guildId.value);
        Ok(Handled([StateUpdate(vc, after)], vc.Some?))
    case Some(false) =>
      var before := Lookup(cache.users, data.userId);
      var first := StateUpdate(before, after);
      var rest :=
        match (before, after)
        case (Some(b), Some(a)) => Changes(b, a)
        case (None, Some(a)) => [UserJoin(a, a.member, a.channel)]
        case (Some(b), None) => [UserLeave(b, b.member, b.channel)]
        case (None, None) => [];
      Ok(Handled([first] + rest, false))
  }

  /** `_on_raw_voice_server_update`: the payload reaches the bot's voice
      connection exactly when one exists for the guild; a payload without
      `guild_id` raises. */
  function OnVoiceServerUpdate(cache: VoiceCache, guildId: Option<Snowflake>): (r: Result<bool>)
    ensures r.Err? <==> guildId.None?
    ensures r.Err? ==> r.error == KeyMissing
    ensures r.Ok? ==> (r.value <==> guildId.value in cache.bot)
  {
    if guildId.None? then Err(KeyMissing) else Ok(guildId.value in cache.bot)
  }

  /** The handler's result for a user who is not a bot. */
  function UserEvents(cache: VoiceCache, user: Snowflake, after: Option<VoiceState>): seq<VoiceEvent>
  {
    OnVoiceStateUpdate(cache, StateData(Some(false), None, user), after).value.events
  }

  /** Both states known: the state update comes first and the rest are
      exactly the change events, each present iff its attribute changed. */
  lemma BothPresent(cache: VoiceCache, user: Snowflake, a: VoiceState)
    requires user in cache.users
    ensures var b := cache.users[user];
            var es := UserEvents(cache, user, Some(a));
            && es == [StateUpdate(Some(b), Some(a))] + Changes(b, a)
            && (UserMute(a, a.member, a.channel, a.mute || a.selfMute) in es <==> MuteChanged(b, a))
            && (UserDeafen(a, a.member, a.channel, a.deaf || a.selfDeaf) in es <==> DeafChanged(b, a))
            && (UserMove(a, a.member, b.channel, a.channel) in es <==> b.channel != a.channel)
            && (forall e :: e in es ==> !e.UserJoin? && !e.UserLeave?)
  {
    var b := cache.users[user];
    var es := UserEvents(cache, user, Some(a));
    assert es == [StateUpdate(Some(b), Some(a))] + Changes(b, a);
    forall e | e in es
      ensures !e.UserJoin? && !e.UserLeave?
    {
      if e != es[0] {
        assert e in Changes(b, a);
      }
    }
  }

  /** An update that repeats the cached state produces the state update
      and nothing else. */
  lemma UnchangedStateIsQuiet(cache: VoiceCache, user: Snowflake)
    requires user in cache.users
    ensures var s := cache.users[user];
            UserEvents(cache, user, Some(s)) == [StateUpdate(Some(s), Some(s))]
  {
    var s := cache.users[user];
    assert Changes(s, s) == [];
  }

  /** Only the new state known: one join event follows the state update. */
  lemma OnlyAfterJoins(cache: VoiceCache, user: Snowflake, a: VoiceState)
    requires user !in cache.users
    ensures UserEvents(cache, user, Some(a)) == [StateUpdate(None, Some(a)), UserJoin(a, a.member, a.channel)]
  {
  }

  /** Only the old state known: one leave event, carrying the old state,
      follows the state update. */
  lemma OnlyBeforeLeaves(cache: VoiceCache, user: Snowflake)
    requires user in cache.users
    ensures var b := cache.users[user];
            UserEvents(cache, user, None) == [StateUpdate(Some(b), None), UserLeave(b, b.member, b.channel)]
  {
  }

  /** Neither state known: the state update alone. */
  lemma NeitherStateQuiet(cache: VoiceCache, user: Snowflake)
    requires user !in cache.users
    ensures UserEvents(cache, user, None) == [StateUpdate(None, None)]
  {
  }

  /** A bot's update never produces a mute, deafen, move, join or leave
      event, and reaches the bot's connection exactly when the server
      update for the same guild would. */
  lemma BotUpdateOnlyStateUpdate(cache: VoiceCache, guild: Snowflake, user: Snowflake, after: Option<VoiceState>)
    ensures var r := OnVoiceStateUpdate(cache, StateData(Some(true), Some(guild), user), after);
            && r.Ok? && |r.value.events| == 1 && r.value.events[0].StateUpdate?
            && r.value.forwarded == OnVoiceServerUpdate(cache, Some(guild)).value
  {
  }

  /** A join and a leave are never dispatched together, and at most one
      of either follows the state update. */
  lemma JoinLeaveExclusive(cache: VoiceCache, data: StateData, after: Option<VoiceState>)
    requires OnVoiceStateUpdate(cache, data, after).Ok?
    ensures var es := OnVoiceStateUpdate(cache, data, after).value.events;
            forall i, j :: 0 <= i < |es| && 0 <= j < |es| && Presence(es[i]) && Presence(es[j]) ==> i == j
  {
    var es := OnVoiceStateUpdate(cache, data, after).value.events;
    if data.isBot == Some(false) {
      var before := Lookup(cache.users, data.userId);
      if before.Some? && after.Some? {
        var ch := Changes(before.value, after.value);
        assert es == [StateUpdate(before, after)] + ch;
        forall i | 1 <= i < |es|
          ensures !Presence(es[i])
        {
          assert es[i] == ch[i - 1];
          assert es[i] in ch;
        }
      }
    }
  }
}

=== FILE: wrappers.dfy ===
/** Failure-compatible wrappers shared by the whole model.
    Option stands for Python's `Optional[...]` (None / a value);
    Outcome records how one step of the client ended. */
module Wrappers {

  datatype Option<+T> = None | Some(value: T) {

    /** The value, or `default` for None. */
    function GetOr(default: T): T {
      match this
      case Some(v) => v
      case None => default
    }
  }

  /** Why a step of the client stopped with an exception that escapes it. */
  datatype Error =
    | LibraryError(code: int)     // LibraryException carrying a Gateway close code
    | ForcedClose                 // LibraryException raised during a forced (handshake) read
    | KeyMissing                  // a KeyError from a payload lookup
    | AttributeMissing            // an AttributeError outside any handler
    | TypeMismatch                // a TypeError (iterating or subscripting None)
    | FocusedInCommand            // a focused pair handed to `dict.update`

  datatype Result<+R> = Ok(value: R) | Err(error: Error) {
    predicate IsFailure() { Err? }

    function PropagateFailure<U>(): Result<U>
      requires Err?
    {
      Err(error)
    }

    function Extract(): R
      requires Ok?
    {
      value
    }
  }

  /** Concatenation regroups freely. */
  lemma AppendAssoc<T>(a: seq<T>, b: seq<T>, c: seq<T>)
    ensures a + (b + c) == (a + b) + c
  {
  }
}
